=== FILE: README.md ===
# AndroidUtils core, modelled in Dafny

This project models the logic of the Android helper library
`com.topofwave.lib.utils` that can be stated as contracts. The Android platform
supplies some inputs. These are parameters of the model:

- the `Context` directories and the package name;
- the external-storage state;
- the `NetworkInfo` lists and the active network;
- the Wi-Fi address;
- the cookie string;
- the lines of `/proc/cpuinfo`;
- the `SecureRandom` draws;
- the MD5 engine.

The modelled parts are:

- **File tree.** `FileSystem` models the file system as a map from path (a
  sequence of names) to `File(bytes)` or `Dir`, plus two sets:
  - `locked`: the paths whose delete the OS refuses;
  - `deferred`: the paths queued by `deleteOnExit`.

  `Valid` says that the root is a directory and that every entry's parent is a
  directory. `FileUtils` models the following over that tree:
  - `deleteFile` and both `deleteDirectory` overloads;
  - `getSize`, `createFile`, the three `save` overloads, `copy`, `moveFile`
    and `makeDirectory`;
  - the fallback cache and files directories;
  - `extractName`, `extractSuffix`, and the shell command lines of
    `deleteDirectoryWithOSNative` and `rename`.
- **Clean-up.** `AppDataCleanManager` models the five cleaners,
  `cleanAPPlicationData`, `cleanWebCache` and `cleanCookie`.
- **Streams.** `Streams` models an input stream as its content plus a
  read-size oracle. `IOUtils` models `closeQuietly`, `getStreamEncoding`,
  `toByteArray`, `load`, `getFileByte`, `toStringBuffer` and
  `convertToString`, including its loss of every second chunk.
- **Web views.** `WebViewUtils` models `isUrl`, `checkUrl` and the cookie
  parsing of `synCookies`.
- **Network.** `NetworkUtils` and `NetTypes` model the network-type decisions,
  the dotted-quad Wi-Fi address, the `getIpAddress` fallback and the `NetType`
  values.
- **Hashing and random strings.**
  - `MD5Utils` models the guards of `getMD5` and the zero-padded lowercase hex
    rendering of `digest`.
  - `StringUtils` models `generateRandom` and its 62-character alphabet.
- **Device, views and patterns.**
  - `DeviceUtils` models the line scan of `getCPUSerial`.
  - `ViewUtils` models `setGone` and `setInvisible`.
  - `CommonRegex` models the patterns as a small regular-expression datatype,
    with whole-string matching.
- **Helpers.** `Text` models the `java.lang.String` operations the code relies
  on: `trim`, `indexOf`, `lastIndexOf`, `contains`, `replace`, `split`, and
  `%d` formatting.

## Where the code and its own description differ

The model follows the code in each of these cases.

- **`copy`.** The code checks for a missing parent directory of the
  destination only after it has opened the destination. A missing parent has
  already made that open fail, so the check never runs. `FileUtils.CopyParentBranchDead`
  states this. A copy of a file onto itself truncates the file
  (`FileUtils.CopyOntoItself`). So copying is not always non-destructive.
- **`getStreamEncoding`.** `FF FE` gives "unicode" and `FF FF` gives
  "utf-16le". `FF FE` does not give "utf-16le". The mark and reset act on a
  local `BufferedInputStream`, so nothing is claimed about the caller's
  stream.
- **`deleteDirectoryWithOSNative`.** It reports true whenever the process
  could be spawned. This holds even for a path that does not exist.
- **The databases and shared_prefs directories.** Their paths are built by
  plain concatenation onto `getFilesDir().getPath()`:
  - there is no fallback;
  - there is no separator before the package name;
  - a null files directory throws `NullPointerException`.
- **Escaping exceptions.** Several operations let exceptions reach the caller.
  For example:
  - `getSize` of a non-directory throws `NullPointerException`;
  - `createFile` below a regular file throws `IOException`.
- **`makeDirectory`.** Its documentation promises an `IOException` when the
  directory cannot be created. The code returns the false of `mkdirs` or
  `mkdir` instead and never throws for that reason
  (`FileUtils.MakeDirectorySpec`).
- **`setGone` and `setInvisible`.** The documentation says `setGone(v, false)`
  leaves an INVISIBLE view alone, and that `setInvisible(v, false)` leaves a
  GONE view alone. The code makes both VISIBLE (`ViewUtils.HiddenViewIsShown`).
- **`EMAIL`.** The pattern is case-sensitive. It rejects every address that
  contains an upper-case letter (`CommonRegex.EmailRejectsUpperCase`).

## Model

Every source path below is relative to the repository root.

| member | source | states |
|---|---|---|
| FileUtils.DeleteFile | lib/src/main/java/com/topofwave/lib/utils/file/FileUtils.java:352-358 | The result is true exactly when the OS allows the delete. On true only that entry is gone. On false nothing is removed and the path joins the deferred set. |
| FileUtils.DeleteDirectory | lib/src/main/java/com/topofwave/lib/utils/file/FileUtils.java:287-308 | A missing or non-directory argument gives false and changes nothing. Otherwise the result is true iff the directory is not the root, is not locked and every child can be deleted; on true the directory is gone. Deletion only removes entries and never alters one. |
| FileUtils.DeleteDirectoryPath | lib/src/main/java/com/topofwave/lib/utils/file/FileUtils.java:280-285 | Null and "" give false and change nothing, as `new File("").isDirectory()` is false. Otherwise the result is true iff the parsed directory can be cleared, and deletion only removes entries. |
| FileUtils.DeleteDirectoryLoop | lib/src/main/java/com/topofwave/lib/utils/file/FileUtils.java:291-308 | The for-each loop over `listFiles()` gives each child exactly one delete attempt and then tries the directory once. It ends in the same state and result as the one-level reference `FileUtils.DeleteDirectory`. |
| FileUtils.DeleteDirectoryRejects | lib/src/main/java/com/topofwave/lib/utils/file/FileUtils.java:280-293 | A null path, a null `File`, or a path that is not a directory gives false and leaves the tree unchanged. |
| FileUtils.DeleteDirectoryOutcome | lib/src/main/java/com/topofwave/lib/utils/file/FileUtils.java:295-307 | The result is true iff the directory is not the root, is not locked, and every child could be deleted. The removable children go, the others are deferred, and the directory itself is removed on true and deferred on false. |
| FileUtils.AfterChildrenLeavesStuck | lib/src/main/java/com/topofwave/lib/utils/file/FileUtils.java:295-299 | After the loop, the directory's remaining children are exactly those whose delete was refused. |
| FileUtils.SiblingsDoNotTouchContents | lib/src/main/java/com/topofwave/lib/utils/file/FileUtils.java:295-299 | Whether a child can be deleted does not depend on which siblings were deleted before it, so the loop's order does not matter. |
| FileUtils.DeleteDirectoryShallow | lib/src/main/java/com/topofwave/lib/utils/file/FileUtils.java:295-299 | Nothing below the children is touched: the deletion does not recurse. |
| FileUtils.DeleteDirectoryNonEmptySubdir | lib/src/main/java/com/topofwave/lib/utils/file/FileUtils.java:295-307 | A directory holding a non-empty subdirectory survives together with that subdirectory and its contents. Both are deferred and the result is false. |
| FileUtils.DeleteDirectoryFlat | lib/src/main/java/com/topofwave/lib/utils/file/FileUtils.java:291-308 | A directory holding only unlocked regular files goes entirely and the result is true. |
| FileUtils.DeleteDirectoryPreservesValid | lib/src/main/java/com/topofwave/lib/utils/file/FileUtils.java:291-308 | One-level deletion keeps the tree well formed. |
| FileUtils.ClearableAfterShrink | lib/src/main/java/com/topofwave/lib/utils/file/FileUtils.java:291-308 | A directory that could be cleared can still be cleared after other deletions, if it survived them. |
| FileUtils.DeleteDirectoryOutside | lib/src/main/java/com/topofwave/lib/utils/file/FileUtils.java:291-308 | Deleting a directory never touches a path outside it. |
| FileUtils.DeleteApartKeepsClearable | lib/src/main/java/com/topofwave/lib/utils/file/FileUtils.java:291-308 | Deleting one directory does not change whether a directory apart from it (neither inside the other) can be cleared. |
| FileUtils.GetSize | lib/src/main/java/com/topofwave/lib/utils/file/FileUtils.java:452-466 | For a directory, the recursion over the children returns the sum of the lengths of every regular file at any depth. This sum is defined independently of traversal order. Anything else throws `NullPointerException`. |
| FileUtils.EmptyDirectorySize | lib/src/main/java/com/topofwave/lib/utils/file/FileUtils.java:452-466 | An empty directory has size 0. |
| FileUtils.UnderAllChildren | lib/src/main/java/com/topofwave/lib/utils/file/FileUtils.java:454-464 | In a valid tree the children's subtrees together are exactly everything inside the directory, so summing per child counts each file once. |
| FileUtils.CreateFileSpec | lib/src/main/java/com/topofwave/lib/utils/file/FileUtils.java:231-241 | `createFile` succeeds iff the path exists or no regular file lies above it. An existing path is left untouched. Otherwise the missing parents become directories and the path an empty file, and nothing that existed changes. |
| FileUtils.CreateFileNew | lib/src/main/java/com/topofwave/lib/utils/file/FileUtils.java:233-238 | A new path with no file above it becomes an empty file with every ancestor a directory. The tree stays valid and only ancestors of the path are added. |
| FileUtils.CreateFileBlocked | lib/src/main/java/com/topofwave/lib/utils/file/FileUtils.java:234-238 | When a regular file lies above a new path, `mkdirs` fails and `createNewFile` throws an `IOException` whose reason is ENOTDIR ("Not a directory"). |
| FileUtils.CreateFile | lib/src/main/java/com/topofwave/lib/utils/file/FileUtils.java:231-241 | An existing path is returned untouched. On success the path exists. A failure is the `IOException` of `createNewFile`, only for a path that did not exist, with reason ENOENT or ENOTDIR. |
| FileUtils.ParentPrepared | lib/src/main/java/com/topofwave/lib/utils/file/FileUtils.java:234-237 | Making the missing parents creates every ancestor as a directory. It keeps all old entries and adds nothing outside the parent's prefixes. |
| FileUtils.Save | lib/src/main/java/com/topofwave/lib/utils/file/FileUtils.java:220-229 | Copying the stream in 10 KiB reads leaves the file holding exactly the stream's bytes, whatever sizes the reads return. The input is closed iff the save succeeded and closing was requested. |
| FileUtils.CopyInto | lib/src/main/java/com/topofwave/lib/utils/file/FileUtils.java:222-225 | The read/write loop appends each chunk in order, so the file ends with the whole stream content. |
| FileUtils.SaveAndClose | lib/src/main/java/com/topofwave/lib/utils/file/FileUtils.java:209-211 | The two-argument `save` stores the whole stream and always closes the input on success. |
| FileUtils.SaveBytesShape | lib/src/main/java/com/topofwave/lib/utils/file/FileUtils.java:248-252 | `save(byte[], String)` succeeds iff `createFile` succeeds and the path can be opened for writing. The result is the created tree with the data at the path. |
| FileUtils.SaveBytesSpec | lib/src/main/java/com/topofwave/lib/utils/file/FileUtils.java:248-252 | Saving succeeds iff the path is not a directory and either exists or has no file above it. Afterwards the file holds exactly the data, the tree is valid, and every other existing entry is unchanged. |
| FileUtils.SaveBytes | lib/src/main/java/com/topofwave/lib/utils/file/FileUtils.java:248-252 | On success the file holds exactly the data. A failure is an `IOException`, and a path naming a directory always fails. |
| FileUtils.CopyTransfers | lib/src/main/java/com/topofwave/lib/utils/file/FileUtils.java:155-191 | When the source is a file and the destination can be opened, the destination holds the source's bytes and every other entry is unchanged. |
| FileUtils.CopyFailsUnchanged | lib/src/main/java/com/topofwave/lib/utils/file/FileUtils.java:158-183 | When either open fails, the exception is swallowed and the tree is unchanged. |
| FileUtils.CopyOntoItself | lib/src/main/java/com/topofwave/lib/utils/file/FileUtils.java:159-162 | Opening the destination truncates it before the source is mapped, so a file copied onto itself ends empty. |
| FileUtils.CopyParentBranchDead | lib/src/main/java/com/topofwave/lib/utils/file/FileUtils.java:160-176 | Once the destination has been opened it exists, so the `!dest.exists()` branch never runs. |
| FileUtils.CopyPreservesValid | lib/src/main/java/com/topofwave/lib/utils/file/FileUtils.java:155-191 | Copying keeps the tree well formed. |
| FileUtils.Copy | lib/src/main/java/com/topofwave/lib/utils/file/FileUtils.java:155-191 | Every path other than the destination exists afterwards iff it existed before, and the locked and deferred sets are kept. |
| FileUtils.CopyPaths | lib/src/main/java/com/topofwave/lib/utils/file/FileUtils.java:199-201 | A null path throws before the copy starts. A path that is "" names no file, so the open fails, the exception is swallowed and the tree is unchanged. |
| FileUtils.MoveFile | lib/src/main/java/com/topofwave/lib/utils/file/FileUtils.java:260-272 | `moveFile` as written throws exactly when a path is null. A "" source does not exist, so nothing is copied or deleted. |
| FileUtils.MoveFileMoves | lib/src/main/java/com/topofwave/lib/utils/file/FileUtils.java:260-272 | For an existing source file and a destination that can be opened, the destination ends with the source's bytes. The source is gone iff it could be deleted, and is otherwise kept and deferred. Every other entry is unchanged. |
| FileUtils.MoveFileLosesSource | lib/src/main/java/com/topofwave/lib/utils/file/FileUtils.java:260-272 | When the destination cannot be written and the source can be deleted, the move still deletes the source, so its bytes exist nowhere afterwards. |
| FileUtils.MoveFileLosesSourceExample | lib/src/main/java/com/topofwave/lib/utils/file/FileUtils.java:260-272 | Moving "/a" to "/missing/b" leaves only the root. |
| FileUtils.MoveFileSafe | lib/src/main/java/com/topofwave/lib/utils/file/FileUtils.java:260-272 | The corrected move throws exactly when a path is null, and changes nothing when a path is "". |
| FileUtils.MoveFileSafeKeepsContent | lib/src/main/java/com/topofwave/lib/utils/file/FileUtils.java:260-272 | With the corrected move the source's bytes always survive, at the source or at the destination. They are at the destination whenever it could be written. |
| FileUtils.FallbackDirectories | lib/src/main/java/com/topofwave/lib/utils/file/FileUtils.java:120-147 | With no platform directory, the fallback names exactly the directories data, data, the package, then cache or files. |
| FileUtils.FallbackPath | lib/src/main/java/com/topofwave/lib/utils/file/FileUtils.java:126-127 | "/data/data/<package>/<leaf>/" parses to those four names. |
| FileUtils.ExtractName | lib/src/main/java/com/topofwave/lib/utils/file/FileUtils.java:408-417 | Null gives null. A path shorter than five characters throws. Otherwise the result is non-null iff the last five characters hold a '.', and it is then the part after the last '/', which contains no '/'. Characters are Unicode scalar values, not Java's UTF-16 units. |
| FileUtils.ExtractNameOfJoin | lib/src/main/java/com/topofwave/lib/utils/file/FileUtils.java:408-417 | A name with a '.' in its last five characters is recovered from "dir/name". |
| FileUtils.ExtractSuffix | lib/src/main/java/com/topofwave/lib/utils/file/FileUtils.java:424-426 | The result is a '.'-free tail of the path. It is the whole path iff there is no '.', and otherwise it is preceded by the last '.'. Null throws. |
| FileUtils.ExtractSuffixOfJoin | lib/src/main/java/com/topofwave/lib/utils/file/FileUtils.java:424-426 | The suffix of "base.ext" is "ext" for any '.'-free "ext". |
| FileUtils.DeleteDirectoryWithOSNative | lib/src/main/java/com/topofwave/lib/utils/file/FileUtils.java:316-345 | A command is built iff the directory is non-null. The result is true iff it is non-null and the process could be spawned. |
| FileUtils.DeleteCommandShape | lib/src/main/java/com/topofwave/lib/utils/file/FileUtils.java:322-326 | On Windows the command is `CMD /D /C "RMDIR /Q /S …"` with no '/' left in the path. On Unix it is `rm -rf` followed by the path with no '\' left. |
| FileUtils.RenameCommandWords | lib/src/main/java/com/topofwave/lib/utils/file/FileUtils.java:370-374 | Split at spaces, the Unix rename command is exactly `mv`, `-f`, from, to. |
| FileUtils.MakeDirectory | lib/src/main/java/com/topofwave/lib/utils/file/FileUtils.java:435-444 | A null directory throws. |
| FileUtils.MakeDirectoryOnly | lib/src/main/java/com/topofwave/lib/utils/file/FileUtils.java:399-401 | A null directory throws. Otherwise the result is true iff the path is new, not the root, and its parent is already a directory; then it is a directory. On false nothing changes: no parents are created. |
| FileUtils.MakeDirectorySpec | lib/src/main/java/com/topofwave/lib/utils/file/FileUtils.java:435-444 | The result is true iff the directory did not exist and either its parents could be made (`mkdirs`) or its parent is a directory (`mkdir`). On true it is a directory in a valid tree. On false nothing changes. |
| FileSystem.ParsePath | lib/src/main/java/com/topofwave/lib/utils/file/FileUtils.java:232 | A path string names a sequence of non-empty names without '/'. |
| FileSystem.ParsePathEmpty | lib/src/main/java/com/topofwave/lib/utils/file/FileUtils.java:280-293 | "" parses to the root, which is why the entry points above treat "" as naming no file. |
| FileSystem.ParsePathSlash | lib/src/main/java/com/topofwave/lib/utils/file/FileUtils.java:232 | Joining two path strings with '/' joins their name sequences. |
| FileSystem.ParsePathAppend | lib/src/main/java/com/topofwave/lib/utils/file/AppDataCleanManager.java:36 | Text glued onto a path without a separator extends its last name. |
| FileSystem.MkdirsSpec | lib/src/main/java/com/topofwave/lib/utils/file/FileUtils.java:236 | `mkdirs` succeeds iff the path is new and no regular file lies above it. On success every prefix is a directory and only prefixes were added. On failure nothing changes. The tree stays valid either way. |
| FileSystem.DeletePreservesValid | lib/src/main/java/com/topofwave/lib/utils/file/FileUtils.java:354 | A single delete keeps the tree well formed. |
| FileSystem.OpenForWritePreservesValid | lib/src/main/java/com/topofwave/lib/utils/file/FileUtils.java:160 | Opening for writing keeps the tree well formed. |
| FileSystem.PutFileKeepsValid | lib/src/main/java/com/topofwave/lib/utils/file/FileUtils.java:238 | Writing a file whose parent is a directory keeps the tree well formed. |
| FileSystem.AppendWritten | lib/src/main/java/com/topofwave/lib/utils/file/FileUtils.java:224 | Writing a chunk after the bytes already written leaves their concatenation. |
| FileSystem.Children | lib/src/main/java/com/topofwave/lib/utils/file/FileUtils.java:295 | `listFiles()` gives exactly the entries one level below the directory. |
| FileSystem.AncestorIsDir | lib/src/main/java/com/topofwave/lib/utils/file/FileUtils.java:457 | In a valid tree every proper prefix of an entry is a directory. |
| AppDataCleanManager.CleanInternalCache | lib/src/main/java/com/topofwave/lib/utils/file/AppDataCleanManager.java:26-29 | No cache directory gives false and changes nothing. Otherwise the result is true iff the cache directory can be cleared, and on true it is gone. Entries are only removed. |
| AppDataCleanManager.CleanFiles | lib/src/main/java/com/topofwave/lib/utils/file/AppDataCleanManager.java:60-62 | No files directory gives false and changes nothing. Otherwise the result is true iff the files directory can be cleared, and on true it is gone. Entries are only removed. |
| AppDataCleanManager.CleanExternalCache | lib/src/main/java/com/topofwave/lib/utils/file/AppDataCleanManager.java:68-73 | The result is true iff the SD card is writable and the external cache directory can be cleared. With the card not writable nothing is deleted. |
| AppDataCleanManager.CleanDatabases | lib/src/main/java/com/topofwave/lib/utils/file/AppDataCleanManager.java:35-37 | Throws `NullPointerException` iff the files directory is null. Otherwise the result is `deleteDirectory` on "<files><package>/databases". |
| AppDataCleanManager.CleanSharedPreference | lib/src/main/java/com/topofwave/lib/utils/file/AppDataCleanManager.java:43-45 | Throws `NullPointerException` iff the files directory is null. Otherwise the result is `deleteDirectory` on "<files><package>/shared_prefs". |
| AppDataCleanManager.FilesDerivedPath | lib/src/main/java/com/topofwave/lib/utils/file/AppDataCleanManager.java:36 | A null files directory throws. |
| AppDataCleanManager.DerivedDirParses | lib/src/main/java/com/topofwave/lib/utils/file/AppDataCleanManager.java:36 | The derived path string parses to the files directory with the package name glued on, then the leaf name. |
| AppDataCleanManager.FilesDerivedTarget | lib/src/main/java/com/topofwave/lib/utils/file/AppDataCleanManager.java:35-45 | The package name is glued onto the last name of the files directory. The target is a sibling of that directory, not inside it. |
| AppDataCleanManager.CleanDerivedTargets | lib/src/main/java/com/topofwave/lib/utils/file/AppDataCleanManager.java:35-45 | For any files directory and package, both cleaners delete the directory whose last name is the files directory's last name with the package glued on, then "databases" or "shared_prefs". |
| AppDataCleanManager.FilesDerivedTargetFour | lib/src/main/java/com/topofwave/lib/utils/file/AppDataCleanManager.java:35-45 | For a files directory /a/b/c/d the target is /a/b/c/d<package>/<name>. |
| AppDataCleanManager.FilesDerivedTargetExample | lib/src/main/java/com/topofwave/lib/utils/file/AppDataCleanManager.java:35-45 | For /data/data/<pkg>/files, the databases and shared_prefs targets lie in the directory "files<pkg>". |
| AppDataCleanManager.CleanApplicationData | lib/src/main/java/com/topofwave/lib/utils/file/AppDataCleanManager.java:79-88 | The call throws iff the files directory is null. The five cleaners only ever remove entries. |
| AppDataCleanManager.DeleteEach | lib/src/main/java/com/topofwave/lib/utils/file/AppDataCleanManager.java:80-87 | Running `deleteDirectory` on each target in turn reports one result per target and only removes entries. |
| AppDataCleanManager.DeleteEachFive | lib/src/main/java/com/topofwave/lib/utils/file/AppDataCleanManager.java:80-87 | Running five targets is five deletions in sequence, each on the tree the one before left. |
| AppDataCleanManager.CleanApplicationDataSteps | lib/src/main/java/com/topofwave/lib/utils/file/AppDataCleanManager.java:79-88 | The final tree is the one all five cleaners in sequence leave. The report is the AND of all five results, or `NullPointerException` when the files directory is null. |
| AppDataCleanManager.DeleteEachClears | lib/src/main/java/com/topofwave/lib/utils/file/AppDataCleanManager.java:80-87 | Every target that could be cleared at the start is gone at the end. |
| AppDataCleanManager.DeleteEachTrue | lib/src/main/java/com/topofwave/lib/utils/file/AppDataCleanManager.java:80-87 | A true result for a target means it was named and is gone at the end. |
| AppDataCleanManager.DeleteEachApart | lib/src/main/java/com/topofwave/lib/utils/file/AppDataCleanManager.java:80-87 | When no target lies inside another, each result is exactly whether that target could be cleared at the start. |
| AppDataCleanManager.CleanApplicationDataNeedsSdCard | lib/src/main/java/com/topofwave/lib/utils/file/AppDataCleanManager.java:81-87 | With the SD card not writable the report is never true, whatever the other cleaners return. |
| AppDataCleanManager.CleanApplicationDataTrue | lib/src/main/java/com/topofwave/lib/utils/file/AppDataCleanManager.java:79-88 | A true report means that the SD card was writable and that all five targets (cache, external cache, databases, shared_prefs and files) were named and are gone. |
| AppDataCleanManager.CleanApplicationDataRunsAll | lib/src/main/java/com/topofwave/lib/utils/file/AppDataCleanManager.java:80-87 | No cleaner short-circuits: every one of the five targets that could be cleared at the start is gone at the end, whatever the other cleaners return. |
| AppDataCleanManager.CleanApplicationDataOutcome | lib/src/main/java/com/topofwave/lib/utils/file/AppDataCleanManager.java:79-88 | When no target lies inside another, the report is true iff the SD card is writable and all five targets can be cleared; it throws iff the files directory is null. |
| AppDataCleanManager.CleanApplicationDataRunsAllExample | lib/src/main/java/com/topofwave/lib/utils/file/AppDataCleanManager.java:80-87 | With the SD card removed, the files directory is still emptied and removed, and the report is false. |
| AppDataCleanManager.ExampleDerivedMissing | lib/src/main/java/com/topofwave/lib/utils/file/AppDataCleanManager.java:35-45 | In that example the databases and shared_prefs targets do not exist, so both cleaners give false and change nothing. |
| AppDataCleanManager.DeleteFilesDirExample | lib/src/main/java/com/topofwave/lib/utils/file/AppDataCleanManager.java:60-62 | A files directory holding one file is emptied and removed. |
| AppDataCleanManager.CleanCookie | lib/src/main/java/com/topofwave/lib/utils/file/AppDataCleanManager.java:94-104 | The result is true iff removing the cookies completes without an exception. |
| AppDataCleanManager.CleanIfPresent | lib/src/main/java/com/topofwave/lib/utils/file/AppDataCleanManager.java:137-147 | An absent target counts as success. A present one gives `deleteFile`'s result and effect. |
| AppDataCleanManager.WebCacheTargets | lib/src/main/java/com/topofwave/lib/utils/file/AppDataCleanManager.java:128-129 | A null files directory throws. Otherwise the targets are "webview.db" in the derived databases directory, and "ApplicationCache.db" in the cache directory (in "null" when that is null, as string concatenation gives). |
| AppDataCleanManager.WebViewDbParse | lib/src/main/java/com/topofwave/lib/utils/file/AppDataCleanManager.java:128 | The webview database path string parses to the derived databases directory and "webview.db". |
| AppDataCleanManager.AppCacheDbParse | lib/src/main/java/com/topofwave/lib/utils/file/AppDataCleanManager.java:129 | The application cache path string parses to the cache directory and "ApplicationCache.db". |
| AppDataCleanManager.CleanWebCache | lib/src/main/java/com/topofwave/lib/utils/file/AppDataCleanManager.java:127-149 | A null files directory throws. |
| AppDataCleanManager.CleanWebCacheOutcome | lib/src/main/java/com/topofwave/lib/utils/file/AppDataCleanManager.java:127-149 | When neither target lies inside the other, the result is true iff each target is absent or deletable. Every such target is gone afterwards, and a target that resisted is still present and deferred. |
| IOUtils.CloseQuietly | lib/src/main/java/com/topofwave/lib/utils/io/IOUtils.java:35-45 | `close` is called iff the resource is non-null, and no failure of it escapes. |
| IOUtils.FirstThree | lib/src/main/java/com/topofwave/lib/utils/io/IOUtils.java:151-152 | The three-byte array holds what the one read delivered, followed by zeros. |
| IOUtils.GetStreamEncoding | lib/src/main/java/com/topofwave/lib/utils/io/IOUtils.java:148-167 | The result is one of the five names. It is "utf-8" iff the first read delivers three bytes that are EF BB BF. An empty stream gives "GBK". |
| IOUtils.ClassifyTable | lib/src/main/java/com/topofwave/lib/utils/io/IOUtils.java:154-166 | "utf-8" iff EF BB BF. "unicode" iff FF FE. "utf-16be" iff FE FF. "utf-16le" iff FF FF. "GBK" otherwise. |
| IOUtils.EncodingDependsOnFirstRead | lib/src/main/java/com/topofwave/lib/utils/io/IOUtils.java:148-167 | The encoding depends only on the zero-padded bytes of the first read. |
| IOUtils.ShortStreamPadded | lib/src/main/java/com/topofwave/lib/utils/io/IOUtils.java:151-158 | A stream of fewer than three bytes is classified as if zeros followed. |
| IOUtils.SplitMarkMissed | lib/src/main/java/com/topofwave/lib/utils/io/IOUtils.java:151-155 | A first read of one byte misses even a full UTF-8 mark. |
| IOUtils.ToByteArray | lib/src/main/java/com/topofwave/lib/utils/io/IOUtils.java:130-140 | Null gives null. Otherwise the result is the whole stream content, for any read sizes, and the stream is closed. |
| IOUtils.Load | lib/src/main/java/com/topofwave/lib/utils/io/IOUtils.java:251-260 | The result is the whole stream content and the stream is closed. A null stream throws. |
| IOUtils.GetFileByte | lib/src/main/java/com/topofwave/lib/utils/io/IOUtils.java:267-283 | A missing file gives null, a directory gives null (the exception is caught), and a null `File` throws. An existing file gives exactly its bytes. |
| IOUtils.SaveThenGetFileByte | lib/src/main/java/com/topofwave/lib/utils/io/IOUtils.java:267-283 | Reading back what `save(byte[], String)` wrote gives exactly those bytes. |
| IOUtils.Lines | lib/src/main/java/com/topofwave/lib/utils/io/IOUtils.java:83 | `readLine` returns lines without terminators. |
| IOUtils.RenderStep | lib/src/main/java/com/topofwave/lib/utils/io/IOUtils.java:83-85 | One pass appends the first line and "\n" and continues after its terminator. |
| IOUtils.ToStringBuffer | lib/src/main/java/com/topofwave/lib/utils/io/IOUtils.java:77-88 | Null gives null and closes nothing. Otherwise the result is every line followed by "\n", in order, and the stream is closed. |
| IOUtils.RenderWithoutCarriageReturn | lib/src/main/java/com/topofwave/lib/utils/io/IOUtils.java:77-88 | Text with no '\r' comes back unchanged, except that a final line without '\n' gains one. |
| IOUtils.LineEndsNormalised | lib/src/main/java/com/topofwave/lib/utils/io/IOUtils.java:83-84 | "\r\n" and a lone "\r" both become "\n". |
| IOUtils.ConvertToString | lib/src/main/java/com/topofwave/lib/utils/io/IOUtils.java:109-122 | Null gives null and closes nothing. Otherwise the result is the concatenation of the 1st, 3rd, 5th, … chunks the reads return, the others being read and dropped, and the stream is closed. |
| IOUtils.ConvertToStringLoses | lib/src/main/java/com/topofwave/lib/utils/io/IOUtils.java:116-119 | Text that arrives in one read comes through whole. Text that takes two or more reads comes out strictly shorter. |
| IOUtils.EvensNoLonger | lib/src/main/java/com/topofwave/lib/utils/io/IOUtils.java:116-119 | The kept chunks never add up to more than the whole. |
| Streams.Drain | lib/src/main/java/com/topofwave/lib/utils/io/IOUtils.java:135-137 | A loop that appends every chunk until `read` returns -1 yields exactly the stream content. |
| Streams.ReadsCover | lib/src/main/java/com/topofwave/lib/utils/io/IOUtils.java:135-137 | The chunks of successive reads are non-empty, fit the buffer, and concatenate to the content. |
| Streams.ReadCount | lib/src/main/java/com/topofwave/lib/utils/io/IOUtils.java:135 | A read returns -1 (modelled as 0) exactly when nothing is left, and never more than is left or than the buffer holds. |
| WebViewUtils.IsUrl | lib/src/main/java/com/topofwave/lib/utils/net/WebViewUtils.java:23-25 | True iff the text contains '.'. Null throws. |
| WebViewUtils.CheckUrl | lib/src/main/java/com/topofwave/lib/utils/net/WebViewUtils.java:32-43 | Null and "" come back unchanged. Any other result starts with an accepted scheme and ends with the input. The input is returned unchanged iff it already had a scheme. |
| WebViewUtils.CheckUrlIdempotent | lib/src/main/java/com/topofwave/lib/utils/net/WebViewUtils.java:35-39 | Checking twice equals checking once. |
| WebViewUtils.CookieEntrySpec | lib/src/main/java/com/topofwave/lib/utils/net/WebViewUtils.java:64-69 | A segment without '=' maps its trimmed text to "". Otherwise the trimmed text before the first '=' maps to the trimmed rest, which may contain '='. |
| WebViewUtils.ParseCookies | lib/src/main/java/com/topofwave/lib/utils/net/WebViewUtils.java:55-58 | A null or empty cookie string gives the empty map. |
| WebViewUtils.ParseCookiesLastWins | lib/src/main/java/com/topofwave/lib/utils/net/WebViewUtils.java:59-71 | A key is in the map iff some segment names it, and it maps to the value of the last such segment. |
| WebViewUtils.PutAllLastWins | lib/src/main/java/com/topofwave/lib/utils/net/WebViewUtils.java:62-71 | Successive `put`s leave each key with the value of its last occurrence. |
| WebViewUtils.CookieOverride | lib/src/main/java/com/topofwave/lib/utils/net/WebViewUtils.java:62-71 | "k=v" followed by "k=w" leaves only k mapped to w. |
| WebViewUtils.TrailingSemicolonIgnored | lib/src/main/java/com/topofwave/lib/utils/net/WebViewUtils.java:59 | Because `split(";")` drops trailing empty segments, a trailing ';' changes nothing. |
| NetworkUtils.GetConnectedType | lib/src/main/java/com/topofwave/lib/utils/net/NetworkUtils.java:81-98 | NONE iff there is no active network. WIFI and MOBILE iff the active network has that type. Every other type and a failed probe give OTHER. |
| NetworkUtils.IsConnected | lib/src/main/java/com/topofwave/lib/utils/net/NetworkUtils.java:50-57 | True iff there is an active network and it is connected. A failed probe gives false. |
| NetworkUtils.ConnectedHasType | lib/src/main/java/com/topofwave/lib/utils/net/NetworkUtils.java:50-98 | A connected device never reports type NONE. |
| NetworkUtils.IsConnectedOrConnecting | lib/src/main/java/com/topofwave/lib/utils/net/NetworkUtils.java:64-74 | True iff the list is non-null and some entry is connected or connecting. |
| NetworkUtils.FirstOfType | lib/src/main/java/com/topofwave/lib/utils/net/NetworkUtils.java:133-135 | Gives the first entry of the type, or -1 when there is none. |
| NetworkUtils.TypeAvailable | lib/src/main/java/com/topofwave/lib/utils/net/NetworkUtils.java:130-158 | True iff the list is non-null and the first entry of the type is available. Later entries of that type are ignored. |
| NetworkUtils.FirstEntryDecides | lib/src/main/java/com/topofwave/lib/utils/net/NetworkUtils.java:130-140 | An unavailable first Wi-Fi entry hides an available later one. |
| NetworkUtils.IsMobileEnabled | lib/src/main/java/com/topofwave/lib/utils/net/NetworkUtils.java:165-175 | The reflective probe's answer, or true when the probe fails. |
| NetworkUtils.IsAvailable | lib/src/main/java/com/topofwave/lib/utils/net/NetworkUtils.java:121-123 | An available Wi-Fi network makes the device available. With mobile data known to be off, it is available iff Wi-Fi is. Available implies a non-empty network list. |
| NetworkUtils.AvailableSpec | lib/src/main/java/com/topofwave/lib/utils/net/NetworkUtils.java:121-123 | Available iff the first Wi-Fi entry is available, or the first mobile entry is available and mobile data is not known to be off. |
| NetworkUtils.GetWifiIPAddress | lib/src/main/java/com/topofwave/lib/utils/net/NetworkUtils.java:274-292 | No Wi-Fi address gives "127.0.0.1". Otherwise the result splits at '.' into exactly four fields, field k being `%d` of byte k of the address, least-significant first. |
| NetworkUtils.WifiAddressRoundTrip | lib/src/main/java/com/topofwave/lib/utils/net/NetworkUtils.java:279-282 | The address splits at '.' into four decimal fields, each below 256. Weighted 1, 256, 65536, 16777216, they give back the 32-bit value read as unsigned, least-significant byte first. |
| NetworkUtils.OctetsUnsigned | lib/src/main/java/com/topofwave/lib/utils/net/NetworkUtils.java:281-282 | The four `>>`/`& 0xff` bytes of a signed 32-bit value, weighted by position, are its unsigned reading. |
| NetworkUtils.ShiftSign | lib/src/main/java/com/topofwave/lib/utils/net/NetworkUtils.java:281-282 | An arithmetic shift of a 32-bit value by 32 leaves its sign, 0 or -1. |
| NetworkUtils.Quad | lib/src/main/java/com/topofwave/lib/utils/net/NetworkUtils.java:281-282 | The four `%d` fields contain no '.'. |
| NetworkUtils.GetIpAddress | lib/src/main/java/com/topofwave/lib/utils/net/NetworkUtils.java:230-244 | MOBILE gives the mobile address and WIFI the Wi-Fi address; every other type gives "127.0.0.1". |
| NetworkUtils.NoConnectionLoopback | lib/src/main/java/com/topofwave/lib/utils/net/NetworkUtils.java:230-244 | No active network, or a failed probe, gives "127.0.0.1". |
| NetTypes.Value | lib/src/main/java/com/topofwave/lib/utils/net/NetType.java:12-28 | Each constant's value is 2 to the power of its bit position: 1, 2, 4, 8. |
| NetTypes.ValueRoundTrip | lib/src/main/java/com/topofwave/lib/utils/net/NetType.java:8-28 | A value read back gives its constant. Exactly 1, 2, 4 and 8 name a constant. |
| NetTypes.MaskDecodes | lib/src/main/java/com/topofwave/lib/utils/net/NetType.java:12-24 | This records only that 1, 2, 4 and 8 are distinct powers of two: each constant's bit is set in a sum of values iff that constant is in the sum. Nothing in the library adds the values. |
| NetTypes.MaskInjective | lib/src/main/java/com/topofwave/lib/utils/net/NetType.java:12-24 | This records only that the values are distinct bits: different sets of constants have different sums. |
| MD5Utils.GetMD5 | lib/src/main/java/com/topofwave/lib/utils/encrypt/MD5Utils.java:73-78 | Null, "" and text that trims to "" give null. Otherwise the result is the digest of the trimmed text, 32 lowercase hex digits. |
| MD5Utils.GetMD5TrimInvariant | lib/src/main/java/com/topofwave/lib/utils/encrypt/MD5Utils.java:76-77 | Strings with the same trimmed text have the same MD5. |
| MD5Utils.DigestOf | lib/src/main/java/com/topofwave/lib/utils/encrypt/MD5Utils.java:42-66 | Null iff MD5 or UTF-8 is unavailable. Otherwise the result is two hex digits per digest byte, in order. |
| MD5Utils.Render | lib/src/main/java/com/topofwave/lib/utils/encrypt/MD5Utils.java:58-65 | The padded rendering has exactly 32 lowercase hex digits and denotes the digest read as an unsigned big-endian number. |
| MD5Utils.RenderIsByteHex | lib/src/main/java/com/topofwave/lib/utils/encrypt/MD5Utils.java:58-65 | The padded `BigInteger` rendering equals the byte-by-byte hex of the digest, so the padding restores exactly the dropped leading zeros. |
| MD5Utils.ToHex | lib/src/main/java/com/topofwave/lib/utils/encrypt/MD5Utils.java:58 | `toString(16)` gives lowercase hex digits without a leading zero that denote the number. |
| MD5Utils.ToHexFits | lib/src/main/java/com/topofwave/lib/utils/encrypt/MD5Utils.java:59 | A number below 16^w has at most w digits, so the padding is never negative. |
| MD5Utils.BigEndianBound | lib/src/main/java/com/topofwave/lib/utils/encrypt/MD5Utils.java:23 | n bytes read as a number stay below 16^(2n). |
| MD5Utils.ParseHexLeadingZeros | lib/src/main/java/com/topofwave/lib/utils/encrypt/MD5Utils.java:63-65 | Leading '0's do not change the value. |
| MD5Utils.ParseHexInjective | lib/src/main/java/com/topofwave/lib/utils/encrypt/MD5Utils.java:58-65 | Hex strings of equal length that denote the same number are equal. |
| MD5Utils.ByteHexValue | lib/src/main/java/com/topofwave/lib/utils/encrypt/MD5Utils.java:58 | Two hex digits per byte denote the bytes read big-endian. |
| MD5Utils.ToLowerOfHex | lib/src/main/java/com/topofwave/lib/utils/encrypt/MD5Utils.java:65 | `toLowerCase` leaves lowercase hex unchanged. |
| StringUtils.GenerateRandom | lib/src/main/java/com/topofwave/lib/utils/string/StringUtils.java:36-57 | A negative length gives null and 0 gives "". Otherwise the result has exactly the requested length, character i is the alphabet entry the i-th draw picks, and every character is an ASCII letter or digit. |
| StringUtils.AlphabetDistinct | lib/src/main/java/com/topofwave/lib/utils/string/StringUtils.java:23-28 | The alphabet has 62 characters, all different. |
| StringUtils.AlphabetSpec | lib/src/main/java/com/topofwave/lib/utils/string/StringUtils.java:23-28 | A character is in the alphabet iff it is an ASCII letter or digit. |
| StringUtils.AlphabetFormula | lib/src/main/java/com/topofwave/lib/utils/string/StringUtils.java:24 | Position i holds a–z, then A–Z, then 1–9, then 0. |
| StringUtils.IndexIn | lib/src/main/java/com/topofwave/lib/utils/string/StringUtils.java:49-52 | Every letter or digit has an in-range index that picks it. |
| StringUtils.EveryWordReachable | lib/src/main/java/com/topofwave/lib/utils/string/StringUtils.java:46-56 | Every non-empty alphanumeric string is produced by some in-range draws. |
| DeviceUtils.GetCPUSerial | lib/src/main/java/com/topofwave/lib/utils/common/DeviceUtils.java:111-140 | The loop returns the serial of the first of the first 99 lines that mentions "Serial". It returns the default when there is none, or when a read fails before that line. |
| DeviceUtils.SerialOf | lib/src/main/java/com/topofwave/lib/utils/common/DeviceUtils.java:125-127 | A line without ':' gives the whole line trimmed. |
| DeviceUtils.SerialOfColon | lib/src/main/java/com/topofwave/lib/utils/common/DeviceUtils.java:125-127 | With a ':' the serial is the trimmed text after the first one. |
| DeviceUtils.FirstSerialLine | lib/src/main/java/com/topofwave/lib/utils/common/DeviceUtils.java:123 | Gives the first line mentioning "Serial", or -1 when none does. |
| DeviceUtils.LinesBeyondLimitIgnored | lib/src/main/java/com/topofwave/lib/utils/common/DeviceUtils.java:119 | Lines past the 99th never matter. |
| DeviceUtils.FirstSerialDecides | lib/src/main/java/com/topofwave/lib/utils/common/DeviceUtils.java:123-128 | The first line mentioning "Serial" decides, whatever follows. |
| DeviceUtils.Scanned | lib/src/main/java/com/topofwave/lib/utils/common/DeviceUtils.java:119-133 | At most the first 99 lines are read. |
| ViewUtils.SetGone | lib/src/main/java/com/topofwave/lib/utils/view/ViewUtils.java:27-37 | A non-null view ends GONE or VISIBLE as asked, from any state. `setVisibility` is called iff the state changes. A null view gives null with no call. |
| ViewUtils.SetInvisible | lib/src/main/java/com/topofwave/lib/utils/view/ViewUtils.java:47-57 | A non-null view ends INVISIBLE or VISIBLE as asked, from any state. `setVisibility` is called iff the state changes. A null view gives null with no call. |
| ViewUtils.MoveTo | lib/src/main/java/com/topofwave/lib/utils/view/ViewUtils.java:29-35 | `setVisibility` is called iff the view is non-null and not already at the target. |
| ViewUtils.Idempotent | lib/src/main/java/com/topofwave/lib/utils/view/ViewUtils.java:27-57 | Repeating a call leaves the view as it is and calls nothing. |
| ViewUtils.ShowingForgetsState | lib/src/main/java/com/topofwave/lib/utils/view/ViewUtils.java:27-57 | The resulting state does not depend on the prior state. |
| ViewUtils.HiddenViewIsShown | lib/src/main/java/com/topofwave/lib/utils/view/ViewUtils.java:29-35 | `setGone(v, false)` on an INVISIBLE view, and `setInvisible(v, false)` on a GONE view, make it VISIBLE. Their documentation says otherwise. |
| CommonRegex.MatchCNMobileNumber | lib/src/main/java/com/topofwave/lib/utils/common/CommonRegex.java:54-56 | True iff the whole number matches `CN_PHONE`. Null throws. |
| CommonRegex.CnPhoneMatches | lib/src/main/java/com/topofwave/lib/utils/common/CommonRegex.java:23 | The pattern accepts exactly: an optional '0'; then 13x, 15[012356789], 17x, 18x or 14[57]; then exactly 8 digits. |
| CommonRegex.MobileNumberShape | lib/src/main/java/com/topofwave/lib/utils/common/CommonRegex.java:23 | Every accepted number has 11 or 12 characters, all digits. |
| CommonRegex.PrefixMatches | lib/src/main/java/com/topofwave/lib/utils/common/CommonRegex.java:23 | The three-character prefix alternatives accept exactly the listed operator prefixes. |
| CommonRegex.MatchEmptyLine | lib/src/main/java/com/topofwave/lib/utils/common/CommonRegex.java:63-65 | Null is true. Otherwise the result is a whole-string match of `EMPTY_LINE`. |
| CommonRegex.EmptyLineMatches | lib/src/main/java/com/topofwave/lib/utils/common/CommonRegex.java:16 | `EMPTY_LINE` accepts exactly the strings, "" included, made only of Java whitespace. |
| CommonRegex.MatchPersonName | lib/src/main/java/com/topofwave/lib/utils/common/CommonRegex.java:90-92 | Null is false. Otherwise the result is a whole-string match of `PERSION_NAME`. |
| CommonRegex.PersonNameMatches | lib/src/main/java/com/topofwave/lib/utils/common/CommonRegex.java:19 | The name pattern accepts exactly the non-empty strings of ASCII word characters, ' ', '.', U+00B7 and '-'. |
| CommonRegex.NameRangesSpec | lib/src/main/java/com/topofwave/lib/utils/common/CommonRegex.java:19 | The character class is exactly those characters. |
| CommonRegex.MatchEmail | lib/src/main/java/com/topofwave/lib/utils/common/CommonRegex.java:81-83 | Null is false. A match uses only lowercase letters, digits, '.', '@' and the listed specials. |
| CommonRegex.EmailCharacters | lib/src/main/java/com/topofwave/lib/utils/common/CommonRegex.java:26-27 | Every character of a string `EMAIL` accepts is one the pattern mentions. |
| CommonRegex.EmailRejectsUpperCase | lib/src/main/java/com/topofwave/lib/utils/common/CommonRegex.java:26-27 | An address with an upper-case letter never matches. |
| CommonRegex.StarClass | lib/src/main/java/com/topofwave/lib/utils/common/CommonRegex.java:16 | A starred class matches exactly the strings whose every character is in the class. |
| CommonRegex.PlusClass | lib/src/main/java/com/topofwave/lib/utils/common/CommonRegex.java:19 | A plussed class matches exactly the non-empty such strings. |
| CommonRegex.RepeatClass | lib/src/main/java/com/topofwave/lib/utils/common/CommonRegex.java:23 | `[0-9]{8}` matches exactly the strings of 8 class characters. |
| CommonRegex.MatchMentions | lib/src/main/java/com/topofwave/lib/utils/common/CommonRegex.java:35-38 | Every character of a matched string is mentioned by the pattern. |
| Text.TrimSpec | lib/src/main/java/com/topofwave/lib/utils/encrypt/MD5Utils.java:76 | `trim` removes exactly the leading and trailing characters up to U+0020 and keeps the middle. |
| Text.TrimIdempotent | lib/src/main/java/com/topofwave/lib/utils/encrypt/MD5Utils.java:76 | Trimming twice equals trimming once. |
| Text.TrimEmpty | lib/src/main/java/com/topofwave/lib/utils/encrypt/MD5Utils.java:77 | The trimmed text is empty iff every character is at most U+0020. |
| Text.IndexOf | lib/src/main/java/com/topofwave/lib/utils/common/DeviceUtils.java:125 | Gives the first position of the character, or -1. |
| Text.LastIndexOf | lib/src/main/java/com/topofwave/lib/utils/file/FileUtils.java:425 | Gives the last position of the character, or -1. |
| Text.ContainsScanSpec | lib/src/main/java/com/topofwave/lib/utils/common/DeviceUtils.java:123 | The position-by-position search finds the text iff it occurs. |
| Text.Replace | lib/src/main/java/com/topofwave/lib/utils/file/FileUtils.java:323-325 | `replace(a, b)` swaps every a for b and keeps everything else. |
| Text.JavaSplitIsPrefix | lib/src/main/java/com/topofwave/lib/utils/net/WebViewUtils.java:59 | `split` gives the full split with its trailing empty fields dropped. |
| Text.SplitJoin | lib/src/main/java/com/topofwave/lib/utils/net/NetworkUtils.java:281 | Fields without the separator, joined by it, split back into themselves. |
| Text.JoinSplit | lib/src/main/java/com/topofwave/lib/utils/net/NetworkUtils.java:281 | Splitting and joining again gives the text back. |
| Text.DecimalRoundTrip | lib/src/main/java/com/topofwave/lib/utils/net/NetworkUtils.java:281 | `%d` of a natural number reads back as that number. |

## Findings

| source | as written | input that shows it | evidently intended | confidence | as-written member | corrected member |
|---|---|---|---|---|---|---|
| lib/src/main/java/com/topofwave/lib/utils/file/FileUtils.java:260-272 | `moveFile` calls `copy`, whose catch at 181-183 swallows a failed open of the destination, and then deletes the source whenever it exists | a tree holding file "/a" only; `moveFile("/a", "/missing/b")` with no directory "/missing" | delete the source only once its bytes are at the destination | not executed | FileUtils.MoveFileLosesSource, FileUtils.MoveFileLosesSourceExample | FileUtils.MoveFileSafe, FileUtils.MoveFileSafeKeepsContent |

## Left out

- Android platform access is not modelled: `Environment`, `StatFs`, `Context`, `ConnectivityManager`, `WifiManager`, `CookieManager` and `CookieSyncManager`. Their answers are inputs. This leaves out `createDirInSDCard`, `createNewFile`, `isExternalStorageMounted`, `getAvailableStorage`, `isSDCardPresent` and `getAvailableInternalMemorySize`. `isSDCardWritable` is the predicate `FileUtils.IsSdCardWritable` over the storage state.
- Process spawning, the stdout-draining thread and the 250 ms polling loop of `deleteDirectoryWithOSNative` and `rename` are left out. Only the command strings and the spawn outcome are modelled.
- `FileUtils.Copy`: the memory-mapped channel transfer is modelled as copying the source's bytes.
- `FileUtils.GetSize`: `available()` is taken to be the file's length. The sum is unbounded, so Java `long` overflow is not modelled.
- `FileSystem.ParsePath`: relative and absolute paths are not distinguished. Repeated and trailing '/' are dropped, as `java.io.File` does. "" parses to the root, while `new File("")` names no existing file. `deleteDirectory(String)`, `copy(String, String)`, `moveFile` and the corrected move therefore treat "" as naming nothing. `FileUtils.CreateFile` takes a parsed path, so it cannot see "": Java's `createFile("")` throws from `createNewFile`, while `CreateFile` on the parsed root finds it and returns the tree unchanged. `save` on "" fails with an `IOException` either way, and `mkdir` gives false.
- `FileUtils.MoveFile`: read permission (`canRead`, FileUtils.java:263) is not modelled; every existing entry is taken to be readable.
- `FileUtils.GetSize`: every entry is taken to be readable. For an unreadable file inside the tree, `new FileInputStream(f)` (FileUtils.java:460) throws `FileNotFoundException`, and for an unreadable subdirectory `listFiles()` (454) gives null and the loop throws `NullPointerException`; neither path is modelled. A null directory throws `NullPointerException` at `listFiles()` too, as a non-directory does in the model; the model takes a non-null path.
- `IOUtils.GetFileByte`: every entry is taken to be readable. Java catches the `FileNotFoundException` of an unreadable file (IOUtils.java:274-281) and returns null, where the model returns the bytes.
- `FileUtils.DeleteDirectory` and `FileUtils.DeleteDirectoryPath`: every directory is taken to be readable. For an unreadable one `listFiles()` (FileUtils.java:295) gives null and the for-each throws `NullPointerException`; the model lists its children.
- `FileUtils.CopyTransfers`: every source is taken to be readable. Java's open of an unreadable source fails inside the swallowing `try` (FileUtils.java:158-183), so nothing changes, where the model copies.
- `FileUtils.DeleteFile`: takes a non-null path; `deleteFile(null)` throws `NullPointerException` at FileUtils.java:354.
- `FileUtils.CreateFile`: takes a non-null path; `createFile(null)` throws `NullPointerException` at `new File(null)` (FileUtils.java:232). Its exception's reason is pinned exactly only on a well-formed tree (`FileUtils.CreateFileBlocked`: ENOTDIR); otherwise it is ENOENT or ENOTDIR.
- `FileUtils.Save` and `FileUtils.SaveAndClose`: take a non-null stream and path. With a null stream Java first creates or truncates the file (FileUtils.java:221) and then throws `NullPointerException` at `is.read` (223), leaving an empty file behind; that path is not modelled.
- `FileUtils.SaveBytes`: takes non-null data and path. With null data Java creates or truncates the file and then throws `NullPointerException` at `data.length` (FileUtils.java:250), leaving an empty file behind; that path is not modelled.
- `IOUtils.GetStreamEncoding`: takes a non-null stream; with null, `bis.read` (IOUtils.java:152) throws `IOException`.
- `NetworkUtils.GetWifiIPAddress`: `String.format` at NetworkUtils.java:281 passes no `Locale`, so it formats with the default one. The model assumes that locale writes `%d` with ASCII digits; under a locale such as Arabic or Persian the device prints other digits.
- `IOUtils.GetFileByte`: the one `read(bytes)` into an array of `available()` bytes is taken to fill it.
- `IOUtils.ToStringBuffer` and `IOUtils.ConvertToString`: these work on already decoded characters. Charset decoding and an unknown encoding name are not modelled.
- Closing a stream is reported as a boolean (`IOUtils.ToByteArray`, `Load`, `ToStringBuffer`, `ConvertToString`, `FileUtils.Save`). Failures of `close` and of `write` are not modelled.
- `IOUtils.toString(InputStream)` just calls `toStringBuffer`, so it is not modelled separately. The following are out of scope:
  - `toBitmapDrawable` and `toBitmap` (Bitmap);
  - `audioToString` and `fileToString` (Android Base64);
  - `compareFileAndStream` (an HTTP fetch);
  - `getEncodingFromHTML` and `getHtmlCharset` (a Java regex search).
- `AppDataCleanManager.cleanDatabaseByName` is a single platform call and is left out.
- `AppDataCleanManager.CleanApplicationDataOutcome`: the iff needs the five targets apart, none inside another. When one lies inside another, an earlier deletion can change a later result; `CleanApplicationDataRunsAll` and `CleanApplicationDataTrue` hold without that condition.
- `AppDataCleanManager.CleanCookie`: the cookie removal's outcome is an input.
- `MD5Utils.DigestOf`: the MD5 compression function (section 3 of RFC 1321) and the UTF-8 encoder are inputs, and the `synchronized` block is left out.
- `StringUtils.GenerateRandom`: `SecureRandom.nextInt` is an oracle, and the requires says that its draws are below 62, as `nextInt(62)` promises.
- `NetworkUtils.GetIpAddress`: the address that `getMobileIPAddress` enumerates is an input.
- `isWifiConnected`, `isMobileConnected`, `isWIFIActivate`, `changeWIFIStatus`, `printNetworkInfo` and `getConnManager` are left out. Each is a one-line platform call or logging.
- `NetworkUtils.TypeAvailable`: each network list is taken as one snapshot. The source asks `getAllNetworkInfo` again in each of the two availability checks. Null entries in the list are not modelled.
- `NetworkUtils.IsConnectedOrConnecting`: null entries in the list are not modelled; the loop at NetworkUtils.java:65-68 dereferences every entry it reaches, so a null one throws `NullPointerException`.
- `WebViewUtils.ParseCookies`: the cookie string is an input. `setCookies`, `openBrowser` and the sync calls are left out.
- `FileUtils.ExtractName` and `IOUtils.ConvertToString`: a string is a sequence of Unicode scalar values, while Java's `length()`, `substring` and `Reader.read(char[])` count UTF-16 code units. Outside the Basic Multilingual Plane the two differ: the five-character window and the throw below five characters of `extractName` (FileUtils.java:411-413) move, and a 1024-unit read of `convertToString` (IOUtils.java:116-118) can split a surrogate pair, which the model cannot express.
- `CommonRegex.PersonNameMatches` / `EmptyLineMatches`: `\w` and `\s` are taken as their ASCII classes. Android's ICU regex engine makes them Unicode-aware, so a name with non-ASCII letters, or a line of non-ASCII spaces, matches there but not in the model.
- `CommonRegex.matchCommonChar` and `cleanPunctuation` depend on Java's Unicode `\p{P}` and are left out.
- `DeviceUtils`: only the line scan of `getCPUSerial` is modelled. Running `cat /proc/cpuinfo` is not.
- `ViewUtils.increaseHitRectBy` and `transformToDensityPixel` are UI and floating point, and are left out.
- `DebugLog`, `Assert` and the remaining UI helpers are left out.

=== FILE: android.dfy ===
/** What the library asks of the Android platform, as plain inputs: the
    application's context, the external-storage state, and connectivity
    reports. Nothing here is computed by the library itself. */
module Android {
  import opened Lang

  /** The parts of `android.content.Context` the file code reads. The
      directories are the paths of the `File`s the platform reports; any of
      them may be null. */
  datatype Context = Context(
    packageName: string,
    cacheDir: Option<string>,
    filesDir: Option<string>,
    externalCacheDir: Option<string>)

  /** `Environment.MEDIA_MOUNTED`, the storage state of a writable SD card. */
  const MEDIA_MOUNTED: string := "mounted"

  /** `ConnectivityManager.TYPE_MOBILE` and `TYPE_WIFI`. */
  const TYPE_MOBILE: int := 0
  const TYPE_WIFI: int := 1

  /** The parts of `android.net.NetworkInfo` the network code reads. */
  datatype NetworkInfo = NetworkInfo(
    netType: int,
    connected: bool,
    connectedOrConnecting: bool,
    available: bool)

  /** The outcome of asking `ConnectivityManager` for the active network:
      the network (null when there is none), or an exception. */
  datatype ActiveProbe = Active(net: Option<NetworkInfo>) | ProbeFailed

  /** `View.VISIBLE`, `View.INVISIBLE`, `View.GONE`. */
  datatype Visibility = Visible | Invisible | Gone
}

=== FILE: app_data_clean_manager.dfy ===
/** `AppDataCleanManager`: clearing an application's caches, databases,
    preferences and files by one-level directory deletion, and the two
    web-view cache files. */
module AppDataCleanManager {
  import opened Lang
  import opened FileSystem
  import Text
  import Android
  import FileUtils

  /** The `File` for a platform directory that may be null. */
  function DirOf(d: Option<string>): Option<Path>
  {
    match d
    case None => None
    case Some(s) => Some(ParsePath(s))
  }

  /** `cleanInternalCache`: `deleteDirectory` on the cache directory. True
      exactly when the cache directory can be cleared, and then it is gone. */
  function CleanInternalCache(fs: Fs, ctx: Android.Context): (r: (Fs, bool))
    ensures ctx.cacheDir.None? ==> r == (fs, false)
    ensures r.1 <==> FileUtils.Clearable(fs, DirOf(ctx.cacheDir))
    ensures r.1 ==> ParsePath(ctx.cacheDir.value) !in r.0.entries
    ensures FileUtils.Shrunk(fs, r.0)
  {
    FileUtils.DeleteDirectory(fs, DirOf(ctx.cacheDir))
  }

  /** `cleanFiles`: `deleteDirectory` on the files directory. */
  function CleanFiles(fs: Fs, ctx: Android.Context): (r: (Fs, bool))
    ensures ctx.filesDir.None? ==> r == (fs, false)
    ensures r.1 <==> FileUtils.Clearable(fs, DirOf(ctx.filesDir))
    ensures r.1 ==> ParsePath(ctx.filesDir.value) !in r.0.entries
    ensures FileUtils.Shrunk(fs, r.0)
  {
    FileUtils.DeleteDirectory(fs, DirOf(ctx.filesDir))
  }

  /** `cleanExternalCache`: only while the SD card is writable. */
  function CleanExternalCache(fs: Fs, ctx: Android.Context, storageState: string): (r: (Fs, bool))
    ensures !FileUtils.IsSdCardWritable(storageState) ==> r == (fs, false)
    ensures FileUtils.IsSdCardWritable(storageState) ==> r == FileUtils.DeleteDirectory(fs, DirOf(ctx.externalCacheDir))
    ensures r.1 <==> FileUtils.IsSdCardWritable(storageState) && FileUtils.Clearable(fs, DirOf(ctx.externalCacheDir))
  {
    if FileUtils.IsSdCardWritable(storageState) then FileUtils.DeleteDirectory(fs, DirOf(ctx.externalCacheDir))
    else (fs, false)
  }

  /** The path string of a directory built on the files directory by plain
      concatenation: files path, then package name, then `leaf`, with no
      separator after the files path. A null files directory throws. */
  function FilesDerivedPath(ctx: Android.Context, leaf: string): (r: Result<string>)
    ensures r.Throws? <==> ctx.filesDir.None?
  {
    match ctx.filesDir
    case None => Throws(NullPointer)
    case Some(fd) => Ok(fd + ctx.packageName + leaf)
  }

  const DatabasesLeaf: string := "/databases"
  const SharedPrefsLeaf: string := "/shared_prefs"

  /** The directory named `name` inside the one whose path is the files path
      with the package name appended; null with the files directory. */
  function DerivedDir(ctx: Android.Context, name: string): Option<Path>
  {
    match ctx.filesDir
    case None => None
    case Some(fd) => Some(ParsePath(fd + ctx.packageName) + [name])
  }

  /** Appending "/" and a plain name to a files-derived path appends that name
      to the parsed path. */
  lemma DerivedDirParses(ctx: Android.Context, name: string)
    requires ctx.filesDir.Some? && name != "" && '/' !in name
    ensures DerivedDir(ctx, name) == Some(ParsePath(FilesDerivedPath(ctx, "/" + name).value))
  {
    var base := ctx.filesDir.value + ctx.packageName;
    ParsePathSlash(base, name);
    ParsePathName(name);
    assert base + ("/" + name) == base + "/" + name;
  }

  /** `cleanDatabases`: `deleteDirectory` on "databases" inside the files
      path with the package name appended; a null files directory throws. */
  function CleanDatabases(fs: Fs, ctx: Android.Context): (r: Result<(Fs, bool)>)
    ensures r.Throws? <==> ctx.filesDir.None?
    ensures r.Throws? ==> r.error == NullPointer
    ensures r.Ok? ==> r.value == FileUtils.DeleteDirectory(fs, DerivedDir(ctx, "databases"))
  {
    match FilesDerivedPath(ctx, DatabasesLeaf)
    case Throws(e) => Throws(e)
    case Ok(s) =>
      assert DatabasesLeaf == "/" + "databases";
      DerivedDirParses(ctx, "databases");
      Ok(FileUtils.DeleteDirectory(fs, Some(ParsePath(s))))
  }

  /** `cleanSharedPreference`: the same for "shared_prefs". */
  function CleanSharedPreference(fs: Fs, ctx: Android.Context): (r: Result<(Fs, bool)>)
    ensures r.Throws? <==> ctx.filesDir.None?
    ensures r.Throws? ==> r.error == NullPointer
    ensures r.Ok? ==> r.value == FileUtils.DeleteDirectory(fs, DerivedDir(ctx, "shared_prefs"))
  {
    match FilesDerivedPath(ctx, SharedPrefsLeaf)
    case Throws(e) => Throws(e)
    case Ok(s) =>
      assert SharedPrefsLeaf == "/" + "shared_prefs";
      DerivedDirParses(ctx, "shared_prefs");
      Ok(FileUtils.DeleteDirectory(fs, Some(ParsePath(s))))
  }

  /** Because no separator follows the files path, the package name is glued
      onto its last name: the target is a sibling of the files directory
      named "<files><package>", not a directory inside the application's
      data directory named after the package. */
  lemma FilesDerivedTarget(ctx: Android.Context, name: string)
    requires ctx.filesDir.Some?
    requires var fd := ctx.filesDir.value; |fd| > 0 && fd[|fd| - 1] != '/'
    requires ctx.packageName != "" && '/' !in ctx.packageName
    requires name != "" && '/' !in name
    ensures var files := ParsePath(ctx.filesDir.value);
      && |files| > 0
      && ParsePath(FilesDerivedPath(ctx, "/" + name).value)
         == files[..|files| - 1] + [files[|files| - 1] + ctx.packageName, name]
      && !(files <= ParsePath(FilesDerivedPath(ctx, "/" + name).value))
  {
    var fd := ctx.filesDir.value;
    var pkg := ctx.packageName;
    ParsePathAppend(fd, pkg);
    ParsePathSlash(fd + pkg, name);
    ParsePathName(name);
    assert fd + pkg + ("/" + name) == (fd + pkg) + "/" + name;
    var files := ParsePath(fd);
    var target := ParsePath(fd + pkg + ("/" + name));
    assert target[|files| - 1] == files[|files| - 1] + pkg;
    assert |target[|files| - 1]| > |files[|files| - 1]|;
  }

  /** So, for a files directory not ending in '/', `cleanDatabases` and
      `cleanSharedPreference` delete "databases" and "shared_prefs" inside the
      sibling "<files><package>" of the files directory. */
  lemma CleanDerivedTargets(fs: Fs, ctx: Android.Context)
    requires ctx.filesDir.Some?
    requires var fd := ctx.filesDir.value; |fd| > 0 && fd[|fd| - 1] != '/'
    requires ctx.packageName != "" && '/' !in ctx.packageName
    ensures var files := ParsePath(ctx.filesDir.value);
      && |files| > 0
      && var glued := files[..|files| - 1] + [files[|files| - 1] + ctx.packageName];
      && CleanDatabases(fs, ctx) == Ok(FileUtils.DeleteDirectory(fs, Some(glued + ["databases"])))
      && CleanSharedPreference(fs, ctx) == Ok(FileUtils.DeleteDirectory(fs, Some(glued + ["shared_prefs"])))
  {
    ParsePathAppend(ctx.filesDir.value, ctx.packageName);
  }

  /** The target for a files directory of four names. */
  lemma FilesDerivedTargetFour(a: string, b: string, c: string, d: string, pkg: string, name: string)
    requires a != "" && '/' !in a && b != "" && '/' !in b && c != "" && '/' !in c
    requires d != "" && '/' !in d && pkg != "" && '/' !in pkg && name != "" && '/' !in name
    ensures var ctx := Android.Context(pkg, None, Some("/" + a + "/" + b + "/" + c + "/" + d), None);
      ParsePath(FilesDerivedPath(ctx, "/" + name).value) == [a, b, c, d + pkg, name]
  {
    var fd := "/" + a + "/" + b + "/" + c + "/" + d;
    var ctx := Android.Context(pkg, None, Some(fd), None);
    var abc := "/" + a + "/" + b + "/" + c;
    FileUtils.ParseRootedTwo(a, b);
    ParsePathSlash("/" + a + "/" + b, c);
    ParsePathName(c);
    ParsePathSlash(abc, d);
    ParsePathName(d);
    assert fd == abc + "/" + d;
    FilesDerivedTarget(ctx, name);
  }

  /** The databases and shared_prefs targets for the usual files directory
      "/data/data/<package>/files". */
  lemma FilesDerivedTargetExample(pkg: string)
    requires pkg != "" && '/' !in pkg
    ensures var ctx := Android.Context(pkg, None, Some("/data/data/" + pkg + "/files"), None);
      && ParsePath(FilesDerivedPath(ctx, DatabasesLeaf).value) == ["data", "data", pkg, "files" + pkg, "databases"]
      && ParsePath(FilesDerivedPath(ctx, SharedPrefsLeaf).value) == ["data", "data", pkg, "files" + pkg, "shared_prefs"]
  {
    FilesDerivedTargetFour("data", "data", pkg, "files", pkg, "databases");
    FilesDerivedTargetFour("data", "data", pkg, "files", pkg, "shared_prefs");
    var head := "/" + "data" + "/" + "data" + "/";
    assert head == "/data/data/";
    assert "/" + "files" == "/files";
    Lang.AppendAssoc(head + pkg, "/", "files");
    assert DatabasesLeaf == "/" + "databases";
    assert SharedPrefsLeaf == "/" + "shared_prefs";
  }

  /** `cleanAPPlicationData`: the five cleaners run in order on the state the
      previous one left, each whatever the others returned, and the result is
      the conjunction. A null files directory makes `cleanDatabases` throw
      after the first two have run; the exception escapes. */
  function CleanApplicationData(fs: Fs, ctx: Android.Context, storageState: string): (r: (Fs, Result<bool>))
    ensures r.1.Throws? <==> ctx.filesDir.None?
    ensures FileUtils.Shrunk(fs, r.0)
  {
    var (fs1, d1) := CleanInternalCache(fs, ctx);
    var (fs2, d2) := CleanExternalCache(fs1, ctx, storageState);
    match CleanDatabases(fs2, ctx)
    case Throws(e) => (fs2, Throws(e))
    case Ok((fs3, d3)) =>
      match CleanSharedPreference(fs3, ctx)
      case Throws(e) => (fs3, Throws(e))
      case Ok((fs4, d4)) =>
        var (fs5, d5) := CleanFiles(fs4, ctx);
        (fs5, Ok(d1 && d2 && d3 && d4 && d5))
  }

  /** The five directories `cleanAPPlicationData` hands to `deleteDirectory`,
      in order: the cache, the external cache (null, which deletes nothing,
      unless the SD card is writable), databases, shared_prefs, and the files
      directory. */
  function CleanTargets(ctx: Android.Context, storageState: string): (ts: seq<Option<Path>>)
    ensures |ts| == 5
  {
    [ DirOf(ctx.cacheDir),
      if FileUtils.IsSdCardWritable(storageState) then DirOf(ctx.externalCacheDir) else None,
      DerivedDir(ctx, "databases"),
      DerivedDir(ctx, "shared_prefs"),
      DirOf(ctx.filesDir) ]
  }

  /** `deleteDirectory` on each target in turn, each on the tree the previous
      one left: the final tree and every result. */
  function DeleteEach(fs: Fs, targets: seq<Option<Path>>): (r: (Fs, seq<bool>))
    ensures |r.1| == |targets|
    ensures FileUtils.Shrunk(fs, r.0)
    decreases |targets|
  {
    if |targets| == 0 then (fs, [])
    else
      var first := FileUtils.DeleteDirectory(fs, targets[0]);
      var rest := DeleteEach(first.0, targets[1..]);
      (rest.0, [first.1] + rest.1)
  }

  /** One step of `DeleteEach`: the first target, then the rest on the tree
      it left. */
  lemma DeleteEachStep(fs: Fs, ts: seq<Option<Path>>)
    requires |ts| > 0
    ensures var first := FileUtils.DeleteDirectory(fs, ts[0]);
      var rest := DeleteEach(first.0, ts[1..]);
      DeleteEach(fs, ts).0 == rest.0 && DeleteEach(fs, ts).1 == [first.1] + rest.1
  {
  }

  /** Five targets: the five deletions in turn. */
  lemma DeleteEachFive(fs: Fs, ts: seq<Option<Path>>)
    requires |ts| == 5
    ensures var s1 := FileUtils.DeleteDirectory(fs, ts[0]);
      var s2 := FileUtils.DeleteDirectory(s1.0, ts[1]);
      var s3 := FileUtils.DeleteDirectory(s2.0, ts[2]);
      var s4 := FileUtils.DeleteDirectory(s3.0, ts[3]);
      var s5 := FileUtils.DeleteDirectory(s4.0, ts[4]);
      var ds := DeleteEach(fs, ts).1;
      DeleteEach(fs, ts).0 == s5.0 && ds[0] == s1.1 && ds[1] == s2.1 && ds[2] == s3.1 && ds[3] == s4.1 && ds[4] == s5.1
  {
    var s1 := FileUtils.DeleteDirectory(fs, ts[0]);
    var s2 := FileUtils.DeleteDirectory(s1.0, ts[1]);
    var s3 := FileUtils.DeleteDirectory(s2.0, ts[2]);
    var s4 := FileUtils.DeleteDirectory(s3.0, ts[3]);
    var s5 := FileUtils.DeleteDirectory(s4.0, ts[4]);
    assert ts[1..][0] == ts[1] && ts[1..][1..] == ts[2..];
    assert ts[2..][0] == ts[2] && ts[2..][1..] == ts[3..];
    assert ts[3..][0] == ts[3] && ts[3..][1..] == ts[4..];
    assert ts[4..][0] == ts[4] && |ts[4..][1..]| == 0;
    DeleteEachStep(s4.0, ts[4..]);
    DeleteEachStep(s3.0, ts[3..]);
    DeleteEachStep(s2.0, ts[2..]);
    DeleteEachStep(s1.0, ts[1..]);
    DeleteEachStep(fs, ts);
  }

  /** The clean-up is `deleteDirectory` on each of its five targets in turn:
      the tree it leaves is the one `DeleteEach` leaves, and the report is
      the conjunction of the five results (or the exception, once the first
      two have run). */
  lemma CleanApplicationDataSteps(fs: Fs, ctx: Android.Context, storageState: string)
    ensures var (r, ds) := DeleteEach(fs, CleanTargets(ctx, storageState));
      && CleanApplicationData(fs, ctx, storageState).0 == r
      && CleanApplicationData(fs, ctx, storageState).1
         == if ctx.filesDir.None? then Throws(NullPointer) else Ok(ds[0] && ds[1] && ds[2] && ds[3] && ds[4])
  {
    var ts := CleanTargets(ctx, storageState);
    DeleteEachFive(fs, ts);
    var s1 := FileUtils.DeleteDirectory(fs, ts[0]);
    var s2 := FileUtils.DeleteDirectory(s1.0, ts[1]);
    assert CleanInternalCache(fs, ctx) == s1;
    assert CleanExternalCache(s1.0, ctx, storageState) == s2;
    if ctx.filesDir.Some? {
      var s3 := FileUtils.DeleteDirectory(s2.0, ts[2]);
      var s4 := FileUtils.DeleteDirectory(s3.0, ts[3]);
      assert CleanDatabases(s2.0, ctx) == Ok(s3);
      assert CleanSharedPreference(s3.0, ctx) == Ok(s4);
      assert CleanFiles(s4.0, ctx) == FileUtils.DeleteDirectory(s4.0, ts[4]);
    }
  }

  /** A target that can be cleared in the starting tree is gone at the end,
      whatever the results for the other targets were. */
  lemma {:induction false} DeleteEachClears(fs: Fs, ts: seq<Option<Path>>, k: nat)
    requires k < |ts| && FileUtils.Clearable(fs, ts[k])
    ensures ts[k].value !in DeleteEach(fs, ts).0.entries
    decreases k
  {
    var fs1 := FileUtils.DeleteDirectory(fs, ts[0]).0;
    if k > 0 {
      FileUtils.ClearableAfterShrink(fs, fs1, ts[k].value);
      if ts[k].value in fs1.entries {
        DeleteEachClears(fs1, ts[1..], k - 1);
      }
    }
  }

  /** A true result for a target means it was a directory and is gone at the
      end. */
  lemma {:induction false} DeleteEachTrue(fs: Fs, ts: seq<Option<Path>>, k: nat)
    requires k < |ts| && DeleteEach(fs, ts).1[k]
    ensures ts[k].Some? && ts[k].value !in DeleteEach(fs, ts).0.entries
    decreases k
  {
    if k > 0 {
      DeleteEachTrue(FileUtils.DeleteDirectory(fs, ts[0]).0, ts[1..], k - 1);
    }
  }

  /** No target lies inside another. */
  predicate PairwiseApart(ts: seq<Option<Path>>)
  {
    forall i, j :: 0 <= i < j < |ts| && ts[i].Some? && ts[j].Some? ==> FileUtils.Apart(ts[i].value, ts[j].value)
  }

  /** When no target lies inside another, each result is whether that target
      could be cleared in the starting tree. */
  lemma {:induction false} DeleteEachApart(fs: Fs, ts: seq<Option<Path>>, k: nat)
    requires k < |ts| && PairwiseApart(ts)
    ensures DeleteEach(fs, ts).1[k] == FileUtils.Clearable(fs, ts[k])
    decreases k
  {
    if k > 0 {
      var fs1 := FileUtils.DeleteDirectory(fs, ts[0]).0;
      assert PairwiseApart(ts[1..]) by {
        forall i, j | 0 <= i < j < |ts| - 1 && ts[1..][i].Some? && ts[1..][j].Some?
          ensures FileUtils.Apart(ts[1..][i].value, ts[1..][j].value)
        {
          assert ts[1..][i] == ts[i + 1] && ts[1..][j] == ts[j + 1];
        }
      }
      DeleteEachApart(fs1, ts[1..], k - 1);
      if ts[k].Some? {
        FileUtils.DeleteApartKeepsClearable(fs, ts[0], ts[k].value);
      }
    }
  }

  /** An unwritable SD card makes the whole clean-up report false (or throw),
      whatever the other four cleaners achieved. */
  lemma CleanApplicationDataNeedsSdCard(fs: Fs, ctx: Android.Context, storageState: string)
    requires !FileUtils.IsSdCardWritable(storageState)
    ensures CleanApplicationData(fs, ctx, storageState).1 != Ok(true)
  {
  }

  /** A true report means the SD card was writable and all five targets (the
      cache, external cache, databases, shared_prefs and files directories)
      existed and are gone. */
  lemma CleanApplicationDataTrue(fs: Fs, ctx: Android.Context, storageState: string)
    requires CleanApplicationData(fs, ctx, storageState).1 == Ok(true)
    ensures var r := CleanApplicationData(fs, ctx, storageState).0;
      && FileUtils.IsSdCardWritable(storageState)
      && ctx.cacheDir.Some? && ParsePath(ctx.cacheDir.value) !in r.entries
      && ctx.externalCacheDir.Some? && ParsePath(ctx.externalCacheDir.value) !in r.entries
      && ctx.filesDir.Some? && ParsePath(ctx.filesDir.value) !in r.entries
      && DerivedDir(ctx, "databases").value !in r.entries
      && DerivedDir(ctx, "shared_prefs").value !in r.entries
  {
    var ts := CleanTargets(ctx, storageState);
    CleanApplicationDataSteps(fs, ctx, storageState);
    DeleteEachTrue(fs, ts, 0);
    DeleteEachTrue(fs, ts, 1);
    DeleteEachTrue(fs, ts, 2);
    DeleteEachTrue(fs, ts, 3);
    DeleteEachTrue(fs, ts, 4);
  }

  /** No cleaner short-circuits: each of the five targets that can be cleared
      in the starting tree is gone afterwards, whatever the other cleaners
      returned, and even when `cleanDatabases` throws the first two have
      done their work. */
  lemma CleanApplicationDataRunsAll(fs: Fs, ctx: Android.Context, storageState: string, k: nat)
    requires k < 5 && FileUtils.Clearable(fs, CleanTargets(ctx, storageState)[k])
    ensures CleanTargets(ctx, storageState)[k].value !in CleanApplicationData(fs, ctx, storageState).0.entries
  {
    CleanApplicationDataSteps(fs, ctx, storageState);
    DeleteEachClears(fs, CleanTargets(ctx, storageState), k);
  }

  /** When no target lies inside another, as on a device, the report is true
      exactly when the SD card is writable and every one of the five targets
      can be cleared in the starting tree. */
  lemma CleanApplicationDataOutcome(fs: Fs, ctx: Android.Context, storageState: string)
    requires PairwiseApart(CleanTargets(ctx, storageState))
    ensures var ts := CleanTargets(ctx, storageState);
      CleanApplicationData(fs, ctx, storageState).1
      == if ctx.filesDir.None? then Throws(NullPointer)
         else Ok(FileUtils.IsSdCardWritable(storageState) && AllClearable(fs, ts))
  {
    var ts := CleanTargets(ctx, storageState);
    var ds := DeleteEach(fs, ts).1;
    CleanApplicationDataSteps(fs, ctx, storageState);
    DeleteEachApart(fs, ts, 0);
    DeleteEachApart(fs, ts, 1);
    DeleteEachApart(fs, ts, 2);
    DeleteEachApart(fs, ts, 3);
    DeleteEachApart(fs, ts, 4);
    AllClearableFive(fs, ts);
  }

  /** Every target can be cleared. */
  predicate AllClearable(fs: Fs, ts: seq<Option<Path>>)
  {
    forall k :: 0 <= k < |ts| ==> FileUtils.Clearable(fs, ts[k])
  }

  lemma AllClearableFive(fs: Fs, ts: seq<Option<Path>>)
    requires |ts| == 5
    ensures AllClearable(fs, ts) <==>
      && FileUtils.Clearable(fs, ts[0]) && FileUtils.Clearable(fs, ts[1]) && FileUtils.Clearable(fs, ts[2])
      && FileUtils.Clearable(fs, ts[3]) && FileUtils.Clearable(fs, ts[4])
  {
  }

  /** The cleaners do not short-circuit, on a concrete tree: with the SD card
      removed the first two return false, yet the files directory is still
      emptied and removed. */
  lemma CleanApplicationDataRunsAllExample()
    ensures var ctx := Android.Context("p", None, Some("/f"), None);
      var fs := Fs(map[[] := Dir, ["f"] := Dir, ["f", "x"] := File([7])], {}, {});
      CleanApplicationData(fs, ctx, "removed") == (Fs(map[[] := Dir], {}, {}), Ok(false))
  {
    var ctx := Android.Context("p", None, Some("/f"), None);
    var fs := Fs(map[[] := Dir, ["f"] := Dir, ["f", "x"] := File([7])], {}, {});
    FileUtils.ParseRooted("f");
    var f := ["f"];
    DeleteFilesDirExample();
    ExampleDerivedMissing();
    assert DirOf(ctx.filesDir) == Some(f);
    assert CleanInternalCache(fs, ctx) == (fs, false);
    assert !FileUtils.IsSdCardWritable("removed");
    assert CleanExternalCache(fs, ctx, "removed") == (fs, false);
    assert CleanFiles(fs, ctx) == (Fs(map[[] := Dir], {}, {}), true);
  }

  /** In the example, the databases and shared_prefs targets lie in "/fp",
      which does not exist, so both cleaners report false and change
      nothing. */
  lemma ExampleDerivedMissing()
    ensures var ctx := Android.Context("p", None, Some("/f"), None);
      var fs := Fs(map[[] := Dir, ["f"] := Dir, ["f", "x"] := File([7])], {}, {});
      CleanDatabases(fs, ctx) == Ok((fs, false)) && CleanSharedPreference(fs, ctx) == Ok((fs, false))
  {
    var ctx := Android.Context("p", None, Some("/f"), None);
    var fs := Fs(map[[] := Dir, ["f"] := Dir, ["f", "x"] := File([7])], {}, {});
    FileUtils.ParseRooted("fp");
    assert "/f" + "p" == "/" + "fp";
    assert ParsePath("/f" + "p") == ["fp"];
    assert ["fp"] + ["databases"] == ["fp", "databases"];
    assert ["fp"] + ["shared_prefs"] == ["fp", "shared_prefs"];
    assert DerivedDir(ctx, "databases") == Some(["fp", "databases"]);
    assert DerivedDir(ctx, "shared_prefs") == Some(["fp", "shared_prefs"]);
    assert !IsDir(fs, ["fp", "databases"]) && !IsDir(fs, ["fp", "shared_prefs"]);
  }

  /** Deleting the files directory of the example above empties and removes
      it. */
  lemma DeleteFilesDirExample()
    ensures var fs := Fs(map[[] := Dir, ["f"] := Dir, ["f", "x"] := File([7])], {}, {});
      FileUtils.DeleteDirectory(fs, Some(["f"])) == (Fs(map[[] := Dir], {}, {}), true)
  {
    var fs := Fs(map[[] := Dir, ["f"] := Dir, ["f", "x"] := File([7])], {}, {});
    var f := ["f"];
    assert Children(fs, f) == {["f", "x"]};
    assert Deletable(fs, ["f", "x"]);
    assert FileUtils.Removable(fs, f) == {["f", "x"]};
    assert FileUtils.Stuck(fs, f) == {};
    var after := FileUtils.AfterChildren(fs, f);
    assert after.entries == map[[] := Dir, ["f"] := Dir];
    assert Children(after, f) == {};
    assert after.entries - {f} == map[[] := Dir];
    assert after.deferred == {} && after.locked == {};
    assert Deletable(after, f);
    assert Delete(after, f) == (Fs(map[[] := Dir], {}, {}), true);
    assert FileUtils.DeleteDirectory(fs, Some(f)) == (Fs(map[[] := Dir], {}, {}), true);
  }

  /** `cleanCookie`: true when removing every cookie completes, false when it
      throws. */
  function CleanCookie(removal: Result<()>): (r: bool)
    ensures r <==> removal.Ok?
  {
    match removal
    case Ok(_) => true
    case Throws(_) => false
  }

  /** The two files `cleanWebCache` removes: "webview.db" under the
      concatenated databases path, and "ApplicationCache.db" in the cache
      directory, whose null is printed as "null". */
  function WebCacheTargets(ctx: Android.Context): (r: Result<(Path, Path)>)
    ensures r.Throws? <==> ctx.filesDir.None?
    ensures r.Ok? ==> r.value.0 == DerivedDir(ctx, "databases").value + ["webview.db"]
    ensures r.Ok? ==> r.value.1 == (if ctx.cacheDir.Some? then ParsePath(ctx.cacheDir.value) else ["null"]) + ["ApplicationCache.db"]
  {
    match FilesDerivedPath(ctx, "/databases/webview.db")
    case Throws(e) => Throws(e)
    case Ok(webview) =>
      WebViewDbParse(ctx);
      AppCacheDbParse(ctx.cacheDir);
      Ok((ParsePath(webview), ParsePath(Text.ValueOf(ctx.cacheDir) + "/" + "ApplicationCache.db")))
  }

  /** The plain names the web-view cache paths end with. */
  lemma WebCacheNames()
    ensures ParsePath("databases") == ["databases"]
    ensures ParsePath("webview.db") == ["webview.db"]
  {
    ParsePathName("databases");
    ParsePathName("webview.db");
  }

  /** The web-view database lies in the databases target. */
  lemma WebViewDbParse(ctx: Android.Context)
    requires ctx.filesDir.Some?
    ensures ParsePath(FilesDerivedPath(ctx, "/databases/webview.db").value)
      == DerivedDir(ctx, "databases").value + ["webview.db"]
  {
    var base := ctx.filesDir.value + ctx.packageName;
    var db := "databases";
    var file := "webview.db";
    WebCacheNames();
    ParsePathSlash(base, db);
    ParsePathSlash(base + "/" + db, file);
    WebViewLeaf();
    Lang.AppendAssoc(base, "/" + db, "/" + file);
    Lang.AppendAssoc(base, "/", db);
    Lang.AppendAssoc(base + "/" + db, "/", file);
  }

  /** The leaf `cleanWebCache` appends, name by name. */
  lemma WebViewLeaf()
    ensures "/databases/webview.db" == ("/" + "databases") + ("/" + "webview.db")
  {
  }

  /** "ApplicationCache.db" is a plain name. */
  lemma AppCacheName()
    ensures ParsePath("ApplicationCache.db") == ["ApplicationCache.db"]
  {
    ParsePathName("ApplicationCache.db");
  }

  /** The application cache database lies in the cache directory, or in a
      relative directory "null" when there is none. */
  lemma AppCacheDbParse(cacheDir: Option<string>)
    ensures ParsePath(Text.ValueOf(cacheDir) + "/" + "ApplicationCache.db")
      == (if cacheDir.Some? then ParsePath(cacheDir.value) else ["null"]) + ["ApplicationCache.db"]
  {
    ParsePathSlash(Text.ValueOf(cacheDir), "ApplicationCache.db");
    AppCacheName();
    if cacheDir.None? {
      ParsePathName("null");
    }
  }

  /** One target of `cleanWebCache`: absent counts as success; otherwise
      `deleteFile`. */
  function CleanIfPresent(fs: Fs, p: Path): (r: (Fs, bool))
    ensures p !in fs.entries ==> r == (fs, true)
    ensures p in fs.entries ==> r == FileUtils.DeleteFile(fs, p)
  {
    if p in fs.entries then FileUtils.DeleteFile(fs, p) else (fs, true)
  }

  /** `cleanWebCache`: both targets in turn, and the conjunction. */
  function CleanWebCache(fs: Fs, ctx: Android.Context): (r: Result<(Fs, bool)>)
    ensures r.Throws? <==> ctx.filesDir.None?
  {
    match WebCacheTargets(ctx)
    case Throws(e) => Throws(e)
    case Ok((webview, app)) =>
      var (fs1, d1) := CleanIfPresent(fs, webview);
      var (fs2, d2) := CleanIfPresent(fs1, app);
      Ok((fs2, d1 && d2))
  }

  /** When neither target is inside the other, `cleanWebCache` reports true
      exactly when each target is absent or deletable; targets that are
      absent or removed are gone afterwards, and the rest are queued for
      exit. */
  lemma CleanWebCacheOutcome(fs: Fs, ctx: Android.Context)
    requires ctx.filesDir.Some?
    requires var (w, a) := WebCacheTargets(ctx).value; w != a && !IsChild(w, a) && !IsChild(a, w)
    ensures var (w, a) := WebCacheTargets(ctx).value;
      var (r, ok) := CleanWebCache(fs, ctx).value;
      && (ok <==> (w !in fs.entries || Deletable(fs, w)) && (a !in fs.entries || Deletable(fs, a)))
      && (w !in fs.entries || Deletable(fs, w) ==> w !in r.entries)
      && (a !in fs.entries || Deletable(fs, a) ==> a !in r.entries)
      && (w in fs.entries && !Deletable(fs, w) ==> w in r.entries && w in r.deferred)
      && (a in fs.entries && !Deletable(fs, a) ==> a in r.entries && a in r.deferred)
  {
    var (w, a) := WebCacheTargets(ctx).value;
    var (fs1, d1) := CleanIfPresent(fs, w);
    assert a in fs1.entries <==> a in fs.entries;
    assert Children(fs1, a) == Children(fs, a);
  }
}

=== FILE: common_regex.dfy ===
/** `CommonRegex`: the validators built on `Pattern.matcher(str).matches()`.
    The patterns are written out in a small regular-expression language with
    its usual meaning, and each validator's hand-written character test is
    proved to accept exactly what its pattern matches. */
module CommonRegex {
  import opened Lang

  // ---------------------------------------------------------------------------
  // Regular expressions

  /** An inclusive range of characters. */
  datatype Range = Range(lo: char, hi: char)

  datatype Regex =
    | Class(ranges: seq<Range>)
    | Cat(first: Regex, second: Regex)
    | Alt(left: Regex, right: Regex)
    | Opt(body: Regex)
    | Star(body: Regex)

  predicate InClass(c: char, ranges: seq<Range>)
  {
    exists k :: 0 <= k < |ranges| && ranges[k].lo <= c <= ranges[k].hi
  }

  /** `r` matches the WHOLE of `s`, as `Matcher.matches` requires; the
      anchors `^` and `$` of the patterns add nothing to that. */
  predicate Matches(r: Regex, s: string)
    decreases r, |s|
  {
    match r
    case Class(rs) => |s| == 1 && InClass(s[0], rs)
    case Cat(a, b) => exists i :: 0 <= i <= |s| && Matches(a, s[..i]) && Matches(b, s[i..])
    case Alt(a, b) => Matches(a, s) || Matches(b, s)
    case Opt(a) => |s| == 0 || Matches(a, s)
    case Star(a) => |s| == 0 || exists i :: 1 <= i <= |s| && Matches(a, s[..i]) && Matches(Star(a), s[i..])
  }

  function Lit(c: char): Regex
  {
    Class([Range(c, c)])
  }

  /** `a+`. */
  function Plus(a: Regex): Regex
  {
    Cat(a, Star(a))
  }

  /** `a{n}` for n >= 1. */
  function Repeat(a: Regex, n: nat): Regex
    requires n >= 1
  {
    if n == 1 then a else Cat(a, Repeat(a, n - 1))
  }

  /** `[0-9]`. */
  const Digit: Regex := Class([Range('0', '9')])

  /** Java's `\w`: `[a-zA-Z_0-9]`. */
  const WordRanges: seq<Range> := [Range('a', 'z'), Range('A', 'Z'), Range('_', '_'), Range('0', '9')]

  /** Java's `\s`: `[ \t\n\x0B\f\r]`, that is ' ' and U+0009 to U+000D. */
  const SpaceRanges: seq<Range> := [Range(' ', ' '), Range(9 as char, 13 as char)]

  // ---------------------------------------------------------------------------
  // The patterns

  /** `EMPTY_LINE`, `^[\s\n]*$`. */
  const EmptyLinePattern: Regex := Star(Class(SpaceRanges + [Range('\n', '\n')]))

  /** `PERSION_NAME`, `^[\w .·-]+$`. */
  const PersonNamePattern: Regex := Plus(Class(NameRanges))

  /** `[\w .·-]`. */
  const NameRanges: seq<Range> :=
    WordRanges + [Range(' ', ' '), Range('.', '.'), Range(0xB7 as char, 0xB7 as char), Range('-', '-')]

  /** One single-character range per character of `cs`. */
  function Singles(cs: string): (r: seq<Range>)
    ensures |r| == |cs| && forall k :: 0 <= k < |cs| ==> r[k] == Range(cs[k], cs[k])
  {
    seq(|cs|, k requires 0 <= k < |cs| => Range(cs[k], cs[k]))
  }

  /** The punctuation the local part of an address may hold. */
  const LocalSpecials: string := "!#$%&'*+/=?^_`{|}~-"

  /** `[a-z0-9!#$%&'*+/=?^_`{|}~-]`. */
  const LocalChar: Regex := Class([Range('a', 'z'), Range('0', '9')] + Singles(LocalSpecials))

  /** `[a-z0-9]` and `[a-z0-9-]`. */
  const LabelEnd: Regex := Class([Range('a', 'z'), Range('0', '9')])
  const LabelChar: Regex := Class([Range('a', 'z'), Range('0', '9'), Range('-', '-')])

  /** `[a-z0-9](?:[a-z0-9-]*[a-z0-9])?`: one domain label. */
  const Label: Regex := Cat(LabelEnd, Opt(Cat(Star(LabelChar), LabelEnd)))

  /** `EMAIL`: a dot-separated local part, '@', and labels each followed by
      '.' before a last label. */
  const EmailPattern: Regex :=
    Cat(Cat(Plus(LocalChar), Star(Cat(Lit('.'), Plus(LocalChar)))),
    Cat(Lit('@'),
    Cat(Plus(Cat(Label, Lit('.'))), Label)))

  /** `1` followed by `second` and then one character of `third`. */
  function Branch(second: char, third: seq<Range>): Regex
  {
    Cat(Lit('1'), Cat(Lit(second), Class(third)))
  }

  /** `(13[0-9]|15[012356789]|17[0-9]|18[0-9]|14[57])`. */
  const MobilePrefix: Regex :=
    Alt(Branch('3', [Range('0', '9')]),
    Alt(Branch('5', [Range('0', '3'), Range('5', '9')]),
    Alt(Branch('7', [Range('0', '9')]),
    Alt(Branch('8', [Range('0', '9')]),
        Branch('4', [Range('5', '5'), Range('7', '7')])))))

  /** `CN_PHONE`, `^0?(13[0-9]|15[012356789]|17[0-9]|18[0-9]|14[57])[0-9]{8}$`. */
  const CnPhonePattern: Regex := Cat(Opt(Lit('0')), Cat(MobilePrefix, Repeat(Digit, 8)))

  // ---------------------------------------------------------------------------
  // The character tests

  predicate IsDigit(c: char)
  {
    '0' <= c <= '9'
  }

  predicate IsJavaWord(c: char)
  {
    'a' <= c <= 'z' || 'A' <= c <= 'Z' || c == '_' || IsDigit(c)
  }

  predicate IsJavaSpace(c: char)
  {
    c == ' ' || 9 as char <= c <= 13 as char
  }

  predicate IsNameChar(c: char)
  {
    IsJavaWord(c) || c == ' ' || c == '.' || c == 0xB7 as char || c == '-'
  }

  /** The characters an address accepted by `EMAIL` can hold: lower-case
      letters, digits, the local-part punctuation, '.' and '@'. */
  predicate IsEmailChar(c: char)
  {
    'a' <= c <= 'z' || IsDigit(c) || c in LocalSpecials || c == '.' || c == '@'
  }

  /** The second and third digits a mobile number may start with after '1'. */
  predicate MobileSecondThird(a: char, b: char)
  {
    || (a == '3' && IsDigit(b))
    || (a == '5' && IsDigit(b) && b != '4')
    || (a == '7' && IsDigit(b))
    || (a == '8' && IsDigit(b))
    || (a == '4' && (b == '5' || b == '7'))
  }

  /** Eleven characters: '1', an allowed pair, and eight digits. */
  predicate MobileBody(t: string)
  {
    |t| == 11 && t[0] == '1' && MobileSecondThird(t[1], t[2]) && forall i :: 3 <= i < 11 ==> IsDigit(t[i])
  }

  /** The number, with or without one leading '0'. */
  predicate IsCnMobile(s: string)
  {
    MobileBody(s) || (|s| == 12 && s[0] == '0' && MobileBody(s[1..]))
  }

  // ---------------------------------------------------------------------------
  // The validators

  /** `matchCNMobileNumber(number)`: whether the whole string is a mobile
      number; a null string makes `Pattern.matcher` throw. */
  function MatchCNMobileNumber(number: Option<string>): (r: Result<bool>)
    ensures number.None? <==> r == Throws(NullPointer)
    ensures number.Some? ==> r.Ok? && (r.value <==> Matches(CnPhonePattern, number.value))
  {
    match number
    case None => Throws(NullPointer)
    case Some(s) =>
      CnPhoneMatches(s);
      Ok(IsCnMobile(s))
  }

  /** `matchEmptyLine(line)`: true for null, otherwise whether every
      character is white space (so "" matches). */
  function MatchEmptyLine(line: Option<string>): (r: bool)
    ensures line.None? ==> r
    ensures line.Some? ==> (r <==> Matches(EmptyLinePattern, line.value))
  {
    match line
    case None => true
    case Some(s) =>
      EmptyLineMatches(s);
      forall i :: 0 <= i < |s| ==> IsJavaSpace(s[i])
  }

  /** `matchEmail(email)`: false for null, otherwise whether the whole text
      matches `EMAIL`. */
  function MatchEmail(email: Option<string>): (r: bool)
    ensures email.None? ==> !r
    ensures email.Some? ==> (r <==> Matches(EmailPattern, email.value))
    ensures r ==> forall i :: 0 <= i < |email.value| ==> IsEmailChar(email.value[i])
  {
    match email
    case None => false
    case Some(s) =>
      if Matches(EmailPattern, s) then
        EmailCharacters(s);
        true
      else false
  }

  /** `matchPersionName(name)`: false for null, otherwise whether the text is
      non-empty and made only of word characters, ' ', '.', U+00B7 and '-'. */
  function MatchPersonName(name: Option<string>): (r: bool)
    ensures name.None? ==> !r
    ensures name.Some? ==> (r <==> Matches(PersonNamePattern, name.value))
  {
    match name
    case None => false
    case Some(s) =>
      PersonNameMatches(s);
      |s| > 0 && forall i :: 0 <= i < |s| ==> IsNameChar(s[i])
  }

  // ---------------------------------------------------------------------------
  // What the patterns match

  /** Every match of `r` has length `n`. */
  ghost predicate FixedLength(r: Regex, n: nat)
  {
    forall s :: Matches(r, s) ==> |s| == n
  }

  /** After a part of fixed length the split point is forced. */
  lemma CatFixed(a: Regex, b: Regex, n: nat, s: string)
    requires FixedLength(a, n)
    ensures Matches(Cat(a, b), s) <==> |s| >= n && Matches(a, s[..n]) && Matches(b, s[n..])
  {
    if Matches(Cat(a, b), s) {
      var i :| 0 <= i <= |s| && Matches(a, s[..i]) && Matches(b, s[i..]);
      assert |s[..i]| == n;
    }
  }

  lemma ClassFixed(rs: seq<Range>)
    ensures FixedLength(Class(rs), 1)
  {
  }

  /** `[...]*` matches exactly the strings all of whose characters are in the
      class. */
  lemma {:induction false} StarClass(rs: seq<Range>, s: string)
    ensures Matches(Star(Class(rs)), s) <==> forall i :: 0 <= i < |s| ==> InClass(s[i], rs)
    decreases |s|
  {
    if |s| > 0 {
      StarClass(rs, s[1..]);
      assert forall i :: 1 <= i < |s| ==> s[i] == s[1..][i - 1];
      if forall i :: 0 <= i < |s| ==> InClass(s[i], rs) {
        assert Matches(Class(rs), s[..1]);
      }
      if Matches(Star(Class(rs)), s) {
        var i :| 1 <= i <= |s| && Matches(Class(rs), s[..i]) && Matches(Star(Class(rs)), s[i..]);
        assert i == 1;
      }
    }
  }

  /** `[...]+` matches exactly the non-empty strings over the class. */
  lemma PlusClass(rs: seq<Range>, s: string)
    ensures Matches(Plus(Class(rs)), s) <==> |s| > 0 && forall i :: 0 <= i < |s| ==> InClass(s[i], rs)
  {
    ClassFixed(rs);
    CatFixed(Class(rs), Star(Class(rs)), 1, s);
    if |s| > 0 {
      StarClass(rs, s[1..]);
      assert forall i :: 1 <= i < |s| ==> s[i] == s[1..][i - 1];
    }
  }

  /** Every match of `[...]{n}` has length n. */
  lemma {:induction false} RepeatFixed(rs: seq<Range>, n: nat)
    requires n >= 1
    ensures FixedLength(Repeat(Class(rs), n), n)
    decreases n
  {
    ClassFixed(rs);
    if n > 1 {
      RepeatFixed(rs, n - 1);
      forall t | Matches(Repeat(Class(rs), n), t)
        ensures |t| == n
      {
        CatFixed(Class(rs), Repeat(Class(rs), n - 1), 1, t);
      }
    }
  }

  /** `[...]{n}` matches exactly the strings of length n over the class. */
  lemma {:induction false} RepeatClass(rs: seq<Range>, n: nat, s: string)
    requires n >= 1
    ensures FixedLength(Repeat(Class(rs), n), n)
    ensures Matches(Repeat(Class(rs), n), s) <==> |s| == n && forall i :: 0 <= i < |s| ==> InClass(s[i], rs)
    decreases n
  {
    RepeatFixed(rs, n);
    if n > 1 {
      ClassFixed(rs);
      CatFixed(Class(rs), Repeat(Class(rs), n - 1), 1, s);
      if |s| >= 1 {
        RepeatClass(rs, n - 1, s[1..]);
        assert forall i :: 1 <= i < |s| ==> s[i] == s[1..][i - 1];
      }
    }
  }

  lemma LitMatches(c: char, s: string)
    ensures Matches(Lit(c), s) <==> |s| == 1 && s[0] == c
  {
    if |s| == 1 && s[0] == c {
      assert Lit(c).ranges[0].lo <= s[0] <= Lit(c).ranges[0].hi;
    }
  }

  lemma InOneRange(c: char, r: Range)
    ensures InClass(c, [r]) <==> r.lo <= c <= r.hi
  {
    if r.lo <= c <= r.hi {
      assert [r][0] == r;
    }
  }

  lemma InTwoRanges(c: char, r1: Range, r2: Range)
    ensures InClass(c, [r1, r2]) <==> r1.lo <= c <= r1.hi || r2.lo <= c <= r2.hi
  {
    if r1.lo <= c <= r1.hi {
      assert [r1, r2][0] == r1;
    } else if r2.lo <= c <= r2.hi {
      assert [r1, r2][1] == r2;
    }
  }

  lemma AltFixed(a: Regex, b: Regex, n: nat)
    requires FixedLength(a, n) && FixedLength(b, n)
    ensures FixedLength(Alt(a, b), n)
  {
  }

  /** One branch of the mobile prefix: exactly "1", the given second
      character and a third from the class. */
  lemma BranchMatches(second: char, third: seq<Range>, t: string)
    ensures FixedLength(Branch(second, third), 3)
    ensures Matches(Branch(second, third), t) <==>
      |t| == 3 && t[0] == '1' && t[1] == second && InClass(t[2], third)
  {
    ClassFixed([Range('1', '1')]);
    ClassFixed([Range(second, second)]);
    ClassFixed(third);
    var tail := Cat(Lit(second), Class(third));
    forall u | Matches(tail, u)
      ensures |u| == 2
    {
      CatFixed(Lit(second), Class(third), 1, u);
    }
    forall u | Matches(Branch(second, third), u)
      ensures |u| == 3
    {
      CatFixed(Lit('1'), tail, 1, u);
    }
    CatFixed(Lit('1'), tail, 1, t);
    if |t| >= 1 {
      LitMatches('1', t[..1]);
      var u := t[1..];
      CatFixed(Lit(second), Class(third), 1, u);
      if |u| >= 1 {
        LitMatches(second, u[..1]);
        assert u[1..] == t[2..];
      }
    }
  }

  lemma PrefixMatches(t: string)
    ensures FixedLength(MobilePrefix, 3)
    ensures Matches(MobilePrefix, t) <==> |t| == 3 && t[0] == '1' && MobileSecondThird(t[1], t[2])
  {
    BranchMatches('3', [Range('0', '9')], t);
    BranchMatches('5', [Range('0', '3'), Range('5', '9')], t);
    BranchMatches('7', [Range('0', '9')], t);
    BranchMatches('8', [Range('0', '9')], t);
    BranchMatches('4', [Range('5', '5'), Range('7', '7')], t);
    var a4 := Alt(Branch('8', [Range('0', '9')]), Branch('4', [Range('5', '5'), Range('7', '7')]));
    var a3 := Alt(Branch('7', [Range('0', '9')]), a4);
    var a2 := Alt(Branch('5', [Range('0', '3'), Range('5', '9')]), a3);
    AltFixed(Branch('8', [Range('0', '9')]), Branch('4', [Range('5', '5'), Range('7', '7')]), 3);
    AltFixed(Branch('7', [Range('0', '9')]), a4, 3);
    AltFixed(Branch('5', [Range('0', '3'), Range('5', '9')]), a3, 3);
    AltFixed(Branch('3', [Range('0', '9')]), a2, 3);
    assert Matches(MobilePrefix, t) <==> Matches(Branch('3', [Range('0', '9')]), t) || Matches(a2, t);
    assert Matches(a2, t) <==> Matches(Branch('5', [Range('0', '3'), Range('5', '9')]), t) || Matches(a3, t);
    assert Matches(a3, t) <==> Matches(Branch('7', [Range('0', '9')]), t) || Matches(a4, t);
    if |t| == 3 {
      InOneRange(t[2], Range('0', '9'));
      InTwoRanges(t[2], Range('0', '3'), Range('5', '9'));
      InTwoRanges(t[2], Range('5', '5'), Range('7', '7'));
    }
  }

  lemma BodyMatches(t: string)
    ensures Matches(Cat(MobilePrefix, Repeat(Digit, 8)), t) <==> MobileBody(t)
  {
    PrefixMatches(t);
    CatFixed(MobilePrefix, Repeat(Digit, 8), 3, t);
    if |t| >= 3 {
      PrefixMatches(t[..3]);
      RepeatClass([Range('0', '9')], 8, t[3..]);
      assert forall i :: 3 <= i < |t| ==> t[i] == t[3..][i - 3];
      forall i | 3 <= i < |t|
        ensures InClass(t[i], [Range('0', '9')]) <==> IsDigit(t[i])
      {
        InOneRange(t[i], Range('0', '9'));
      }
    }
  }

  /** The hand-written test accepts exactly what `CN_PHONE` matches. */
  lemma CnPhoneMatches(s: string)
    ensures Matches(CnPhonePattern, s) <==> IsCnMobile(s)
  {
    var body := Cat(MobilePrefix, Repeat(Digit, 8));
    BodyMatches(s);
    if |s| >= 1 {
      BodyMatches(s[1..]);
      LitMatches('0', s[..1]);
    }
    if Matches(CnPhonePattern, s) {
      var i :| 0 <= i <= |s| && Matches(Opt(Lit('0')), s[..i]) && Matches(body, s[i..]);
      LitMatches('0', s[..i]);
    }
    if MobileBody(s) {
      assert Matches(Opt(Lit('0')), s[..0]) && s[0..] == s;
    }
  }

  /** Every accepted number is 11 or 12 digits long. */
  lemma MobileNumberShape(s: string)
    requires IsCnMobile(s)
    ensures |s| == 11 || |s| == 12
    ensures forall i :: 0 <= i < |s| ==> IsDigit(s[i])
  {
    if !MobileBody(s) {
      assert forall i :: 1 <= i < |s| ==> s[i] == s[1..][i - 1];
    }
  }

  lemma EmptyLineMatches(s: string)
    ensures Matches(EmptyLinePattern, s) <==> forall i :: 0 <= i < |s| ==> IsJavaSpace(s[i])
  {
    var rs := SpaceRanges + [Range('\n', '\n')];
    StarClass(rs, s);
    forall c: char
      ensures InClass(c, rs) <==> IsJavaSpace(c)
    {
      if IsJavaSpace(c) {
        if c == ' ' {
          assert rs[0].lo <= c <= rs[0].hi;
        } else {
          assert rs[1].lo <= c <= rs[1].hi;
        }
      }
    }
  }

  lemma PersonNameMatches(s: string)
    ensures Matches(PersonNamePattern, s) <==> |s| > 0 && forall i :: 0 <= i < |s| ==> IsNameChar(s[i])
  {
    PlusClass(NameRanges, s);
    forall c: char
      ensures InClass(c, NameRanges) <==> IsNameChar(c)
    {
      NameRangesSpec(c);
    }
  }

  lemma NameRangesSpec(c: char)
    ensures InClass(c, NameRanges) <==> IsNameChar(c)
  {
    var rs := NameRanges;
    if IsNameChar(c) {
      if 'a' <= c <= 'z' {
        assert rs[0].lo <= c <= rs[0].hi;
      } else if 'A' <= c <= 'Z' {
        assert rs[1].lo <= c <= rs[1].hi;
      } else if c == '_' {
        assert rs[2].lo <= c <= rs[2].hi;
      } else if IsDigit(c) {
        assert rs[3].lo <= c <= rs[3].hi;
      } else if c == ' ' {
        assert rs[4].lo <= c <= rs[4].hi;
      } else if c == '.' {
        assert rs[5].lo <= c <= rs[5].hi;
      } else if c == 0xB7 as char {
        assert rs[6].lo <= c <= rs[6].hi;
      } else {
        assert rs[7].lo <= c <= rs[7].hi;
      }
    }
  }

  /** The characters some match of `r` can contain. */
  predicate Mentions(r: Regex, c: char)
  {
    match r
    case Class(rs) => InClass(c, rs)
    case Cat(a, b) => Mentions(a, c) || Mentions(b, c)
    case Alt(a, b) => Mentions(a, c) || Mentions(b, c)
    case Opt(a) => Mentions(a, c)
    case Star(a) => Mentions(a, c)
  }

  /** Every character of a match is one the expression mentions. */
  lemma {:induction false} MatchMentions(r: Regex, s: string)
    requires Matches(r, s)
    ensures forall i :: 0 <= i < |s| ==> Mentions(r, s[i])
    decreases r, |s|
  {
    match r
    case Class(rs) =>
    case Cat(a, b) =>
      var i :| 0 <= i <= |s| && Matches(a, s[..i]) && Matches(b, s[i..]);
      MatchMentions(a, s[..i]);
      MatchMentions(b, s[i..]);
      assert forall j :: 0 <= j < i ==> s[j] == s[..i][j];
      assert forall j :: i <= j < |s| ==> s[j] == s[i..][j - i];
    case Alt(a, b) =>
      if Matches(a, s) {
        MatchMentions(a, s);
      } else {
        MatchMentions(b, s);
      }
    case Opt(a) =>
      if |s| > 0 {
        MatchMentions(a, s);
      }
    case Star(a) =>
      if |s| > 0 {
        var i :| 1 <= i <= |s| && Matches(a, s[..i]) && Matches(Star(a), s[i..]);
        MatchMentions(a, s[..i]);
        MatchMentions(Star(a), s[i..]);
        assert forall j :: 0 <= j < i ==> s[j] == s[..i][j];
        assert forall j :: i <= j < |s| ==> s[j] == s[i..][j - i];
      }
  }

  lemma LocalCharMentions(c: char)
    requires Mentions(LocalChar, c)
    ensures IsEmailChar(c)
  {
    var rs := [Range('a', 'z'), Range('0', '9')] + Singles(LocalSpecials);
    var k :| 0 <= k < |rs| && rs[k].lo <= c <= rs[k].hi;
    if k >= 2 {
      InSingles(c, [Range('a', 'z'), Range('0', '9')], LocalSpecials, k);
    }
  }

  /** A character in one of the single-character ranges of `cs` is in `cs`. */
  lemma InSingles(c: char, head: seq<Range>, cs: string, k: nat)
    requires |head| <= k < |head| + |cs|
    requires (head + Singles(cs))[k].lo <= c <= (head + Singles(cs))[k].hi
    ensures c in cs
  {
    assert (head + Singles(cs))[k] == Singles(cs)[k - |head|];
    assert c == cs[k - |head|];
  }

  lemma LabelMentions(c: char)
    requires Mentions(Label, c)
    ensures 'a' <= c <= 'z' || IsDigit(c) || c == '-'
  {
    var inner := Cat(Star(LabelChar), LabelEnd);
    assert Mentions(Opt(inner), c) <==> Mentions(Star(LabelChar), c) || Mentions(LabelEnd, c);
    assert Mentions(Label, c) <==> Mentions(LabelEnd, c) || Mentions(LabelChar, c);
    if Mentions(LabelEnd, c) {
      InTwoRanges(c, Range('a', 'z'), Range('0', '9'));
    } else {
      var rs := [Range('a', 'z'), Range('0', '9'), Range('-', '-')];
      var k :| 0 <= k < 3 && rs[k].lo <= c <= rs[k].hi;
    }
  }

  /** The parts of `EMAIL` a character can come from. */
  lemma EmailMentions(c: char)
    requires Mentions(EmailPattern, c)
    ensures Mentions(LocalChar, c) || Mentions(Label, c) || c == '.' || c == '@'
  {
    var local := Cat(Plus(LocalChar), Star(Cat(Lit('.'), Plus(LocalChar))));
    var domain := Cat(Plus(Cat(Label, Lit('.'))), Label);
    assert Mentions(EmailPattern, c) <==> Mentions(local, c) || Mentions(Lit('@'), c) || Mentions(domain, c);
    assert Mentions(Plus(LocalChar), c) <==> Mentions(LocalChar, c);
    assert Mentions(Star(Cat(Lit('.'), Plus(LocalChar))), c) <==> Mentions(Lit('.'), c) || Mentions(Plus(LocalChar), c);
    assert Mentions(local, c) <==> Mentions(LocalChar, c) || Mentions(Lit('.'), c);
    assert Mentions(Plus(Cat(Label, Lit('.'))), c) <==> Mentions(Cat(Label, Lit('.')), c);
    assert Mentions(domain, c) <==> Mentions(Label, c) || Mentions(Lit('.'), c);
    InOneRange(c, Range('.', '.'));
    InOneRange(c, Range('@', '@'));
  }

  /** An accepted address holds only lower-case letters, digits, the
      local-part punctuation, '.' and '@': `EMAIL` is compiled without
      CASE_INSENSITIVE, so "John@Example.com" is rejected. */
  lemma EmailCharacters(s: string)
    requires Matches(EmailPattern, s)
    ensures forall i :: 0 <= i < |s| ==> IsEmailChar(s[i])
  {
    MatchMentions(EmailPattern, s);
    forall i | 0 <= i < |s|
      ensures IsEmailChar(s[i])
    {
      var c := s[i];
      EmailMentions(c);
      if Mentions(LocalChar, c) {
        LocalCharMentions(c);
      } else if Mentions(Label, c) {
        LabelMentions(c);
        assert LocalSpecials[|LocalSpecials| - 1] == '-';
      }
    }
  }

  /** No accepted address holds an upper-case letter. */
  lemma EmailRejectsUpperCase(s: string, i: nat)
    requires i < |s| && 'A' <= s[i] <= 'Z'
    ensures !MatchEmail(Some(s))
  {
    assert !IsEmailChar(s[i]);
  }
}

=== FILE: device_utils.dfy ===
/** `DeviceUtils.getCPUSerial`: the scan of the lines of `/proc/cpuinfo` for
    the serial number. The lines, and the read that fails if one does, are
    inputs; running `cat` is not modelled. */
module DeviceUtils {
  import opened Lang
  import Text

  /** The value returned when no serial is found or reading fails. */
  const DefaultSerial: string := "0000000000000000"

  /** The loop `for (i = 1; i < 100; i++)` reads at most 99 lines. */
  const MaxLines: nat := 99

  /** `str.indexOf("Serial") > -1`: "Serial" occurs in the line, case
      sensitively (see `Text.ContainsScanSpec`). */
  predicate MentionsSerial(line: string)
  {
    Text.ContainsScan(line, "Serial")
  }

  /** `str.substring(str.indexOf(":") + 1).trim()`: the trimmed text after
      the first ':', or the whole line trimmed when it has none. */
  function SerialOf(line: string): (r: string)
    ensures ':' !in line ==> r == Text.Trim(line)
  {
    var i := Text.IndexOf(line, ':');
    assert i == -1 ==> line[i + 1..] == line;
    Text.Trim(line[i + 1..])
  }

  /** With a ':' the serial is the trimmed text after the first one, so
      further ':'s stay in it. */
  lemma SerialOfColon(key: string, value: string)
    requires ':' !in key
    ensures SerialOf(key + ":" + value) == Text.Trim(value)
  {
    var line := key + ":" + value;
    assert line[..|key|] == key && line[|key| + 1..] == value;
    Text.IndexOfAt(line, ':', |key|);
  }

  /** The position of the first line mentioning "Serial", or -1. */
  function FirstSerialLine(lines: seq<string>): (r: int)
    ensures -1 <= r < |lines|
    ensures r == -1 <==> forall i :: 0 <= i < |lines| ==> !MentionsSerial(lines[i])
    ensures r >= 0 ==> MentionsSerial(lines[r]) && forall i :: 0 <= i < r ==> !MentionsSerial(lines[i])
  {
    if |lines| == 0 then -1
    else if MentionsSerial(lines[0]) then 0
    else
      var r := FirstSerialLine(lines[1..]);
      assert forall i :: 1 <= i < |lines| ==> lines[i] == lines[1..][i - 1];
      if r == -1 then -1 else r + 1
  }

  /** A line mentioning "Serial" after lines that do not is the first. */
  lemma FirstSerialLineAt(lines: seq<string>, j: nat)
    requires j < |lines| && MentionsSerial(lines[j])
    requires forall i :: 0 <= i < j ==> !MentionsSerial(lines[i])
    ensures FirstSerialLine(lines) == j
  {
  }

  /** The lines the loop can reach: the first 99, fewer at end of input. */
  function Scanned(lines: seq<string>): (r: seq<string>)
    ensures |r| <= MaxLines && |r| <= |lines| && r == lines[..|r|]
    ensures |lines| <= MaxLines ==> r == lines
  {
    if |lines| <= MaxLines then lines else lines[..MaxLines]
  }

  /** The reference outcome: the serial of the first scanned line mentioning
      "Serial", unless there is none or a read fails (the `failAt`-th read,
      counting from 0) before that line is read. */
  function ExpectedSerial(lines: seq<string>, failAt: Option<nat>): string
  {
    var j := FirstSerialLine(Scanned(lines));
    if j < 0 || (failAt.Some? && failAt.value <= j) then DefaultSerial
    else SerialOf(lines[j])
  }

  /** What the loop knows after `n` lines without "Serial": a failure now,
      the end of input or the end of the budget leaves the default, and a
      line mentioning "Serial" next decides. */
  lemma ExpectedAfterClean(lines: seq<string>, failAt: Option<nat>, n: nat)
    requires n <= |lines| && n <= MaxLines
    requires forall j :: 0 <= j < n ==> !MentionsSerial(lines[j])
    requires failAt.Some? ==> failAt.value >= n
    ensures failAt == Some(n) ==> ExpectedSerial(lines, failAt) == DefaultSerial
    ensures n == |lines| || n == MaxLines ==> ExpectedSerial(lines, failAt) == DefaultSerial
    ensures n < |lines| && n < MaxLines && MentionsSerial(lines[n]) && failAt != Some(n) ==>
      ExpectedSerial(lines, failAt) == SerialOf(lines[n])
  {
    ScanAfterClean(lines, n);
    var j := FirstSerialLine(Scanned(lines));
    if n < |lines| && n < MaxLines && MentionsSerial(lines[n]) && failAt != Some(n) {
      assert j == n && !(failAt.Some? && failAt.value <= j);
    }
  }

  lemma ScanAfterClean(lines: seq<string>, n: nat)
    requires n <= |lines| && n <= MaxLines
    requires forall j :: 0 <= j < n ==> !MentionsSerial(lines[j])
    ensures FirstSerialLine(Scanned(lines)) == -1 || FirstSerialLine(Scanned(lines)) >= n
    ensures n == |lines| || n == MaxLines ==> FirstSerialLine(Scanned(lines)) == -1
    ensures n < |lines| && n < MaxLines && MentionsSerial(lines[n]) ==> FirstSerialLine(Scanned(lines)) == n
  {
    var scanned := Scanned(lines);
    assert forall j :: 0 <= j < n ==> scanned[j] == lines[j];
    if n == |lines| || n == MaxLines {
      assert |scanned| == n;
    }
    if n < |lines| && n < MaxLines && MentionsSerial(lines[n]) {
      assert scanned[n] == lines[n];
      FirstSerialLineAt(scanned, n);
    }
  }

  /** `getCPUSerial()`: reads line after line, at most 99, stops at the end
      of input, and takes the serial from the first line that mentions
      "Serial". An I/O failure is caught and leaves the default. */
  method GetCPUSerial(lines: seq<string>, failAt: Option<nat>) returns (r: string)
    ensures r == ExpectedSerial(lines, failAt)
    ensures (forall i :: 0 <= i < |lines| && i < MaxLines ==> !MentionsSerial(lines[i])) ==> r == DefaultSerial
  {
    var cpuAddress := DefaultSerial;
    var i := 1;
    while i < 100
      invariant 1 <= i <= 100 && i - 1 <= |lines|
      invariant forall j :: 0 <= j < i - 1 ==> !MentionsSerial(lines[j])
      invariant failAt.Some? ==> failAt.value >= i - 1
      decreases 100 - i
    {
      ExpectedAfterClean(lines, failAt, i - 1);
      if failAt == Some(i - 1) {
        return cpuAddress;
      }
      if i - 1 == |lines| {
        return cpuAddress;
      }
      var str := lines[i - 1];
      if MentionsSerial(str) {
        cpuAddress := SerialOf(str);
        return cpuAddress;
      }
      i := i + 1;
    }
    ExpectedAfterClean(lines, failAt, MaxLines);
    return cpuAddress;
  }

  /** Lines past the 99th are never looked at. */
  lemma LinesBeyondLimitIgnored(lines: seq<string>, more: seq<string>, failAt: Option<nat>)
    requires |lines| >= MaxLines
    ensures ExpectedSerial(lines + more, failAt) == ExpectedSerial(lines, failAt)
  {
    assert Scanned(lines + more) == Scanned(lines);
  }

  /** Only the first line mentioning "Serial" counts, whatever follows it. */
  lemma FirstSerialDecides(before: seq<string>, line: string, after: seq<string>)
    requires forall i :: 0 <= i < |before| ==> !MentionsSerial(before[i])
    requires MentionsSerial(line) && |before| < MaxLines
    ensures ExpectedSerial(before + [line] + after, None) == SerialOf(line)
  {
    var lines := before + [line] + after;
    var s := Scanned(lines);
    assert s[|before|] == line;
    assert forall i :: 0 <= i < |before| ==> s[i] == before[i];
    FirstSerialLineAt(s, |before|);
    assert lines[|before|] == line;
  }
}

=== FILE: file_system.dfy ===
/** The slice of `java.io.File` the library drives: a tree of directories and
    regular files addressed by paths, the single-entry operations `delete`,
    `deleteOnExit`, `mkdir`, `mkdirs`, `createNewFile`, and opening a file for
    reading or (truncating) writing. These are platform behaviour, stated here
    so that the library's own code can be modelled on top of them. */
module FileSystem {
  import opened Lang
  import Text

  /** A path as its list of non-empty names below the root. */
  type Path = seq<string>

  datatype Node = File(bytes: seq<byte>) | Dir

  /** A filesystem state.
      - `entries`: every existing path and what is there;
      - `locked`: entries whose removal the operating system refuses
        (missing permission, a busy file);
      - `deferred`: the delete-on-exit registry, paths queued for removal when
        the process ends. */
  datatype Fs = Fs(entries: map<Path, Node>, locked: set<Path>, deferred: set<Path>)

  /** The names of a path string, as `java.io.File` normalises it: runs of '/'
      and a trailing '/' do not produce names. */
  function ParsePath(s: string): (p: Path)
    ensures forall k :: 0 <= k < |p| ==> p[k] != "" && '/' !in p[k]
  {
    NonEmptyParts(Text.SplitAll(s, '/'))
  }

  function NonEmptyParts(parts: seq<string>): (r: seq<string>)
    ensures forall k :: 0 <= k < |r| ==> r[k] != "" && r[k] in parts
  {
    if |parts| == 0 then []
    else (if parts[0] == "" then [] else [parts[0]]) + NonEmptyParts(parts[1..])
  }

  lemma {:induction false} NonEmptyPartsConcat(a: seq<string>, b: seq<string>)
    ensures NonEmptyParts(a + b) == NonEmptyParts(a) + NonEmptyParts(b)
  {
    if |a| > 0 {
      assert (a + b)[1..] == a[1..] + b;
      NonEmptyPartsConcat(a[1..], b);
    } else {
      assert a + b == b;
    }
  }

  /** Joining two path strings with '/' appends their names. */
  lemma ParsePathSlash(a: string, b: string)
    ensures ParsePath(a + "/" + b) == ParsePath(a) + ParsePath(b)
  {
    Text.SplitAllConcat(a, b, '/');
    NonEmptyPartsConcat(Text.SplitAll(a, '/'), Text.SplitAll(b, '/'));
  }

  /** The empty string parses to the root. The entry points that take a path
      string treat "" as naming no file, as `new File("")` does. */
  lemma ParsePathEmpty()
    ensures ParsePath("") == []
  {
    Text.SplitAllNoSep("", '/');
  }

  /** A plain name is a one-name path. */
  lemma ParsePathName(name: string)
    requires name != "" && '/' !in name
    ensures ParsePath(name) == [name]
  {
    Text.SplitAllNoSep(name, '/');
    assert NonEmptyParts([name]) == [name] + NonEmptyParts([name][1..]);
  }

  /** Text appended without a '/' joins the last name of a path that does not
      end with '/'. */
  lemma ParsePathAppend(a: string, b: string)
    requires |a| > 0 && a[|a| - 1] != '/' && b != "" && '/' !in b
    ensures var pa := ParsePath(a);
      |pa| > 0 && ParsePath(a + b) == pa[..|pa| - 1] + [pa[|pa| - 1] + b]
  {
    var parts := Text.SplitAll(a, '/');
    var n := |parts|;
    Text.SplitAllAppend(a, b, '/');
    Text.SplitAllLastNonEmpty(a, '/');
    var init, last := parts[..n - 1], parts[n - 1];
    assert parts == init + [last];
    NonEmptyLast(init, last, b);
  }

  /** Extending a non-empty last part extends the last name. */
  lemma NonEmptyLast(init: seq<string>, last: string, b: string)
    requires last != ""
    ensures var pa := NonEmptyParts(init + [last]);
      |pa| > 0 && NonEmptyParts(init + [last + b]) == pa[..|pa| - 1] + [pa[|pa| - 1] + b]
  {
    NonEmptyPartsConcat(init, [last]);
    NonEmptyPartsConcat(init, [last + b]);
    assert NonEmptyParts([last]) == [last] + NonEmptyParts([]);
    assert NonEmptyParts([last + b]) == [last + b] + NonEmptyParts([]);
    var pa := NonEmptyParts(init + [last]);
    assert pa[..|pa| - 1] == NonEmptyParts(init);
  }

  /** The containing directory of a non-root path. */
  function Parent(p: Path): Path
    requires |p| > 0
  {
    p[..|p| - 1]
  }

  predicate IsDir(fs: Fs, p: Path)
  {
    p in fs.entries && fs.entries[p].Dir?
  }

  predicate IsFile(fs: Fs, p: Path)
  {
    p in fs.entries && fs.entries[p].File?
  }

  /** `q` names an entry directly inside `p`. */
  predicate IsChild(q: Path, p: Path)
  {
    |q| == |p| + 1 && q[..|p|] == p
  }

  /** What `listFiles()` of `p` returns, as a set. */
  function Children(fs: Fs, p: Path): (r: set<Path>)
    ensures forall q :: q in r <==> q in fs.entries && IsChild(q, p)
  {
    set q | q in fs.entries && IsChild(q, p)
  }

  /** The tree is well formed: the root is a directory and every other entry
      sits inside an existing directory. */
  predicate Valid(fs: Fs)
  {
    && IsDir(fs, [])
    && forall p :: p in fs.entries && |p| > 0 ==> IsDir(fs, Parent(p))
  }

  /** Every proper prefix of an entry of a valid tree is a directory. */
  lemma {:induction false} AncestorIsDir(fs: Fs, q: Path, k: nat)
    requires Valid(fs) && q in fs.entries && k < |q|
    ensures IsDir(fs, q[..k])
    decreases |q| - k
  {
    if k + 1 < |q| {
      AncestorIsDir(fs, q, k + 1);
      assert Parent(q[..k + 1]) == q[..k];
    } else {
      assert Parent(q) == q[..k];
    }
  }

  /** `File.delete()` succeeds on an existing, non-root, unlocked entry that is
      a regular file or an empty directory. */
  predicate Deletable(fs: Fs, p: Path)
  {
    p in fs.entries && p != [] && p !in fs.locked && (IsFile(fs, p) || Children(fs, p) == {})
  }

  /** `File.delete()`: the new state and whether the entry was removed. */
  function Delete(fs: Fs, p: Path): (r: (Fs, bool))
  {
    if Deletable(fs, p) then (fs.(entries := fs.entries - {p}), true) else (fs, false)
  }

  /** `File.deleteOnExit()`: queue `p` for removal at process exit. */
  function DeleteOnExit(fs: Fs, p: Path): Fs
  {
    fs.(deferred := fs.deferred + {p})
  }

  /** Removing a deletable entry keeps the tree well formed. */
  lemma DeletePreservesValid(fs: Fs, p: Path)
    requires Valid(fs)
    ensures Valid(Delete(fs, p).0)
  {
    var r := Delete(fs, p).0;
    if Deletable(fs, p) {
      forall q | q in r.entries && |q| > 0 ensures IsDir(r, Parent(q)) {
        assert IsChild(q, Parent(q));
      }
    }
  }

  /** `File.mkdir()`: create `p` when its parent is a directory and `p` does not exist. */
  function Mkdir(fs: Fs, p: Path): (r: (Fs, bool))
  {
    if p !in fs.entries && |p| > 0 && IsDir(fs, Parent(p)) then (fs.(entries := fs.entries[p := Dir]), true)
    else (fs, false)
  }

  /** `File.mkdirs()`: create `p` and every missing directory above it. The
      result is false when `p` already exists or cannot be created. */
  function Mkdirs(fs: Fs, p: Path): (r: (Fs, bool))
    decreases |p|
  {
    if p in fs.entries || |p| == 0 then (fs, false)
    else
      var fs1 := Mkdirs(fs, Parent(p)).0;
      if IsDir(fs1, Parent(p)) then (fs1.(entries := fs1.entries[p := Dir]), true)
      else (fs1, false)
  }

  /** No proper prefix of `p` is a regular file. */
  predicate NoFileAbove(fs: Fs, p: Path)
  {
    forall k :: 0 <= k < |p| ==> !IsFile(fs, p[..k])
  }

  /** `mkdirs` on a valid tree succeeds exactly when `p` is new and no regular
      file stands in its way; it then makes every prefix of `p` a directory and
      adds nothing but prefixes of `p`; when it fails nothing changes. */
  lemma {:induction false} MkdirsSpec(fs: Fs, p: Path)
    requires Valid(fs)
    ensures var (r, ok) := Mkdirs(fs, p);
      && Valid(r)
      && r.locked == fs.locked && r.deferred == fs.deferred
      && (ok <==> p !in fs.entries && NoFileAbove(fs, p))
      && (!ok ==> r == fs)
      && (ok ==> forall k :: 0 <= k <= |p| ==> IsDir(r, p[..k]))
      && (forall q :: q in fs.entries ==> q in r.entries && r.entries[q] == fs.entries[q])
      && (forall q :: q in r.entries && q !in fs.entries ==> q <= p)
    decreases |p|
  {
    if |p| == 0 {
      assert p in fs.entries;
    } else if p !in fs.entries {
      var par := Parent(p);
      MkdirsSpec(fs, par);
      var (fs1, ok1) := Mkdirs(fs, par);
      if IsDir(fs1, par) {
        MkdirsGrow(fs, p, fs1, ok1);
      } else {
        MkdirsBlocked(fs, p, fs1, ok1);
      }
    }
  }

  /** What `MkdirsSpec` states of the outcome `(r, ok)` of `mkdirs` on `p`. */
  ghost predicate MkdirsPost(fs: Fs, p: Path, r: Fs, ok: bool)
  {
    && Valid(r)
    && r.locked == fs.locked && r.deferred == fs.deferred
    && (ok <==> p !in fs.entries && NoFileAbove(fs, p))
    && (!ok ==> r == fs)
    && (ok ==> forall k :: 0 <= k <= |p| ==> IsDir(r, p[..k]))
    && (forall q :: q in fs.entries ==> q in r.entries && r.entries[q] == fs.entries[q])
    && (forall q :: q in r.entries && q !in fs.entries ==> q <= p)
  }

  /** Once the parent is a directory, `p` is added below it. */
  lemma MkdirsGrow(fs: Fs, p: Path, fs1: Fs, ok1: bool)
    requires Valid(fs) && |p| > 0 && p !in fs.entries
    requires MkdirsPost(fs, Parent(p), fs1, ok1) && IsDir(fs1, Parent(p))
    ensures MkdirsPost(fs, p, fs1.(entries := fs1.entries[p := Dir]), true)
  {
    var par := Parent(p);
    var r := fs1.(entries := fs1.entries[p := Dir]);
    GrowNoFileAbove(fs, p, fs1, ok1);
    GrowPrefixesAreDirs(fs, p, fs1, ok1);
    GrowKeeps(fs, p, fs1, ok1);
  }

  /** A parent that is a directory shows that no prefix of `p` is a file. */
  lemma GrowNoFileAbove(fs: Fs, p: Path, fs1: Fs, ok1: bool)
    requires Valid(fs) && |p| > 0 && p !in fs.entries
    requires MkdirsPost(fs, Parent(p), fs1, ok1) && IsDir(fs1, Parent(p))
    ensures NoFileAbove(fs, p)
  {
    var par := Parent(p);
    forall k | 0 <= k < |p| ensures !IsFile(fs, p[..k]) {
      if k == |par| {
        assert p[..k] == par;
        if par in fs.entries {
          assert fs1.entries[par] == fs.entries[par];
        }
      } else {
        assert p[..k] == par[..k];
        if ok1 {
          assert IsDir(fs1, par[..k]);
          if par[..k] in fs.entries {
            assert fs1.entries[par[..k]] == fs.entries[par[..k]];
          }
        } else {
          assert fs1 == fs;
          assert par in fs.entries;
          AncestorIsDir(fs, par, k);
        }
      }
    }
  }

  /** Adding `p` below a directory parent makes every prefix a directory. */
  lemma GrowPrefixesAreDirs(fs: Fs, p: Path, fs1: Fs, ok1: bool)
    requires Valid(fs) && |p| > 0 && p !in fs.entries
    requires MkdirsPost(fs, Parent(p), fs1, ok1) && IsDir(fs1, Parent(p))
    ensures var r := fs1.(entries := fs1.entries[p := Dir]);
      forall k :: 0 <= k <= |p| ==> IsDir(r, p[..k])
  {
    var par := Parent(p);
    var r := fs1.(entries := fs1.entries[p := Dir]);
    forall k | 0 <= k <= |p| ensures IsDir(r, p[..k]) {
      if k < |p| {
        assert p[..k] == par[..k];
        if ok1 {
          assert IsDir(fs1, par[..k]);
        } else {
          assert fs1 == fs;
          if k < |par| {
            AncestorIsDir(fs, par, k);
          }
        }
      } else {
        assert p[..k] == p;
      }
    }
  }

  /** Adding `p` below a directory parent keeps the tree valid, keeps every
      old entry, and adds nothing but prefixes of `p`. */
  lemma GrowKeeps(fs: Fs, p: Path, fs1: Fs, ok1: bool)
    requires Valid(fs) && |p| > 0 && p !in fs.entries
    requires MkdirsPost(fs, Parent(p), fs1, ok1) && IsDir(fs1, Parent(p))
    ensures var r := fs1.(entries := fs1.entries[p := Dir]);
      && Valid(r)
      && (forall q :: q in fs.entries ==> q in r.entries && r.entries[q] == fs.entries[q])
      && (forall q :: q in r.entries && q !in fs.entries ==> q <= p)
  {
    var par := Parent(p);
    var r := fs1.(entries := fs1.entries[p := Dir]);
    forall q | q in r.entries && |q| > 0 ensures IsDir(r, Parent(q)) {
      if q != p {
        assert q in fs1.entries;
      }
    }
    forall q | q in r.entries && q !in fs.entries ensures q <= p {
      if q != p {
        assert q <= par;
      }
    }
    forall q | q in fs.entries ensures q in r.entries && r.entries[q] == fs.entries[q] {
      assert q != p;
    }
    assert IsDir(r, []);
    assert Valid(r);
  }

  /** When the parent could not be made, nothing changes. */
  lemma MkdirsBlocked(fs: Fs, p: Path, fs1: Fs, ok1: bool)
    requires Valid(fs) && |p| > 0 && p !in fs.entries
    requires MkdirsPost(fs, Parent(p), fs1, ok1) && !IsDir(fs1, Parent(p))
    ensures MkdirsPost(fs, p, fs1, false)
  {
    var par := Parent(p);
    assert par[..|par|] == par;
    assert !ok1;
    if par in fs.entries {
      assert p[..|par|] == par;
      assert IsFile(fs, p[..|par|]);
    } else {
      assert !NoFileAbove(fs, par);
      var k :| 0 <= k < |par| && IsFile(fs, par[..k]);
      assert p[..k] == par[..k];
    }
  }

  /** The reasons the platform gives when opening or creating a file fails,
      as the `strerror` texts of ENOENT, ENOTDIR and EISDIR. */
  const NoSuchFile: string := "No such file or directory"
  const NotADirectory: string := "Not a directory"
  const IsADirectory: string := "Is a directory"

  /** Why a path whose parent is not a directory cannot be opened: a regular
      file on the way (ENOTDIR), or else a missing directory (ENOENT). */
  function MissingParentReason(fs: Fs, p: Path): string
  {
    if NoFileAbove(fs, p) then NoSuchFile else NotADirectory
  }

  /** `File.createNewFile()`: an empty regular file at `p` when nothing is there
      yet (true), nothing when `p` exists (false); an `IOException` when the
      containing directory is missing or is a regular file. */
  function CreateNewFile(fs: Fs, p: Path): (r: Result<(Fs, bool)>)
  {
    if p in fs.entries then Ok((fs, false))
    else if |p| == 0 || !IsDir(fs, Parent(p)) then Throws(IO(MissingParentReason(fs, p)))
    else Ok((fs.(entries := fs.entries[p := File([])]), true))
  }

  /** `new FileOutputStream(p)` can open `p`: it is not a directory, and it
      either exists or can be created in an existing directory. */
  predicate CanOpenForWrite(fs: Fs, p: Path)
  {
    !IsDir(fs, p) && (p in fs.entries || (|p| > 0 && IsDir(fs, Parent(p))))
  }

  /** `new FileOutputStream(p)`: creates or truncates `p` to an empty file, or
      throws `FileNotFoundException`, whose reason is EISDIR for a directory. */
  function OpenForWrite(fs: Fs, p: Path): (r: Result<Fs>)
  {
    if CanOpenForWrite(fs, p) then Ok(fs.(entries := fs.entries[p := File([])]))
    else if IsDir(fs, p) then Throws(IO(IsADirectory))
    else Throws(IO(MissingParentReason(fs, p)))
  }

  /** `write` on an open output stream: append `data` to the file at `p`. */
  function Append(fs: Fs, p: Path, data: seq<byte>): Fs
    requires IsFile(fs, p)
  {
    fs.(entries := fs.entries[p := File(fs.entries[p].bytes + data)])
  }

  /** Appending to a file holding `a` leaves it holding `a + b`. */
  lemma AppendWritten(fs: Fs, p: Path, a: seq<byte>, b: seq<byte>)
    ensures IsFile(fs.(entries := fs.entries[p := File(a)]), p)
    ensures Append(fs.(entries := fs.entries[p := File(a)]), p, b) == fs.(entries := fs.entries[p := File(a + b)])
  {
  }

  /** `new FileInputStream(p)` and reading to the end: the bytes of a regular
      file, or null when it cannot be opened. */
  function ReadAll(fs: Fs, p: Path): Option<seq<byte>>
  {
    if IsFile(fs, p) then Some(fs.entries[p].bytes) else None
  }

  /** Opening for writing keeps the tree well formed. */
  lemma OpenForWritePreservesValid(fs: Fs, p: Path)
    requires Valid(fs) && OpenForWrite(fs, p).Ok?
    ensures Valid(OpenForWrite(fs, p).value)
  {
    if p in fs.entries {
      assert IsFile(fs, p) && p != [];
    }
    PutFileKeepsValid(fs, p, []);
  }

  /** A regular file put inside a directory, where no directory stands,
      keeps the tree well formed. */
  lemma PutFileKeepsValid(fs: Fs, p: Path, data: seq<byte>)
    requires Valid(fs) && !IsDir(fs, p) && |p| > 0 && IsDir(fs, Parent(p))
    ensures Valid(fs.(entries := fs.entries[p := File(data)]))
  {
    var r := fs.(entries := fs.entries[p := File(data)]);
    forall q | q in r.entries && |q| > 0 ensures IsDir(r, Parent(q)) {
      var par := Parent(q);
      assert IsDir(fs, par) by {
        if q != p {
          assert q in fs.entries;
        }
      }
      assert par != p;
      assert r.entries[par] == fs.entries[par];
    }
    var root: Path := [];
    assert root != p && IsDir(fs, root);
    assert r.entries[root] == fs.entries[root];
  }
}

=== FILE: file_utils.dfy ===
/** `FileUtils`: one-level directory deletion, directory size, file creation,
    saving streams and byte arrays, copying and moving files, the fallback
    application directories, file-name extraction, and the shell command
    lines of the native delete and rename. */
module FileUtils {
  import opened Lang
  import opened FileSystem
  import opened Streams
  import Text
  import Android

  // ---------------------------------------------------------------------------
  // deleteFile, deleteDirectory

  /** `deleteFile(File)`: delete the entry, or queue it for deletion at exit
      when the delete is refused. */
  function DeleteFile(fs: Fs, p: Path): (r: (Fs, bool))
    ensures r.1 <==> Deletable(fs, p)
    ensures r.1 ==> r.0.entries == fs.entries - {p} && r.0.deferred == fs.deferred
    ensures !r.1 ==> r.0.entries == fs.entries && r.0.deferred == fs.deferred + {p}
    ensures r.0.locked == fs.locked
  {
    var (fs1, ok) := Delete(fs, p);
    if ok then (fs1, true) else (DeleteOnExit(fs1, p), false)
  }

  /** The children of `p` that a single delete attempt removes. */
  function Removable(fs: Fs, p: Path): set<Path>
  {
    set c | c in Children(fs, p) && Deletable(fs, c)
  }

  /** The children of `p` that a single delete attempt cannot remove. */
  function Stuck(fs: Fs, p: Path): set<Path>
  {
    Children(fs, p) - Removable(fs, p)
  }

  /** The state once every child of `p` has had its one delete attempt. */
  function AfterChildren(fs: Fs, p: Path): Fs
  {
    fs.(entries := fs.entries - Removable(fs, p), deferred := fs.deferred + Stuck(fs, p))
  }

  /** What `deleteDirectory(File)` needs to return true: an existing directory,
      other than the root and not locked, all of whose children can be
      deleted. A null `File` is never clearable. */
  predicate Clearable(fs: Fs, dir: Option<Path>)
  {
    && dir.Some? && IsDir(fs, dir.value) && dir.value != [] && dir.value !in fs.locked
    && forall c :: c in Children(fs, dir.value) ==> Deletable(fs, c)
  }

  /** The tree `r` is `fs` with some entries removed: nothing is added or
      altered, and the locks are the same. */
  predicate Shrunk(fs: Fs, r: Fs)
  {
    && r.entries.Keys <= fs.entries.Keys
    && (forall q :: q in r.entries ==> r.entries[q] == fs.entries[q])
    && r.locked == fs.locked
  }

  /** `deleteDirectory(File)`: for a directory, one delete attempt per child
      (children that resist are queued for exit), then one on the directory
      itself; the result is whether the directory itself went. A null or
      non-directory argument changes nothing and gives false. */
  function DeleteDirectory(fs: Fs, dir: Option<Path>): (r: (Fs, bool))
    ensures dir.None? || !IsDir(fs, dir.value) ==> r == (fs, false)
    ensures r.1 <==> Clearable(fs, dir)
    ensures r.1 ==> dir.value !in r.0.entries
    ensures Shrunk(fs, r.0)
  {
    if dir.None? || !IsDir(fs, dir.value) then (fs, false)
    else
      var p := dir.value;
      AfterChildrenLeavesStuck(fs, p);
      var (fs2, ok) := Delete(AfterChildren(fs, p), p);
      if ok then (fs2, true) else (DeleteOnExit(fs2, p), false)
  }

  /** `deleteDirectory(String)`: null gives false; otherwise the `File`
      overload. The empty string names no file (`new File("")` is not a
      directory), so it too gives false and changes nothing. */
  function DeleteDirectoryPath(fs: Fs, dirPath: Option<string>): (r: (Fs, bool))
    ensures dirPath.None? || dirPath == Some("") ==> r == (fs, false)
    ensures r.1 <==> dirPath.Some? && dirPath.value != "" && Clearable(fs, Some(ParsePath(dirPath.value)))
    ensures Shrunk(fs, r.0)
  {
    match dirPath
    case None => (fs, false)
    case Some(s) => if s == "" then (fs, false) else DeleteDirectory(fs, Some(ParsePath(s)))
  }

  /** Children of a child of `p` are never children of `p`'s other children,
      so deleting siblings leaves a child's own contents as they were. */
  lemma SiblingsDoNotTouchContents(fs: Fs, r: Fs, p: Path, c: Path, gone: set<Path>)
    requires IsChild(c, p) && c !in gone
    requires forall q :: q in gone ==> IsChild(q, p)
    requires r.entries == fs.entries - gone && r.locked == fs.locked
    ensures Deletable(r, c) == Deletable(fs, c)
  {
    assert Children(r, c) == Children(fs, c) by {
      forall q | IsChild(q, c) ensures q in r.entries <==> q in fs.entries {
        assert q !in gone;
      }
    }
  }

  /** The loop of `deleteDirectory(File)` as written: each child in turn gets
      exactly one `delete`, followed by `deleteOnExit` when that fails; then
      the directory itself. It computes `DeleteDirectory`, whatever order
      `listFiles` returns the children in. */
  method DeleteDirectoryLoop(fs: Fs, dir: Option<Path>) returns (r: Fs, ok: bool)
    ensures (r, ok) == DeleteDirectory(fs, dir)
  {
    if dir.None? || !IsDir(fs, dir.value) {
      return fs, false;
    }
    var p := dir.value;
    var todo := Children(fs, p);
    ghost var done: set<Path> := {};
    r := fs;
    while todo != {}
      invariant todo + done == Children(fs, p) && todo !! done
      invariant r.locked == fs.locked
      invariant r.entries == fs.entries - (done * Removable(fs, p))
      invariant r.deferred == fs.deferred + (done * Stuck(fs, p))
      decreases todo
    {
      var c :| c in todo;
      SiblingsDoNotTouchContents(fs, r, p, c, done * Removable(fs, p));
      var deleted;
      r, deleted := DeleteFile(r, c).0, DeleteFile(r, c).1;
      todo := todo - {c};
      done := done + {c};
    }
    assert done * Removable(fs, p) == Removable(fs, p);
    assert done * Stuck(fs, p) == Stuck(fs, p);
    assert r == AfterChildren(fs, p);
    var (r2, rootOk) := Delete(r, p);
    if rootOk {
      r, ok := r2, true;
    } else {
      r, ok := DeleteOnExit(r2, p), false;
    }
  }

  /** A null path, a null `File`, or a path that is not a directory: false,
      and nothing changes. */
  lemma DeleteDirectoryRejects(fs: Fs, dir: Option<Path>, dirPath: Option<string>)
    ensures dir.None? ==> DeleteDirectory(fs, dir) == (fs, false)
    ensures dir.Some? && !IsDir(fs, dir.value) ==> DeleteDirectory(fs, dir) == (fs, false)
    ensures dirPath.None? ==> DeleteDirectoryPath(fs, dirPath) == (fs, false)
    ensures dirPath.Some? && !IsDir(fs, ParsePath(dirPath.value)) ==> DeleteDirectoryPath(fs, dirPath) == (fs, false)
  {
  }

  /** Once the children have had their attempt, the directory's remaining
      children are exactly those that resisted. */
  lemma AfterChildrenLeavesStuck(fs: Fs, p: Path)
    ensures Children(AfterChildren(fs, p), p) == Stuck(fs, p)
  {
  }

  /** The result is true exactly when the directory could be removed once its
      children had their attempt: it is not the root, not locked, and every
      child was deletable. Everything else about the outcome: removable
      children go, resisting ones stay and are queued, the directory goes
      (true) or stays and is queued (false). */
  lemma {:induction false} DeleteDirectoryOutcome(fs: Fs, p: Path)
    requires IsDir(fs, p)
    ensures var (r, ok) := DeleteDirectory(fs, Some(p));
      && (ok <==> p != [] && p !in fs.locked && forall c :: c in Children(fs, p) ==> Deletable(fs, c))
      && r.entries.Keys == fs.entries.Keys - Removable(fs, p) - (if ok then {p} else {})
      && r.deferred == fs.deferred + Stuck(fs, p) + (if ok then {} else {p})
      && r.locked == fs.locked
      && (forall q :: q in r.entries ==> r.entries[q] == fs.entries[q])
  {
    var after := AfterChildren(fs, p);
    AfterChildrenLeavesStuck(fs, p);
    assert p !in Removable(fs, p);
    assert IsDir(after, p);
    var (r, ok) := DeleteDirectory(fs, Some(p));
    assert ok <==> Deletable(after, p);
    if forall c :: c in Children(fs, p) ==> Deletable(fs, c) {
      assert Stuck(fs, p) == {};
    } else {
      var c :| c in Children(fs, p) && !Deletable(fs, c);
      assert c in Stuck(fs, p);
    }
  }

  /** Removing entries never makes a directory harder to clear: one that was
      clearable is either gone or still clearable. */
  lemma ClearableAfterShrink(fs: Fs, r: Fs, p: Path)
    requires Shrunk(fs, r) && Clearable(fs, Some(p))
    ensures p !in r.entries || Clearable(r, Some(p))
  {
    if p in r.entries {
      forall c | c in Children(r, p) ensures Deletable(r, c) {
        assert Deletable(fs, c);
        assert Children(r, c) <= Children(fs, c);
      }
    }
  }

  /** Two paths neither of which lies inside the other. */
  predicate Apart(a: Path, b: Path)
  {
    !(a <= b) && !(b <= a)
  }

  /** Two prefixes of one path are prefixes of each other. */
  lemma PrefixesNest(a: Path, b: Path, q: Path)
    requires a <= q && b <= q
    ensures a <= b || b <= a
  {
    if |a| <= |b| {
      assert a == q[..|a|] == b[..|a|];
    } else {
      assert b == q[..|b|] == a[..|b|];
    }
  }

  /** Deleting a directory touches nothing outside it. */
  lemma DeleteDirectoryOutside(fs: Fs, dir: Option<Path>, q: Path)
    requires dir.Some? ==> !(dir.value <= q)
    ensures var r := DeleteDirectory(fs, dir).0;
      q in r.entries <==> q in fs.entries
  {
    if dir.Some? && IsDir(fs, dir.value) {
      DeleteDirectoryOutcome(fs, dir.value);
      assert q !in Removable(fs, dir.value);
    }
  }

  /** So whether a directory apart from the deleted one can be cleared is the
      same before and after. */
  lemma {:induction false} DeleteApartKeepsClearable(fs: Fs, dir: Option<Path>, b: Path)
    requires dir.Some? ==> Apart(dir.value, b)
    ensures Clearable(DeleteDirectory(fs, dir).0, Some(b)) == Clearable(fs, Some(b))
  {
    var r := DeleteDirectory(fs, dir).0;
    forall q | b <= q ensures q in r.entries <==> q in fs.entries {
      if dir.Some? && dir.value <= q {
        PrefixesNest(dir.value, b, q);
      }
      DeleteDirectoryOutside(fs, dir, q);
    }
    assert Children(r, b) == Children(fs, b);
    forall c | c in Children(fs, b) ensures Deletable(r, c) == Deletable(fs, c) {
      assert Children(r, c) == Children(fs, c);
    }
  }

  /** Deletion is shallow: nothing below the directory's children is touched,
      nor anything outside the directory. */
  lemma DeleteDirectoryShallow(fs: Fs, p: Path)
    requires IsDir(fs, p)
    ensures var r := DeleteDirectory(fs, Some(p)).0;
      forall q :: q in fs.entries && q != p && !IsChild(q, p) ==>
        q in r.entries && r.entries[q] == fs.entries[q]
  {
  }

  /** A directory holding a non-empty subdirectory survives: the result is
      false, and both it and the subdirectory are queued for exit. */
  lemma DeleteDirectoryNonEmptySubdir(fs: Fs, p: Path, c: Path, g: Path)
    requires IsDir(fs, p) && c in Children(fs, p) && IsDir(fs, c) && g in Children(fs, c)
    ensures var (r, ok) := DeleteDirectory(fs, Some(p));
      && !ok
      && p in r.entries && c in r.entries && g in r.entries
      && p in r.deferred && c in r.deferred
  {
    DeleteDirectoryOutcome(fs, p);
    assert !Deletable(fs, c);
    assert c in Stuck(fs, p);
  }

  /** A directory holding only unlocked regular files goes entirely: the
      result is true and nothing at or below it is left. */
  lemma DeleteDirectoryFlat(fs: Fs, p: Path)
    requires Valid(fs) && IsDir(fs, p) && p != [] && p !in fs.locked
    requires forall c :: c in Children(fs, p) ==> IsFile(fs, c) && c !in fs.locked
    ensures var (r, ok) := DeleteDirectory(fs, Some(p));
      ok && forall q :: q in r.entries ==> !(p <= q)
  {
    DeleteDirectoryOutcome(fs, p);
    var (r, ok) := DeleteDirectory(fs, Some(p));
    forall q | q in r.entries ensures !(p <= q) {
      if p <= q && q != p {
        var c := q[..|p| + 1];
        assert IsChild(c, p);
        if |q| > |p| + 1 {
          AncestorIsDir(fs, q, |p| + 1);
        }
      }
    }
  }

  /** One-level deletion keeps the tree well formed. */
  lemma DeleteDirectoryPreservesValid(fs: Fs, dir: Option<Path>)
    requires Valid(fs)
    ensures Valid(DeleteDirectory(fs, dir).0)
  {
    if dir.Some? && IsDir(fs, dir.value) {
      var p := dir.value;
      DeleteDirectoryOutcome(fs, p);
      var (r, ok) := DeleteDirectory(fs, dir);
      forall q | q in r.entries && |q| > 0 ensures IsDir(r, Parent(q)) {
        assert IsDir(fs, Parent(q));
        assert IsChild(q, Parent(q));
      }
    }
  }

  // ---------------------------------------------------------------------------
  // getSize

  /** What `getSize` counts for one entry: a regular file's length, nothing
      for a directory. */
  function EntrySize(fs: Fs, q: Path): nat
  {
    if IsFile(fs, q) then |fs.entries[q].bytes| else 0
  }

  /** The total size of a set of entries, independent of any traversal order. */
  ghost function SumSizes(fs: Fs, s: set<Path>): nat
    decreases s
  {
    if s == {} then 0 else var q :| q in s; EntrySize(fs, q) + SumSizes(fs, s - {q})
  }

  lemma {:induction false} SumSizesRemove(fs: Fs, s: set<Path>, y: Path)
    requires y in s
    ensures SumSizes(fs, s) == EntrySize(fs, y) + SumSizes(fs, s - {y})
    decreases s
  {
    var q :| q in s && SumSizes(fs, s) == EntrySize(fs, q) + SumSizes(fs, s - {q});
    if q != y {
      SumSizesRemove(fs, s - {q}, y);
      SumSizesRemove(fs, s - {y}, q);
      assert s - {q} - {y} == s - {y} - {q};
    }
  }

  lemma {:induction false} SumSizesUnion(fs: Fs, a: set<Path>, b: set<Path>)
    requires a !! b
    ensures SumSizes(fs, a + b) == SumSizes(fs, a) + SumSizes(fs, b)
    decreases b
  {
    if b == {} {
      assert a + b == a;
    } else {
      var y :| y in b;
      SumSizesUnion(fs, a, b - {y});
      SumSizesRemove(fs, a + b, y);
      SumSizesRemove(fs, b, y);
      assert (a + b) - {y} == a + (b - {y});
    }
  }

  /** Every entry strictly inside `p`, at any depth. */
  function Below(fs: Fs, p: Path): (r: set<Path>)
    ensures forall q :: q in r <==> q in fs.entries && |q| > |p| && q[..|p|] == p
  {
    set q | q in fs.entries && |q| > |p| && q[..|p|] == p
  }

  /** The sum of the sizes of every regular file inside `p`, at any depth. */
  ghost function TreeSize(fs: Fs, p: Path): nat
  {
    SumSizes(fs, Below(fs, p))
  }

  /** The entries inside `p` that lie in (or are) one of the children `cs`. */
  function Under(fs: Fs, p: Path, cs: set<Path>): set<Path>
  {
    set q | q in fs.entries && |q| > |p| && q[..|p|] == p && q[..|p| + 1] in cs
  }

  /** A child's own subtree is strictly smaller than its parent's. */
  lemma BelowShrinks(fs: Fs, p: Path, c: Path)
    requires IsChild(c, p) && c in fs.entries
    ensures |Below(fs, c)| < |Below(fs, p)|
  {
    forall q | q in Below(fs, c) ensures q in Below(fs, p) {
      assert q[..|p|] == q[..|c|][..|p|];
    }
    var rest := Below(fs, p) - Below(fs, c);
    assert c in rest;
    assert Below(fs, p) == Below(fs, c) + rest;
    assert |Below(fs, p)| == |Below(fs, c)| + |rest|;
  }

  /** Under a valid tree a regular file has nothing inside it. */
  lemma FileHasNothingBelow(fs: Fs, c: Path)
    requires Valid(fs) && IsFile(fs, c)
    ensures Below(fs, c) == {}
  {
    forall q | q in Below(fs, c) ensures false {
      AncestorIsDir(fs, q, |c|);
    }
  }

  /** One child's share of the entries inside `p`: the child and its subtree. */
  lemma UnderOneChild(fs: Fs, p: Path, c: Path)
    requires IsChild(c, p) && c in fs.entries
    ensures Under(fs, p, {c}) == {c} + Below(fs, c)
  {
    assert c[..|p| + 1] == c;
    forall q | q in Under(fs, p, {c}) ensures q in {c} + Below(fs, c) {
      assert q[..|p| + 1] == c;
      if q != c {
        assert q[..|c|] == c;
      }
    }
    forall q | q in Below(fs, c) ensures q in Under(fs, p, {c}) {
      assert q[..|p|] == q[..|c|][..|p|];
      assert q[..|p| + 1] == q[..|c|];
    }
  }

  /** An entry on its own weighs its own size. */
  lemma SumSizesSingle(fs: Fs, c: Path)
    ensures SumSizes(fs, {c}) == EntrySize(fs, c)
  {
    SumSizesRemove(fs, {c}, c);
    assert {c} - {c} == {};
  }

  /** Adding one child adds that child and its whole subtree. */
  lemma UnderAddChild(fs: Fs, p: Path, done: set<Path>, c: Path)
    requires IsChild(c, p) && c in fs.entries && c !in done
    ensures SumSizes(fs, Under(fs, p, done + {c}))
      == SumSizes(fs, Under(fs, p, done)) + EntrySize(fs, c) + TreeSize(fs, c)
  {
    UnderOneChild(fs, p, c);
    var part := Under(fs, p, {c});
    assert Under(fs, p, done + {c}) == Under(fs, p, done) + part;
    assert Under(fs, p, done) !! part;
    SumSizesUnion(fs, Under(fs, p, done), part);
    assert c !in Below(fs, c);
    SumSizesUnion(fs, {c}, Below(fs, c));
    SumSizesSingle(fs, c);
  }

  /** The children together cover everything inside `p`. */
  lemma UnderAllChildren(fs: Fs, p: Path)
    requires Valid(fs)
    ensures Under(fs, p, Children(fs, p)) == Below(fs, p)
  {
    forall q | q in Below(fs, p) ensures q[..|p| + 1] in Children(fs, p) {
      if |q| > |p| + 1 {
        AncestorIsDir(fs, q, |p| + 1);
      } else {
        assert q[..|p| + 1] == q;
      }
    }
  }

  /** `getSize(File)`: the total length of every regular file inside the
      directory, at any depth; `listFiles()` of a non-directory is null, so
      the for-each throws `NullPointerException`. */
  method GetSize(fs: Fs, dir: Path) returns (r: Result<nat>)
    requires Valid(fs)
    ensures r.Ok? <==> IsDir(fs, dir)
    ensures r.Ok? ==> r.value == TreeSize(fs, dir)
    ensures r.Throws? ==> r.error == NullPointer
    decreases |Below(fs, dir)|
  {
    if !IsDir(fs, dir) {
      return Throws(NullPointer);
    }
    var todo := Children(fs, dir);
    ghost var done: set<Path> := {};
    var size: nat := 0;
    while todo != {}
      invariant todo + done == Children(fs, dir) && todo !! done
      invariant size == SumSizes(fs, Under(fs, dir, done))
      decreases todo
    {
      var c :| c in todo;
      var part: nat;
      if IsDir(fs, c) {
        BelowShrinks(fs, dir, c);
        var sub := GetSize(fs, c);
        part := sub.value;
      } else {
        FileHasNothingBelow(fs, c);
        part := |fs.entries[c].bytes|;
      }
      UnderAddChild(fs, dir, done, c);
      MoveOne(todo, done, c);
      size := size + part;
      todo := todo - {c};
      done := done + {c};
    }
    UnderAllChildren(fs, dir);
    return Ok(size);
  }

  /** Moving one element from the work list to the finished set keeps their
      union and disjointness and shrinks the work list. */
  lemma MoveOne<T>(todo: set<T>, done: set<T>, c: T)
    requires c in todo && todo !! done
    ensures (todo - {c}) + (done + {c}) == todo + done
    ensures (todo - {c}) !! (done + {c}) && todo - {c} < todo
  {
  }

  /** An empty directory has size 0. */
  lemma EmptyDirectorySize(fs: Fs, dir: Path)
    requires Valid(fs) && IsDir(fs, dir) && Children(fs, dir) == {}
    ensures TreeSize(fs, dir) == 0
  {
    forall q | q in Below(fs, dir) ensures false {
      UnderAllChildren(fs, dir);
    }
    assert Below(fs, dir) == {};
  }

  // ---------------------------------------------------------------------------
  // createFile, save

  /** The state after `createFile` has made the missing parent directories. */
  function PrepareParent(fs: Fs, p: Path): Fs
  {
    if |p| > 0 && Parent(p) !in fs.entries then Mkdirs(fs, Parent(p)).0 else fs
  }

  /** `createFile(String)`: an existing path is returned untouched; otherwise
      the missing parent directories are made and then an empty file, which
      throws `IOException` when the parent could not be made. */
  function CreateFile(fs: Fs, p: Path): (r: Result<Fs>)
    ensures p in fs.entries ==> r == Ok(fs)
    ensures r.Ok? ==> p in r.value.entries
    ensures r.Throws? ==> p !in fs.entries && r.error.IO? && r.error.reason in {NoSuchFile, NotADirectory}
  {
    if p in fs.entries then Ok(fs)
    else
      match CreateNewFile(PrepareParent(fs, p), p)
      case Throws(e) => Throws(e)
      case Ok((fs2, _)) => Ok(fs2)
  }

  /** A new path with no regular file above it: `createFile` succeeds. */
  lemma CreateFileNew(fs: Fs, p: Path)
    requires Valid(fs) && p !in fs.entries && NoFileAbove(fs, p)
    ensures CreateFile(fs, p).Ok?
    ensures var r := CreateFile(fs, p).value;
      && Valid(r)
      && r.locked == fs.locked && r.deferred == fs.deferred
      && ReadAll(r, p) == Some([])
      && (forall k :: 0 <= k < |p| ==> IsDir(r, p[..k]))
      && (forall q :: q in fs.entries ==> q in r.entries && r.entries[q] == fs.entries[q])
      && (forall q :: q in r.entries && q !in fs.entries ==> q <= p)
  {
    var fs1 := PrepareParent(fs, p);
    ParentPrepared(fs, p);
    PutFileKeepsValid(fs1, p, []);
    AddFileFacts(fs, fs1, p);
  }

  /** Making the missing parents of a new path with no file above it: the
      tree stays well formed, every proper prefix of the path is a directory,
      and only prefixes of the parent are added. */
  lemma ParentPrepared(fs: Fs, p: Path)
    requires Valid(fs) && p !in fs.entries && NoFileAbove(fs, p)
    ensures |p| > 0
    ensures var fs1 := PrepareParent(fs, p);
      && Valid(fs1)
      && fs1.locked == fs.locked && fs1.deferred == fs.deferred
      && p !in fs1.entries
      && IsDir(fs1, Parent(p))
      && (forall k :: 0 <= k < |p| ==> IsDir(fs1, p[..k]))
      && (forall q :: q in fs.entries ==> q in fs1.entries && fs1.entries[q] == fs.entries[q])
      && (forall q :: q in fs1.entries && q !in fs.entries ==> q <= Parent(p))
  {
    assert |p| > 0;
    var par := Parent(p);
    var fs1 := PrepareParent(fs, p);
    MkdirsSpec(fs, par);
    forall k | 0 <= k < |par| ensures !IsFile(fs, par[..k]) {
      assert p[..k] == par[..k];
    }
    assert p[..|par|] == par;
    forall k | 0 <= k < |p| ensures IsDir(fs1, p[..k]) {
      assert p[..k] == par[..k];
      if par in fs.entries && k < |par| {
        AncestorIsDir(fs, par, k);
      }
    }
    if p in fs1.entries {
      assert false;
    }
  }

  /** The file added after the parents: what holds of the result. */
  lemma AddFileFacts(fs: Fs, fs1: Fs, p: Path)
    requires |p| > 0 && p !in fs.entries && p !in fs1.entries
    requires fs1.locked == fs.locked && fs1.deferred == fs.deferred
    requires forall k :: 0 <= k < |p| ==> IsDir(fs1, p[..k])
    requires forall q :: q in fs.entries ==> q in fs1.entries && fs1.entries[q] == fs.entries[q]
    requires forall q :: q in fs1.entries && q !in fs.entries ==> q <= Parent(p)
    ensures var r := fs1.(entries := fs1.entries[p := File([])]);
      && r.locked == fs.locked && r.deferred == fs.deferred
      && ReadAll(r, p) == Some([])
      && (forall k :: 0 <= k < |p| ==> IsDir(r, p[..k]))
      && (forall q :: q in fs.entries ==> q in r.entries && r.entries[q] == fs.entries[q])
      && (forall q :: q in r.entries && q !in fs.entries ==> q <= p)
  {
    var r := fs1.(entries := fs1.entries[p := File([])]);
    forall k | 0 <= k < |p| ensures IsDir(r, p[..k]) {
      assert p[..k] != p;
    }
    forall q | q in r.entries && q !in fs.entries ensures q <= p {
      if q != p {
        assert q <= Parent(p);
      }
    }
  }

  /** A new path below a regular file: `createFile` throws, because
      `createNewFile` finds a regular file where a directory should be. */
  lemma CreateFileBlocked(fs: Fs, p: Path)
    requires Valid(fs) && p !in fs.entries && !NoFileAbove(fs, p)
    ensures CreateFile(fs, p) == Throws(IO(NotADirectory))
  {
    assert |p| > 0;
    var par := Parent(p);
    var k :| 0 <= k < |p| && IsFile(fs, p[..k]);
    assert p[..k] == par[..k];
    if par !in fs.entries {
      MkdirsSpec(fs, par);
      assert IsFile(fs, par[..k]);
      assert PrepareParent(fs, p) == fs;
    } else if k < |par| {
      AncestorIsDir(fs, par, k);
      assert false;
    } else {
      assert par[..k] == par;
    }
  }

  /** On a valid tree `createFile` succeeds exactly when the path exists or no
      regular file stands above it. A new path becomes an empty file inside
      directories that all exist; nothing that existed changes, and the only
      other additions are the directories above it. */
  lemma CreateFileSpec(fs: Fs, p: Path)
    requires Valid(fs)
    ensures CreateFile(fs, p).Ok? <==> p in fs.entries || NoFileAbove(fs, p)
    ensures p in fs.entries ==> CreateFile(fs, p) == Ok(fs)
    ensures CreateFile(fs, p).Ok? && p !in fs.entries ==>
      var r := CreateFile(fs, p).value;
      && Valid(r)
      && r.locked == fs.locked && r.deferred == fs.deferred
      && ReadAll(r, p) == Some([])
      && (forall k :: 0 <= k < |p| ==> IsDir(r, p[..k]))
      && (forall q :: q in fs.entries ==> q in r.entries && r.entries[q] == fs.entries[q])
      && (forall q :: q in r.entries && q !in fs.entries ==> q <= p)
  {
    if p !in fs.entries {
      if NoFileAbove(fs, p) {
        CreateFileNew(fs, p);
      } else {
        CreateFileBlocked(fs, p);
      }
    }
  }

  /** `save(InputStream, String, boolean)`: open the created file for writing,
      copy the stream into it through a 10 KiB buffer, close the output, and
      close the input when asked. The result is the new state, or the
      exception from creating or opening the file (which leaves the input
      open); the second result says whether the input was closed. */
  method Save(fs: Fs, input: Stream<byte>, path: string, closeInput: bool)
    returns (r: Result<Fs>, inputClosed: bool)
    ensures r == SaveBytes(fs, input.content, path)
    ensures inputClosed <==> r.Ok? && closeInput
  {
    var p := ParsePath(path);
    var created := CreateFile(fs, p);
    if created.Throws? {
      return Throws(created.error), false;
    }
    var writer := OpenForWrite(created.value, p);
    if writer.Throws? {
      return Throws(writer.error), false;
    }
    var out := CopyInto(created.value, p, input);
    assert writer.value == created.value.(entries := created.value.entries[p := File([])]);
    AppendWritten(created.value, p, [], input.content);
    assert [] + input.content == input.content;
    return Ok(out), closeInput;
  }

  /** The copy loop of `save` into the file at `p`, just opened and so
      emptied: each read's chunk is appended in order, so the file ends up
      holding the whole stream. */
  method CopyInto(base: Fs, p: Path, input: Stream<byte>) returns (out: Fs)
    ensures out == base.(entries := base.entries[p := File(input.content)])
  {
    out := base.(entries := base.entries[p := File([])]);
    var pos := 0;
    var k := 0;
    while true
      invariant pos <= |input.content|
      invariant out == base.(entries := base.entries[p := File(input.content[..pos])])
      decreases |input.content| - pos
    {
      var n := ReadCount(input, k, |input.content| - pos, SaveBuffer);
      if n == 0 {
        break;
      }
      var chunk := input.content[pos..pos + n];
      assert input.content[..pos] + chunk == input.content[..pos + n];
      AppendWritten(base, p, input.content[..pos], chunk);
      out := Append(out, p, chunk);
      pos := pos + n;
      k := k + 1;
    }
    assert input.content[..pos] == input.content;
  }

  /** The buffer `save` copies through: 10 KiB. */
  const SaveBuffer: nat := 10 * 1024

  /** `save(InputStream, String)`: the three-argument form, always closing
      the input. */
  method SaveAndClose(fs: Fs, input: Stream<byte>, path: string) returns (r: Result<Fs>, inputClosed: bool)
    ensures r == SaveBytes(fs, input.content, path)
    ensures inputClosed <==> r.Ok?
  {
    r, inputClosed := Save(fs, input, path, true);
  }

  /** `save(byte[], String)`: create the file, open it for writing and write
      the whole array. */
  function SaveBytes(fs: Fs, data: seq<byte>, path: string): (r: Result<Fs>)
    ensures r.Ok? ==> ReadAll(r.value, ParsePath(path)) == Some(data)
    ensures r.Throws? ==> r.error.IO?
    ensures IsDir(fs, ParsePath(path)) ==> r.Throws?
  {
    var p := ParsePath(path);
    match CreateFile(fs, p)
    case Throws(e) => Throws(e)
    case Ok(fs1) =>
      match OpenForWrite(fs1, p)
      case Throws(e) => Throws(e)
      case Ok(fs2) =>
        assert fs2.entries[p].bytes + data == data;
        Ok(Append(fs2, p, data))
  }

  /** `save(byte[], String)` is `createFile` followed by overwriting the file. */
  lemma SaveBytesShape(fs: Fs, data: seq<byte>, path: string)
    ensures var p := ParsePath(path);
      var c := CreateFile(fs, p);
      SaveBytes(fs, data, path).Ok? <==> c.Ok? && CanOpenForWrite(c.value, p)
    ensures var p := ParsePath(path);
      SaveBytes(fs, data, path).Ok? ==>
        var c := CreateFile(fs, p).value;
        SaveBytes(fs, data, path).value == c.(entries := c.entries[p := File(data)])
  {
    var p := ParsePath(path);
    if SaveBytes(fs, data, path).Ok? {
      var fs2 := OpenForWrite(CreateFile(fs, p).value, p).value;
      assert fs2.entries[p].bytes + data == data;
    }
  }

  /** Saving leaves exactly the given bytes at the path, changes nothing else
      that existed before, and fails exactly when the file cannot be created
      or the path is a directory. */
  lemma SaveBytesSpec(fs: Fs, data: seq<byte>, path: string)
    requires Valid(fs)
    ensures var p := ParsePath(path);
      SaveBytes(fs, data, path).Ok? <==> !IsDir(fs, p) && (p in fs.entries || NoFileAbove(fs, p))
    ensures var p := ParsePath(path);
      SaveBytes(fs, data, path).Ok? ==>
        var r := SaveBytes(fs, data, path).value;
        && Valid(r)
        && ReadAll(r, p) == Some(data)
        && (forall q :: q in fs.entries && q != p ==> q in r.entries && r.entries[q] == fs.entries[q])
  {
    var p := ParsePath(path);
    CreateFileSpec(fs, p);
    SaveBytesShape(fs, data, path);
    if SaveBytes(fs, data, path).Ok? {
      var c := CreateFile(fs, p).value;
      assert IsFile(c, p);
      assert p != [];
      PutFileKeepsValid(c, p, data);
    }
  }

  // ---------------------------------------------------------------------------
  // copy, moveFile

  /** `copy(File, File)`: the source is opened, then the destination (which
      truncates it), then the source's current contents are written to the
      destination. A source that is not a regular file or a destination that
      cannot be opened raises an exception that `copy` catches and logs, so
      nothing changes. Because the destination is truncated before the
      source's length is taken, copying a file onto itself empties it. */
  function Copy(fs: Fs, src: Path, dst: Path): (r: Fs)
    ensures r.locked == fs.locked && r.deferred == fs.deferred
    ensures forall q :: q != dst ==> (q in r.entries <==> q in fs.entries)
  {
    if !IsFile(fs, src) then fs
    else
      match OpenForWrite(fs, dst)
      case Throws(_) => fs
      case Ok(fs1) => fs1.(entries := fs1.entries[dst := File(fs1.entries[src].bytes)])
  }

  /** `copy(String, String)`: a null path throws before the `try`. An empty
      path names no file, so opening it fails inside the `try` and nothing
      changes. */
  function CopyPaths(fs: Fs, source: Option<string>, dest: Option<string>): (r: Result<Fs>)
    ensures r.Throws? <==> source.None? || dest.None?
    ensures source == Some("") && dest.Some? ==> r == Ok(fs)
    ensures source.Some? && dest == Some("") ==> r == Ok(fs)
  {
    if source.None? || dest.None? then Throws(NullPointer)
    else if source.value == "" || dest.value == "" then Ok(fs)
    else Ok(Copy(fs, ParsePath(source.value), ParsePath(dest.value)))
  }

  /** A successful copy between two different paths leaves the destination
      holding the source's bytes and every other entry as it was. */
  lemma CopyTransfers(fs: Fs, src: Path, dst: Path)
    requires IsFile(fs, src) && CanOpenForWrite(fs, dst) && src != dst
    ensures var r := Copy(fs, src, dst);
      && ReadAll(r, dst) == ReadAll(fs, src)
      && (forall q :: q in fs.entries && q != dst ==> r.entries[q] == fs.entries[q])
  {
  }

  /** A copy whose source is not a regular file, or whose destination cannot
      be opened, changes nothing. */
  lemma CopyFailsUnchanged(fs: Fs, src: Path, dst: Path)
    requires !IsFile(fs, src) || !CanOpenForWrite(fs, dst)
    ensures Copy(fs, src, dst) == fs
  {
  }

  /** Copying a file onto itself truncates it to nothing. */
  lemma CopyOntoItself(fs: Fs, f: Path)
    requires IsFile(fs, f)
    ensures ReadAll(Copy(fs, f, f), f) == Some([])
  {
  }

  /** Once the destination has been opened it exists, so the block that
      would create its parent directory can never run. */
  lemma CopyParentBranchDead(fs: Fs, dst: Path)
    requires OpenForWrite(fs, dst).Ok?
    ensures dst in OpenForWrite(fs, dst).value.entries
  {
  }

  lemma CopyPreservesValid(fs: Fs, src: Path, dst: Path)
    requires Valid(fs)
    ensures Valid(Copy(fs, src, dst))
  {
    if IsFile(fs, src) && CanOpenForWrite(fs, dst) {
      OpenForWritePreservesValid(fs, dst);
      var r := Copy(fs, src, dst);
      forall q | q in r.entries && |q| > 0 ensures IsDir(r, Parent(q)) {
        assert q in OpenForWrite(fs, dst).value.entries;
      }
    }
  }

  /** `moveFile(String, String)` as written: copy, then, whenever the source
      still exists, delete it (or queue it for exit). The copy's failures are
      swallowed, so the delete runs whether or not anything was copied. */
  function MoveFile(fs: Fs, source: Option<string>, dest: Option<string>): (r: Result<Fs>)
    ensures r.Throws? <==> source.None? || dest.None?
    ensures source == Some("") && dest.Some? ==> r == Ok(fs)
  {
    match CopyPaths(fs, source, dest)
    case Throws(e) => Throws(e)
    case Ok(fs1) =>
      var src := ParsePath(source.value);
      if source.value != "" && src in fs1.entries then Ok(DeleteFile(fs1, src).0) else Ok(fs1)
  }

  /** The ordinary move, with the root a directory: a regular file copied to a
      destination that can be opened ends up there; the source goes when it
      can be deleted and is queued for exit otherwise; every other entry
      stays as it was. */
  lemma MoveFileMoves(fs: Fs, source: string, dest: string)
    requires IsDir(fs, [])
    requires IsFile(fs, ParsePath(source)) && CanOpenForWrite(fs, ParsePath(dest))
    requires ParsePath(source) != ParsePath(dest)
    ensures var r := MoveFile(fs, Some(source), Some(dest)).value;
      var src := ParsePath(source);
      var dst := ParsePath(dest);
      && ReadAll(r, dst) == ReadAll(fs, src)
      && (Deletable(fs, src) ==> src !in r.entries)
      && (!Deletable(fs, src) ==> ReadAll(r, src) == ReadAll(fs, src) && src in r.deferred)
      && (forall q :: q in fs.entries && q != src && q != dst ==> q in r.entries && r.entries[q] == fs.entries[q])
  {
    ParsePathEmpty();
    assert source != "" && dest != "";
    var src := ParsePath(source);
    var dst := ParsePath(dest);
    var fs1 := Copy(fs, src, dst);
    CopyTransfers(fs, src, dst);
    assert IsFile(fs1, src) && fs1.entries[src] == fs.entries[src];
    assert Deletable(fs1, src) == Deletable(fs, src);
  }

  /** When the destination cannot be opened, `moveFile` still deletes the
      source: the bytes are in neither place afterwards. */
  lemma MoveFileLosesSource(fs: Fs, source: string, dest: string)
    requires IsDir(fs, [])
    requires IsFile(fs, ParsePath(source)) && Deletable(fs, ParsePath(source))
    requires !CanOpenForWrite(fs, ParsePath(dest))
    ensures var r := MoveFile(fs, Some(source), Some(dest)).value;
      ReadAll(r, ParsePath(source)) == None && ReadAll(r, ParsePath(dest)) != ReadAll(fs, ParsePath(source))
  {
    ParsePathEmpty();
  }

  /** An absolute path of one name. */
  lemma ParseRooted(name: string)
    requires name != "" && '/' !in name
    ensures ParsePath("/" + name) == [name]
  {
    ParsePathSlash("", name);
    ParsePathName(name);
    Text.SplitAllNoSep("", '/');
    assert "" + "/" + name == "/" + name;
  }

  /** An absolute path of two names. */
  lemma ParseRootedTwo(a: string, b: string)
    requires a != "" && '/' !in a && b != "" && '/' !in b
    ensures ParsePath("/" + a + "/" + b) == [a, b]
  {
    ParseRooted(a);
    ParsePathSlash("/" + a, b);
    ParsePathName(b);
  }

  /** The same loss on a concrete tree: moving "/a" into a directory that does
      not exist removes "/a" and creates nothing. */
  lemma MoveFileLosesSourceExample()
    ensures var fs := Fs(map[[] := Dir, ["a"] := File([1])], {}, {});
      var r := MoveFile(fs, Some("/a"), Some("/missing/b")).value;
      r.entries == map[[] := Dir]
  {
    var fs := Fs(map[[] := Dir, ["a"] := File([1])], {}, {});
    ParseRooted("a");
    ParseRootedTwo("missing", "b");
    assert "/missing/b" == "/" + "missing" + "/" + "b";
    assert !CanOpenForWrite(fs, ["missing", "b"]);
    assert Copy(fs, ["a"], ["missing", "b"]) == fs;
    assert Children(fs, ["a"]) == {};
    assert fs.entries - {["a"]} == map[[] := Dir];
  }

  /** `moveFile` as intended: the source is removed only once its bytes are
      at the destination; a failed copy, a move onto itself, or an empty path
      changes nothing. */
  function MoveFileSafe(fs: Fs, source: Option<string>, dest: Option<string>): (r: Result<Fs>)
    ensures r.Throws? <==> source.None? || dest.None?
  {
    if source.None? || dest.None? then Throws(NullPointer)
    else if source.value == "" || dest.value == "" then Ok(fs)
    else
      var src := ParsePath(source.value);
      var dst := ParsePath(dest.value);
      if src == dst || !IsFile(fs, src) || !CanOpenForWrite(fs, dst) then Ok(fs)
      else Ok(DeleteFile(Copy(fs, src, dst), src).0)
  }

  /** The corrected move never loses the source's bytes: afterwards they are
      at the source or at the destination; and when the copy can be made they
      are at the destination. */
  lemma MoveFileSafeKeepsContent(fs: Fs, source: string, dest: string)
    requires IsDir(fs, []) && IsFile(fs, ParsePath(source))
    ensures var r := MoveFileSafe(fs, Some(source), Some(dest)).value;
      var src := ParsePath(source);
      var dst := ParsePath(dest);
      && (ReadAll(r, src) == ReadAll(fs, src) || ReadAll(r, dst) == ReadAll(fs, src))
      && (src != dst && CanOpenForWrite(fs, dst) ==> ReadAll(r, dst) == ReadAll(fs, src))
  {
    ParsePathEmpty();
    assert source != "";
    if dest == "" {
      assert !CanOpenForWrite(fs, ParsePath(dest));
    }
  }

  // ---------------------------------------------------------------------------
  // Directories, names, shell commands

  /** `isSDCardWritable`: external storage reports `MEDIA_MOUNTED`. */
  predicate IsSdCardWritable(storageState: string)
  {
    storageState == Android.MEDIA_MOUNTED
  }

  /** `getCacheDirectory`: the platform's cache directory, or the
      conventional "/data/data/<package>/cache/" when it reports null. */
  function CacheDirectory(ctx: Android.Context): (r: string)
    ensures ctx.cacheDir.Some? ==> r == ctx.cacheDir.value
  {
    match ctx.cacheDir
    case Some(d) => d
    case None => "/data/data/" + ctx.packageName + "/cache/"
  }

  /** `getFileDirectory`: the same with "files". */
  function FileDirectory(ctx: Android.Context): (r: string)
    ensures ctx.filesDir.Some? ==> r == ctx.filesDir.value
  {
    match ctx.filesDir
    case Some(d) => d
    case None => "/data/data/" + ctx.packageName + "/files/"
  }

  /** A rooted path of four names with a trailing '/'. */
  lemma ParseRootedFour(a: string, b: string, c: string, d: string)
    requires a != "" && '/' !in a && b != "" && '/' !in b
    requires c != "" && '/' !in c && d != "" && '/' !in d
    ensures ParsePath("/" + a + "/" + b + "/" + c + "/" + d + "/") == [a, b, c, d]
  {
    var ab := "/" + a + "/" + b;
    var abc := ab + "/" + c;
    var abcd := abc + "/" + d;
    ParseRootedTwo(a, b);
    ParsePathSlash(ab, c);
    ParsePathName(c);
    ParsePathSlash(abc, d);
    ParsePathName(d);
    ParsePathSlash(abcd, "");
    Text.SplitAllNoSep("", '/');
    assert "/" + a + "/" + b + "/" + c + "/" + d + "/" == abcd + "/" + "";
  }

  /** "/data/data/<package>/<leaf>/" names four directories. */
  lemma FallbackPath(pkg: string, leaf: string)
    requires pkg != "" && '/' !in pkg && leaf != "" && '/' !in leaf
    ensures ParsePath("/data/data/" + pkg + "/" + leaf + "/") == ["data", "data", pkg, leaf]
  {
    ParseRootedFour("data", "data", pkg, leaf);
    assert "/data/data/" + pkg + "/" + leaf + "/" == "/" + "data" + "/" + "data" + "/" + pkg + "/" + leaf + "/";
  }

  /** The fallback paths name the package's directory under /data/data. */
  lemma FallbackDirectories(ctx: Android.Context)
    requires ctx.packageName != "" && '/' !in ctx.packageName
    ensures ctx.cacheDir.None? ==> ParsePath(CacheDirectory(ctx)) == ["data", "data", ctx.packageName, "cache"]
    ensures ctx.filesDir.None? ==> ParsePath(FileDirectory(ctx)) == ["data", "data", ctx.packageName, "files"]
  {
    var pkg := ctx.packageName;
    FallbackPath(pkg, "cache");
    FallbackPath(pkg, "files");
    assert "/data/data/" + pkg + "/cache/" == "/data/data/" + pkg + "/" + "cache" + "/";
    assert "/data/data/" + pkg + "/files/" == "/data/data/" + pkg + "/" + "files" + "/";
  }

  /** `extractName`: null for null; `StringIndexOutOfBoundsException` for a
      string shorter than five characters; when a '.' is among the last five
      characters, the text after the last '/'; otherwise null. */
  function ExtractName(path: Option<string>): (r: Result<Option<string>>)
    ensures path.None? ==> r == Ok(None)
    ensures path.Some? ==> (r.Throws? <==> |path.value| < 5)
    ensures path.Some? && r.Ok? ==> (r.value.Some? <==> '.' in path.value[|path.value| - 5..])
    ensures r.Ok? && r.value.Some? ==>
      var s := path.value;
      var n := r.value.value;
      && '/' !in n && |n| <= |s| && s[|s| - |n|..] == n
      && (|n| == |s| || s[|s| - |n| - 1] == '/')
  {
    match path
    case None => Ok(None)
    case Some(s) =>
      if |s| < 5 then Throws(IndexOutOfBounds)
      else if '.' in s[|s| - 5..] then Ok(Some(s[Text.LastIndexOf(s, '/') + 1..]))
      else Ok(None)
  }

  /** The name of a file in a directory is recovered from the joined path. */
  lemma ExtractNameOfJoin(dir: string, name: string)
    requires '/' !in name && |name| >= 5 && '.' in name[|name| - 5..]
    ensures ExtractName(Some(dir + "/" + name)) == Ok(Some(name))
  {
    var s := dir + "/" + name;
    assert s[|s| - 5..] == name[|name| - 5..];
    var i := Text.LastIndexOf(s, '/');
    assert s[|dir|] == '/';
    assert s[|dir| + 1..] == name;
  }

  /** `extractSuffix`: the text after the last '.', or the whole string when
      there is none; a null path throws. */
  function ExtractSuffix(path: Option<string>): (r: Result<string>)
    ensures path.None? <==> r.Throws?
    ensures r.Ok? ==>
      var s := path.value;
      && '.' !in r.value && |r.value| <= |s| && s[|s| - |r.value|..] == r.value
      && (|r.value| == |s| <==> '.' !in s)
      && (|r.value| < |s| ==> s[|s| - |r.value| - 1] == '.')
  {
    match path
    case None => Throws(NullPointer)
    case Some(s) => Ok(s[Text.LastIndexOf(s, '.') + 1..])
  }

  /** The suffix of "base.ext" is "ext" whenever "ext" holds no '.'. */
  lemma ExtractSuffixOfJoin(base: string, ext: string)
    requires '.' !in ext
    ensures ExtractSuffix(Some(base + "." + ext)) == Ok(ext)
  {
    var s := base + "." + ext;
    var i := Text.LastIndexOf(s, '.');
    assert s[|base|] == '.';
    assert s[|base| + 1..] == ext;
  }

  /** The command line `deleteDirectoryWithOSNative` runs, chosen by the
      platform's separator character. */
  function DeleteCommand(directory: string, separator: char): string
  {
    if separator == '\\' then "CMD /D /C \"RMDIR /Q /S " + Text.Replace(directory, '/', '\\') + "\""
    else "rm -rf " + Text.Replace(directory, '\\', separator)
  }

  /** `deleteDirectoryWithOSNative`: the command it spawns (none for a null
      directory, whose `replace` throws inside the `try`) and its result,
      which is true exactly when the process could be spawned: the command's
      exit status and whether anything was deleted play no part. */
  function DeleteDirectoryWithOSNative(directory: Option<string>, separator: char, spawnSucceeds: bool)
    : (r: (bool, Option<string>))
    ensures r.1.Some? <==> directory.Some?
    ensures r.0 <==> directory.Some? && spawnSucceeds
  {
    match directory
    case None => (false, None)
    case Some(d) => (spawnSucceeds, Some(DeleteCommand(d, separator)))
  }

  /** The command names the directory in the platform's own separator. */
  lemma DeleteCommandShape(directory: string, separator: char)
    ensures separator == '\\' ==>
      var c := DeleteCommand(directory, separator);
      && Text.StartsWith(c, "CMD /D /C \"RMDIR /Q /S ")
      && c[|c| - 1] == '"'
      && '/' !in c[23..|c| - 1]
    ensures separator == '/' ==>
      var c := DeleteCommand(directory, separator);
      && Text.StartsWith(c, "rm -rf ")
      && '\\' !in c[7..]
      && |c| == 7 + |directory|
  {
    var c := DeleteCommand(directory, separator);
    if separator == '\\' {
      assert c[23..|c| - 1] == Text.Replace(directory, '/', '\\');
      Text.ReplaceRemoves(directory, '/', '\\');
    }
    if separator == '/' {
      assert c[7..] == Text.Replace(directory, '\\', '/');
      Text.ReplaceRemoves(directory, '\\', '/');
    }
  }

  /** The command line `rename` runs; string concatenation prints a null name
      as "null". */
  function RenameCommand(from: Option<string>, to: Option<string>, separator: char): string
  {
    var f := Text.ValueOf(from);
    var t := Text.ValueOf(to);
    if separator == '\\' then "CMD /D /C \"REN " + f + [' '] + t + "\""
    else "mv -f " + f + [' '] + t
  }

  /** Split on spaces, the Unix rename command is exactly `mv`, `-f`, and the
      two names, provided neither name contains a space. */
  lemma RenameCommandWords(from: string, to: string)
    requires ' ' !in from && ' ' !in to
    ensures Text.SplitAll(RenameCommand(Some(from), Some(to), '/'), ' ') == ["mv", "-f", from, to]
  {
    var names := from + [' '] + to;
    var flagged := "-f" + [' '] + names;
    assert RenameCommand(Some(from), Some(to), '/') == "mv" + [' '] + flagged;
    Text.SplitAllNoSep(from, ' ');
    Text.SplitAllNoSep(to, ' ');
    Text.SplitAllConcat(from, to, ' ');
    assert Text.SplitAll(names, ' ') == [from, to];
    Text.SplitAllNoSep("-f", ' ');
    Text.SplitAllConcat("-f", names, ' ');
    assert Text.SplitAll(flagged, ' ') == ["-f", from, to];
    Text.SplitAllNoSep("mv", ' ');
    Text.SplitAllConcat("mv", flagged, ' ');
  }

  /** `makeDirectory(String, boolean)`: `mkdirs` or `mkdir` on the path; a
      null path throws from `new File`. */
  function MakeDirectory(fs: Fs, directory: Option<string>, createParents: bool): (r: Result<(Fs, bool)>)
    ensures r.Throws? <==> directory.None?
  {
    match directory
    case None => Throws(NullPointer)
    case Some(d) =>
      var p := ParsePath(d);
      if createParents then Ok(Mkdirs(fs, p)) else Ok(Mkdir(fs, p))
  }

  /** `makeDirectory(String)`: without creating parents, so the result is
      true exactly when the directory did not exist and its parent is a
      directory; then it is a directory, and otherwise nothing changed. */
  function MakeDirectoryOnly(fs: Fs, directory: Option<string>): (r: Result<(Fs, bool)>)
    ensures r.Throws? <==> directory.None?
    ensures r.Ok? ==> var p := ParsePath(directory.value);
      && (r.value.1 <==> p !in fs.entries && |p| > 0 && IsDir(fs, Parent(p)))
      && (r.value.1 ==> IsDir(r.value.0, p))
      && (!r.value.1 ==> r.value.0 == fs)
  {
    MakeDirectory(fs, directory, false)
  }

  /** On a valid tree the result is true exactly when the directory did not
      exist and could be made: its parent is a directory, or, when parents are
      created, no regular file stands above it. True means it is now a
      directory; false means nothing changed. */
  lemma MakeDirectorySpec(fs: Fs, d: string, createParents: bool)
    requires Valid(fs)
    ensures var p := ParsePath(d);
      var (r, ok) := MakeDirectory(fs, Some(d), createParents).value;
      && (ok <==> (p !in fs.entries &&
           (if createParents then NoFileAbove(fs, p) else |p| > 0 && IsDir(fs, Parent(p)))))
      && (ok ==> IsDir(r, p) && Valid(r))
      && (!ok ==> r == fs)
  {
    var p := ParsePath(d);
    if createParents {
      MkdirsSpec(fs, p);
      assert p[..|p|] == p;
    } else {
      var (r, ok) := Mkdir(fs, p);
      if ok {
        forall q | q in r.entries && |q| > 0 ensures IsDir(r, Parent(q)) {
          if q != p {
            assert q in fs.entries;
          }
        }
      }
    }
  }
}

=== FILE: io_utils.dfy ===
/** `IOUtils`: draining streams into arrays and strings, guessing a stream's
    encoding from its first bytes, reading a whole file, and closing
    resources without complaint. Streams of characters stand for the
    decoded output of an `InputStreamReader`; character decoding itself is
    not modelled. */
module IOUtils {
  import opened Lang
  import opened Streams
  import opened FileSystem
  import FileUtils

  // ---------------------------------------------------------------------------
  // closeQuietly

  /** `closeQuietly(Closeable)`: null is ignored; otherwise `close` is called
      and whatever it throws is swallowed. `resource` is null or the outcome
      of its `close`; the result says whether `close` was called, and the
      call itself never throws. */
  function CloseQuietly(resource: Option<Result<()>>): (r: (bool, Result<()>))
    ensures r.0 <==> resource.Some?
    ensures r.1 == Ok(())
  {
    match resource
    case None => (false, Ok(()))
    case Some(_) => (true, Ok(()))
  }

  // ---------------------------------------------------------------------------
  // getStreamEncoding

  /** The encoding name `getStreamEncoding` gives for the first three bytes. */
  function Classify(b0: byte, b1: byte, b2: byte): string
  {
    if b0 == 0xEF && b1 == 0xBB && b2 == 0xBF then "utf-8"
    else if b0 == 0xFF && b1 == 0xFE then "unicode"
    else if b0 == 0xFE && b1 == 0xFF then "utf-16be"
    else if b0 == 0xFF && b1 == 0xFF then "utf-16le"
    else "GBK"
  }

  /** The three-byte array after one `read` into it: what the read delivered,
      then the zeros the array was created with. */
  function FirstThree(s: Stream<byte>): (r: seq<byte>)
    ensures |r| == 3
    ensures var n := ReadCount(s, 0, |s.content|, 3);
      r[..n] == s.content[..n] && forall i :: n <= i < 3 ==> r[i] == 0
  {
    var n := ReadCount(s, 0, |s.content|, 3);
    s.content[..n] + seq(3 - n, _ => 0 as byte)
  }

  /** `getStreamEncoding(InputStream)`. */
  function GetStreamEncoding(s: Stream<byte>): (r: string)
    ensures r in {"utf-8", "unicode", "utf-16be", "utf-16le", "GBK"}
    ensures r == "utf-8" <==>
      ReadCount(s, 0, |s.content|, 3) == 3 && s.content[..3] == [0xEF, 0xBB, 0xBF]
    ensures |s.content| == 0 ==> r == "GBK"
  {
    var b := FirstThree(s);
    Classify(b[0], b[1], b[2])
  }

  /** The classification in full: the UTF-8 mark needs all three bytes; the
      two-byte marks are tested in the order FF FE, FE FF, FF FF, and FF FE
      is reported as "unicode"; everything else is "GBK". */
  lemma ClassifyTable(b0: byte, b1: byte, b2: byte)
    ensures Classify(b0, b1, b2) == "utf-8" <==> b0 == 0xEF && b1 == 0xBB && b2 == 0xBF
    ensures Classify(b0, b1, b2) == "unicode" <==> b0 == 0xFF && b1 == 0xFE
    ensures Classify(b0, b1, b2) == "utf-16be" <==> b0 == 0xFE && b1 == 0xFF
    ensures Classify(b0, b1, b2) == "utf-16le" <==> b0 == 0xFF && b1 == 0xFF
    ensures Classify(b0, b1, b2) == "GBK" <==>
      !(b0 == 0xEF && b1 == 0xBB && b2 == 0xBF) && !(b0 == 0xFF && (b1 == 0xFE || b1 == 0xFF)) &&
      !(b0 == 0xFE && b1 == 0xFF)
  {
  }

  /** The result depends on nothing but the zero-padded bytes the one read
      delivered. */
  lemma EncodingDependsOnFirstRead(s: Stream<byte>, t: Stream<byte>)
    requires FirstThree(s) == FirstThree(t)
    ensures GetStreamEncoding(s) == GetStreamEncoding(t)
  {
  }

  /** A stream of fewer than three bytes is classified as if zeros followed:
      a lone FF FE is "unicode" when the one read returns both bytes and
      "GBK" when it returns only the first; a lone FF is "GBK". */
  lemma ShortStreamPadded(g: nat -> nat)
    ensures GetStreamEncoding(Stream([0xFF, 0xFE], g)) == (if g(0) % 2 == 1 then "unicode" else "GBK")
    ensures GetStreamEncoding(Stream([0xFF], g)) == "GBK"
  {
    var two := Stream([0xFF as byte, 0xFE], g);
    var one := Stream([0xFF as byte], g);
    assert ReadCount(one, 0, 1, 3) == 1;
    var n := ReadCount(two, 0, 2, 3);
    assert n == 1 + g(0) % 2;
    if n == 1 {
      assert FirstThree(two) == [0xFF, 0, 0];
    } else {
      assert FirstThree(two) == [0xFF, 0xFE, 0];
    }
    assert FirstThree(one) == [0xFF, 0, 0];
  }

  /** When the first read returns a single byte, even a full UTF-8 mark is
      missed. */
  lemma SplitMarkMissed(rest: seq<byte>, g: nat -> nat)
    requires g(0) % 3 == 0
    ensures GetStreamEncoding(Stream([0xEF, 0xBB, 0xBF] + rest, g)) == "GBK"
  {
    var s := Stream([0xEF as byte, 0xBB, 0xBF] + rest, g);
    assert ReadCount(s, 0, |s.content|, 3) == 1;
    assert FirstThree(s) == [0xEF, 0, 0];
  }

  // ---------------------------------------------------------------------------
  // toByteArray, load, getFileByte

  /** The buffer `toByteArray` and `load` read through. */
  const ReadBuffer: nat := 1024

  /** `toByteArray(InputStream)`: null for null; otherwise every byte the
      stream delivers, after which the stream is closed. */
  method ToByteArray(input: Option<Stream<byte>>) returns (r: Option<seq<byte>>, closed: bool)
    ensures input.None? <==> r.None?
    ensures input.Some? ==> r.value == input.value.content && closed
    ensures input.None? ==> !closed
  {
    if input.None? {
      return None, false;
    }
    var bytes := Drain(input.value, ReadBuffer);
    return Some(bytes), true;
  }

  /** `load(InputStream)`: every byte the stream delivers, then the stream is
      closed; a null stream throws at the first `read`. */
  method Load(input: Option<Stream<byte>>) returns (r: Result<seq<byte>>, closed: bool)
    ensures input.None? <==> r.Throws?
    ensures input.Some? ==> r.value == input.value.content && closed
    ensures input.None? ==> r.error == NullPointer && !closed
  {
    if input.None? {
      return Throws(NullPointer), false;
    }
    var bytes := Drain(input.value, ReadBuffer);
    return Ok(bytes), true;
  }

  /** `getFileByte(File)`: null when the file does not exist or cannot be
      opened as a file (the exception is caught), otherwise its bytes; a null
      `File` throws at `exists()`. */
  function GetFileByte(fs: Fs, file: Option<Path>): (r: Result<Option<seq<byte>>>)
    ensures file.None? <==> r.Throws?
    ensures file.Some? && file.value !in fs.entries ==> r == Ok(None)
    ensures file.Some? && IsDir(fs, file.value) ==> r == Ok(None)
    ensures file.Some? && IsFile(fs, file.value) ==> r == Ok(Some(fs.entries[file.value].bytes))
  {
    match file
    case None => Throws(NullPointer)
    case Some(p) => if p !in fs.entries then Ok(None) else Ok(ReadAll(fs, p))
  }

  /** Reading back what `save(byte[], String)` wrote gives the same bytes. */
  lemma SaveThenGetFileByte(fs: Fs, data: seq<byte>, path: string)
    requires Valid(fs) && FileUtils.SaveBytes(fs, data, path).Ok?
    ensures GetFileByte(FileUtils.SaveBytes(fs, data, path).value, Some(ParsePath(path))) == Ok(Some(data))
  {
    FileUtils.SaveBytesSpec(fs, data, path);
  }

  // ---------------------------------------------------------------------------
  // toStringBuffer

  predicate IsLineEnd(c: char)
  {
    c == '\n' || c == '\r'
  }

  /** The length of the first line: the position of the first line end, or
      the whole string. */
  function LineLength(s: string): (i: nat)
    ensures i <= |s|
    ensures forall j :: 0 <= j < i ==> !IsLineEnd(s[j])
    ensures i < |s| ==> IsLineEnd(s[i])
  {
    if |s| == 0 || IsLineEnd(s[0]) then 0 else 1 + LineLength(s[1..])
  }

  /** Where the next line starts after the line end at `i`: "\r\n" counts as
      one line end. */
  function NextLineStart(s: string, i: nat): (j: nat)
    requires i < |s|
    ensures i < j <= |s|
  {
    if s[i] == '\r' && i + 1 < |s| && s[i + 1] == '\n' then i + 2 else i + 1
  }

  /** The lines `BufferedReader.readLine` returns, in order, until it returns
      null: terminators are "\n", "\r" and "\r\n", and text after the last
      terminator is a final line. */
  function Lines(s: string): (r: seq<string>)
    ensures forall k, j :: 0 <= k < |r| && 0 <= j < |r[k]| ==> !IsLineEnd(r[k][j])
    decreases |s|
  {
    if |s| == 0 then []
    else
      var i := LineLength(s);
      if i == |s| then [s] else [s[..i]] + Lines(s[NextLineStart(s, i)..])
  }

  /** Each line followed by "\n". */
  function Render(lines: seq<string>): string
  {
    if |lines| == 0 then "" else lines[0] + "\n" + Render(lines[1..])
  }

  /** The text after the first line and its terminator (none when the first
      line runs to the end). */
  function AfterFirstLine(s: string): (r: string)
    requires |s| > 0
    ensures |r| < |s|
  {
    var i := LineLength(s);
    if i == |s| then [] else s[NextLineStart(s, i)..]
  }

  /** One `readLine`: the first line, and the rest is read afterwards. */
  lemma RenderStep(s: string)
    requires |s| > 0
    ensures Render(Lines(s)) == s[..LineLength(s)] + "\n" + Render(Lines(AfterFirstLine(s)))
  {
    var i := LineLength(s);
    if i == |s| {
      assert Lines(s) == [s];
      assert s[..i] == s;
    } else {
      assert Lines(s) == [s[..i]] + Lines(AfterFirstLine(s));
    }
  }

  /** `toStringBuffer(InputStream)` over the decoded characters: null for
      null; otherwise each line `readLine` returns, followed by "\n", after
      which the stream is closed. */
  method ToStringBuffer(input: Option<string>) returns (r: Option<string>, closed: bool)
    ensures input.None? <==> r.None?
    ensures closed <==> input.Some?
    ensures input.Some? ==> r.value == Render(Lines(input.value))
  {
    if input.None? {
      return None, false;
    }
    var s := input.value;
    var rest := s;
    var out := "";
    while |rest| > 0
      invariant out + Render(Lines(rest)) == Render(Lines(s))
      decreases |rest|
    {
      var piece := rest[..LineLength(rest)] + "\n";
      var next := AfterFirstLine(rest);
      RenderStep(rest);
      AppendAssoc(out, piece, Render(Lines(next)));
      out := out + piece;
      rest := next;
    }
    assert out + "" == out;
    return Some(out), true;
  }

  /** Text with no '\r' comes back unchanged, except that a final line
      without a terminator gains one. */
  lemma {:induction false} RenderWithoutCarriageReturn(s: string)
    requires '\r' !in s
    ensures Render(Lines(s)) == s + FinalNewline(s)
    decreases |s|
  {
    if |s| > 0 {
      var i := LineLength(s);
      RenderStep(s);
      if i == |s| {
        assert s[..i] == s;
        assert Render(Lines(AfterFirstLine(s))) == "";
      } else {
        var piece := s[..i] + "\n";
        var rest := AfterFirstLine(s);
        assert rest == s[i + 1..];
        RenderWithoutCarriageReturn(rest);
        SplitAtNewline(s, i);
        AppendAssoc(piece, rest, FinalNewline(s));
      }
    }
  }

  /** Cutting after a '\n': the two sides give the text back, and the
      final "\n" owed is that of the second side. */
  lemma SplitAtNewline(s: string, i: nat)
    requires i < |s| && s[i] == '\n'
    ensures s == (s[..i] + "\n") + s[i + 1..]
    ensures FinalNewline(s[i + 1..]) == FinalNewline(s)
  {
    assert s[i..] == "\n" + s[i + 1..];
    assert s == s[..i] + s[i..];
    AppendAssoc(s[..i], "\n", s[i + 1..]);
  }

  /** The "\n" `toStringBuffer` adds to a last line without a terminator. */
  function FinalNewline(s: string): string
  {
    if |s| > 0 && s[|s| - 1] != '\n' then "\n" else ""
  }

  /** "\r\n" and a lone "\r" both become "\n". */
  lemma LineEndsNormalised()
    ensures Render(Lines("a\r\nb\rc")) == "a\nb\nc\n"
  {
    var s1 := "a\r\nb\rc";
    var s2 := "b\rc";
    assert LineLength(s1) == 1 && NextLineStart(s1, 1) == 3;
    assert s1[..1] == "a" && s1[3..] == s2;
    assert Lines(s1) == ["a"] + Lines(s2);
    assert LineLength(s2) == 1 && NextLineStart(s2, 1) == 2;
    assert s2[..1] == "b" && s2[2..] == "c";
    assert Lines(s2) == ["b"] + Lines("c");
    assert LineLength("c") == 1;
    assert Lines("c") == ["c"];
  }

  // ---------------------------------------------------------------------------
  // convertToString

  /** The chunks at positions 0, 2, 4, ... */
  function Evens<T>(chunks: seq<seq<T>>): (r: seq<seq<T>>)
    ensures |r| <= |chunks|
  {
    if |chunks| <= 1 then chunks else [chunks[0]] + Evens(chunks[2..])
  }

  lemma {:induction false} EvensAppend<T>(a: seq<seq<T>>, b: seq<seq<T>>, half: nat)
    requires |a| == 2 * half
    ensures Evens(a + b) == Evens(a) + Evens(b)
    decreases |a|
  {
    if |a| == 0 {
      assert a + b == b;
    } else {
      EvensAppend(a[2..], b, half - 1);
      assert (a + b)[2..] == a[2..] + b;
      assert (a + b)[0] == a[0];
    }
  }

  /** Reading one more chunk, or a kept and a dropped chunk, after an even
      number keeps exactly the first. */
  lemma EvensStep<T>(seen: seq<seq<T>>, kept: seq<T>, more: seq<seq<T>>, half: nat)
    requires |seen| == 2 * half && |more| <= 1
    ensures Evens(seen + ([kept] + more)) == Evens(seen) + [kept]
    ensures Flatten(Evens(seen + ([kept] + more))) == Flatten(Evens(seen)) + kept
  {
    EvensAppend(seen, [kept] + more, half);
    assert Evens([kept] + more) == [kept];
    FlattenAppend(Evens(seen), kept);
  }

  /** The buffer `convertToString` reads through: 1024 characters. */
  const CharBuffer: nat := 2 * 512

  /** The chunk the second read of a pass returns, if any. */
  function Dropped(s: Stream<char>, pos: nat, k: nat): (r: seq<seq<char>>)
    requires pos <= |s.content|
    ensures |r| <= 1
  {
    var m := ReadCount(s, k, |s.content| - pos, CharBuffer);
    if m > 0 then [s.content[pos..pos + m]] else []
  }

  /** One pass of the loop consumes the kept chunk and the dropped one. */
  lemma ConvertStep(s: Stream<char>, seen: seq<seq<char>>, pos: nat, k: nat, n: nat, more: seq<seq<char>>, m: nat)
    requires pos < |s.content|
    requires Reads(s, CharBuffer) == seen + ReadsFrom(s, CharBuffer, pos, k)
    requires n == ReadCount(s, k, |s.content| - pos, CharBuffer)
    requires more == Dropped(s, pos + n, k + 1) && m == (if more == [] then 0 else |more[0]|)
    ensures pos + n + m <= |s.content|
    ensures more == [] ==> pos + n == |s.content|
    ensures Reads(s, CharBuffer)
      == (seen + ([s.content[pos..pos + n]] + more)) + ReadsFrom(s, CharBuffer, pos + n + m, k + 1 + |more|)
  {
    if more != [] {
      ConvertStepMore(s, seen, pos, k, n, more, m);
    } else {
      ConvertStepLast(s, seen, pos, k, n, more, m);
    }
  }

  /** A pass whose second read returns a chunk. */
  lemma ConvertStepMore(s: Stream<char>, seen: seq<seq<char>>, pos: nat, k: nat, n: nat, more: seq<seq<char>>, m: nat)
    requires pos < |s.content|
    requires Reads(s, CharBuffer) == seen + ReadsFrom(s, CharBuffer, pos, k)
    requires n == ReadCount(s, k, |s.content| - pos, CharBuffer)
    requires more == Dropped(s, pos + n, k + 1) && m == (if more == [] then 0 else |more[0]|)
    requires more != []
    ensures pos + n + m <= |s.content|
    ensures Reads(s, CharBuffer)
      == (seen + ([s.content[pos..pos + n]] + more)) + ReadsFrom(s, CharBuffer, pos + n + m, k + 2)
  {
    var kept := s.content[pos..pos + n];
    var tail := ReadsFrom(s, CharBuffer, pos + n, k + 1);
    assert ReadsFrom(s, CharBuffer, pos, k) == [kept] + tail;
    var rest := ReadsFrom(s, CharBuffer, pos + n + m, k + 2);
    assert tail == more + rest;
    AppendAssoc([kept], more, rest);
    AppendAssoc(seen, [kept] + more, rest);
  }

  /** A pass whose second read reports the end. */
  lemma ConvertStepLast(s: Stream<char>, seen: seq<seq<char>>, pos: nat, k: nat, n: nat, more: seq<seq<char>>, m: nat)
    requires pos < |s.content|
    requires Reads(s, CharBuffer) == seen + ReadsFrom(s, CharBuffer, pos, k)
    requires n == ReadCount(s, k, |s.content| - pos, CharBuffer)
    requires more == Dropped(s, pos + n, k + 1) && m == (if more == [] then 0 else |more[0]|)
    requires more == []
    ensures pos + n == |s.content|
    ensures Reads(s, CharBuffer) == (seen + [s.content[pos..pos + n]]) + ReadsFrom(s, CharBuffer, pos + n, k + 1)
  {
    var kept := s.content[pos..pos + n];
    assert ReadsFrom(s, CharBuffer, pos, k) == [kept] + ReadsFrom(s, CharBuffer, pos + n, k + 1);
  }

  /** What the loop of `convertToString` keeps true: the chunks `seen` so far
      are the ones the stream delivered before `pos`, a whole number of
      passes unless the stream is exhausted, and `out` holds the kept ones. */
  ghost predicate ConvertInv(s: Stream<char>, seen: seq<seq<char>>, pos: nat, k: nat, pairs: nat, out: string)
  {
    && pos <= |s.content|
    && Reads(s, CharBuffer) == seen + ReadsFrom(s, CharBuffer, pos, k)
    && (|seen| == 2 * pairs || pos == |s.content|)
    && out == Flatten(Evens(seen))
  }

  /** One pass of the loop keeps the invariant. */
  lemma ConvertAdvance(s: Stream<char>, seen: seq<seq<char>>, pos: nat, k: nat, pairs: nat, out: string,
                        n: nat, more: seq<seq<char>>, m: nat,
                        seen': seq<seq<char>>, pos': nat, k': nat, pairs': nat, out': string)
    requires ConvertInv(s, seen, pos, k, pairs, out) && pos < |s.content|
    requires n == ReadCount(s, k, |s.content| - pos, CharBuffer)
    requires more == Dropped(s, pos + n, k + 1) && m == (if more == [] then 0 else |more[0]|)
    requires pos + n <= |s.content|
    requires seen' == seen + ([s.content[pos..pos + n]] + more) && out' == out + s.content[pos..pos + n]
    requires pos' == pos + n + m && k' == k + 1 + |more| && pairs' == pairs + |more|
    ensures ConvertInv(s, seen', pos', k', pairs', out')
  {
    var kept := s.content[pos..pos + n];
    ConvertStep(s, seen, pos, k, n, more, m);
    EvensStep(seen, kept, more, pairs);
    assert Reads(s, CharBuffer) == seen' + ReadsFrom(s, CharBuffer, pos', k');
    assert |seen'| == 2 * pairs' || pos' == |s.content|;
  }

  /** When the next read reports the end, the kept chunks are all there is. */
  lemma ConvertDone(s: Stream<char>, seen: seq<seq<char>>, pos: nat, k: nat, pairs: nat, out: string)
    requires ConvertInv(s, seen, pos, k, pairs, out)
    requires ReadCount(s, k, |s.content| - pos, CharBuffer) == 0
    ensures out == Flatten(Evens(Reads(s, CharBuffer)))
  {
    assert ReadsFrom(s, CharBuffer, pos, k) == [];
    assert seen + [] == seen;
  }

  /** `convertToString(InputStream, String)`: each pass of the loop appends
      the chunk it read and then reads the next chunk into the same buffer
      without appending it, so only the first, third, fifth, ... chunks
      reach the result, and the stream is then closed. Null gives null. */
  method ConvertToString(input: Option<Stream<char>>) returns (r: Option<string>, closed: bool)
    ensures input.None? <==> r.None?
    ensures closed <==> input.Some?
    ensures input.Some? ==> r.value == Flatten(Evens(Reads(input.value, CharBuffer)))
  {
    if input.None? {
      return None, false;
    }
    var s := input.value;
    var out: string := [];
    var pos: nat := 0;
    var k: nat := 0;
    ghost var seen: seq<seq<char>> := [];
    ghost var pairs: nat := 0;
    while true
      invariant ConvertInv(s, seen, pos, k, pairs, out)
      decreases |s.content| - pos
    {
      var n := ReadCount(s, k, |s.content| - pos, CharBuffer);
      if n == 0 {
        break;
      }
      var kept := s.content[pos..pos + n];
      var more := Dropped(s, pos + n, k + 1);
      var m := if more == [] then 0 else |more[0]|;
      ghost var seen0, pos0, k0, pairs0, out0 := seen, pos, k, pairs, out;
      out := out + kept;
      seen := seen + ([kept] + more);
      pos := pos + n + m;
      k := k + 1 + |more|;
      pairs := pairs + |more|;
      ConvertAdvance(s, seen0, pos0, k0, pairs0, out0, n, more, m, seen, pos, k, pairs, out);
    }
    ConvertDone(s, seen, pos, k, pairs, out);
    return Some(out), true;
  }

  /** The kept chunks never amount to more than the whole. */
  lemma {:induction false} EvensNoLonger<T>(chunks: seq<seq<T>>)
    ensures |Flatten(Evens(chunks))| <= |Flatten(chunks)|
    decreases |chunks|
  {
    if |chunks| >= 2 {
      var rest := chunks[2..];
      EvensNoLonger(rest);
      FlattenPrepend(chunks[1], rest);
      FlattenPrepend(chunks[0], [chunks[1]] + rest);
      assert chunks == [chunks[0]] + ([chunks[1]] + rest);
      FlattenPrepend(chunks[0], Evens(rest));
    }
  }

  /** When the text fits in the first read it comes through whole; when it
      takes two reads or more, characters are lost. */
  lemma ConvertToStringLoses(s: Stream<char>)
    ensures |Reads(s, CharBuffer)| <= 1 ==> Flatten(Evens(Reads(s, CharBuffer))) == s.content
    ensures |Reads(s, CharBuffer)| >= 2 ==> |Flatten(Evens(Reads(s, CharBuffer)))| < |s.content|
  {
    var chunks := Reads(s, CharBuffer);
    ReadsCover(s, CharBuffer);
    if |chunks| >= 2 {
      var rest := chunks[2..];
      EvensNoLonger(rest);
      FlattenPrepend(chunks[1], rest);
      FlattenPrepend(chunks[0], [chunks[1]] + rest);
      assert chunks == [chunks[0]] + ([chunks[1]] + rest);
      FlattenPrepend(chunks[0], Evens(rest));
      assert |chunks[1]| >= 1;
    }
  }
}

=== FILE: lang.dfy ===
/** Values of the Java runtime as the library sees them: null references,
    exceptions that escape a call, and bytes. */
module Lang {

  /** A Java reference that may be null. */
  datatype Option<+T> = None | Some(value: T)

  /** The exceptions the modelled code lets escape to its caller. */
  datatype Exception =
    | NullPointer
    | IndexOutOfBounds
    | IO(reason: string)

  /** What a Java method call produces: its return value, or the exception it throws. */
  datatype Result<+T> = Ok(value: T) | Throws(error: Exception) {

    predicate IsFailure() {
      Throws?
    }

    function PropagateFailure<U>(): Result<U>
      requires Throws?
    {
      Throws(error)
    }

    function Extract(): T
      requires Ok?
    {
      value
    }
  }

  /** An octet. Java's `byte` is signed, but the code only ever compares bytes
      for equality or reads them as unsigned, so 0..255 is used throughout. */
  newtype byte = x: int | 0 <= x < 256

  lemma AppendAssoc<T>(a: seq<T>, b: seq<T>, c: seq<T>)
    ensures a + (b + c) == (a + b) + c
  {
  }

  /** Concatenation of a sequence of chunks, in order. */
  function Flatten<T>(chunks: seq<seq<T>>): seq<T>
  {
    if |chunks| == 0 then [] else Flatten(chunks[..|chunks| - 1]) + chunks[|chunks| - 1]
  }

  lemma {:induction false} FlattenAppend<T>(chunks: seq<seq<T>>, c: seq<T>)
    ensures Flatten(chunks + [c]) == Flatten(chunks) + c
  {
    assert (chunks + [c])[..|chunks|] == chunks;
  }

  lemma {:induction false} FlattenLength<T>(chunks: seq<seq<T>>, bound: nat)
    requires forall k :: 0 <= k < |chunks| ==> |chunks[k]| >= bound
    ensures |Flatten(chunks)| >= bound * |chunks|
  {
    if |chunks| > 0 {
      FlattenLength(chunks[..|chunks| - 1], bound);
    }
  }
}

=== FILE: md5_utils.dfy ===
/** `MD5Utils`: the MD5 of a trimmed string, rendered as 32 lowercase hex
    digits. The compression function of MD5 (section 3 of RFC 1321) and the
    UTF-8 encoder are inputs: only the guards and the rendering are modelled. */
module MD5Utils {
  import opened Lang
  import Text

  /** `HASH_LENGTH`: the number of hex digits of the result. */
  const HashLength: nat := 32

  /** The 16 bytes MD5 produces. */
  type Digest = d: seq<byte> | |d| == 16 witness [0, 0, 0, 0, 0, 0, 0, 0, 0, 0, 0, 0, 0, 0, 0, 0]

  /** What the platform supplies: whether `MessageDigest.getInstance("MD5")`
      succeeded, `getBytes("UTF-8")` (None for an unsupported encoding), and
      the digest itself. */
  datatype Engine = Engine(
    available: bool,
    encode: string -> Option<seq<byte>>,
    hash: seq<byte> -> Digest)

  // ---------------------------------------------------------------------------
  // Hex digits

  predicate IsLowerHex(c: char)
  {
    '0' <= c <= '9' || 'a' <= c <= 'f'
  }

  predicate AllLowerHex(s: string)
  {
    forall i :: 0 <= i < |s| ==> IsLowerHex(s[i])
  }

  function HexChar(d: nat): (c: char)
    requires d < 16
    ensures IsLowerHex(c)
  {
    if d < 10 then '0' + d as char else 'a' + (d - 10) as char
  }

  function HexValue(c: char): (d: nat)
    requires IsLowerHex(c)
    ensures d < 16 && HexChar(d) == c
  {
    if c <= '9' then (c - '0') as nat else (c - 'a') as nat + 10
  }

  /** The number a string of hex digits denotes, most significant first. */
  function ParseHex(s: string): nat
    requires AllLowerHex(s)
  {
    if |s| == 0 then 0 else 16 * ParseHex(s[..|s| - 1]) + HexValue(s[|s| - 1])
  }

  function Pow16(k: nat): (p: nat)
    ensures p >= 1
  {
    if k == 0 then 1 else 16 * Pow16(k - 1)
  }

  /** `BigInteger.toString(16)` of a non-negative number: its hex digits
      without leading zeros, and "0" for zero. */
  function ToHex(n: nat): (r: string)
    ensures |r| >= 1 && AllLowerHex(r)
    ensures ParseHex(r) == n
    ensures |r| > 1 ==> r[0] != '0'
  {
    if n < 16 then [HexChar(n)]
    else
      var r := ToHex(n / 16) + [HexChar(n % 16)];
      assert r[..|r| - 1] == ToHex(n / 16);
      r
  }

  /** A number below 16^w has at most w hex digits. */
  lemma {:induction false} ToHexFits(n: nat, w: nat)
    requires w >= 1 && n < Pow16(w)
    ensures |ToHex(n)| <= w
  {
    if n >= 16 {
      assert w >= 2;
      ToHexFits(n / 16, w - 1);
    }
  }

  /** The unsigned big-endian value of a byte string: `new BigInteger(1, bytes)`. */
  function BigEndian(bytes: seq<byte>): nat
  {
    if |bytes| == 0 then 0 else 256 * BigEndian(bytes[..|bytes| - 1]) + bytes[|bytes| - 1] as nat
  }

  lemma {:induction false} BigEndianBound(bytes: seq<byte>)
    ensures BigEndian(bytes) < Pow16(2 * |bytes|)
  {
    if |bytes| > 0 {
      BigEndianBound(bytes[..|bytes| - 1]);
      var k := 2 * (|bytes| - 1);
      assert Pow16(k + 2) == 256 * Pow16(k);
    }
  }

  // ---------------------------------------------------------------------------
  // The rendering in digest()

  /** `new char[n]` filled with '0'. */
  function Zeros(n: nat): (r: string)
    ensures |r| == n && forall i :: 0 <= i < n ==> r[i] == '0'
  {
    seq(n, _ => '0')
  }

  /** `toLowerCase(Locale.US)` on the ASCII letters. */
  function ToLower(s: string): (r: string)
    ensures |r| == |s|
  {
    seq(|s|, i requires 0 <= i < |s| => if 'A' <= s[i] <= 'Z' then s[i] - 'A' + 'a' else s[i])
  }

  lemma ToLowerOfHex(s: string)
    requires AllLowerHex(s)
    ensures ToLower(s) == s
  {
  }

  /** The tail of `digest`: the hex of the digest read as an unsigned
      big-endian number, and when that is shorter than 32 digits, '0's in
      front of it and the whole lower-cased. A 16-byte value never needs
      negative padding. */
  function Render(d: Digest): (r: string)
    ensures |r| == HashLength && AllLowerHex(r)
    ensures ParseHex(r) == BigEndian(d)
  {
    var hashed := ToHex(BigEndian(d));
    BigEndianBound(d);
    ToHexFits(BigEndian(d), HashLength);
    var padding := HashLength - |hashed|;
    if padding == 0 then hashed
    else
      var padded := Zeros(padding) + hashed;
      ParseHexLeadingZeros(padding, hashed);
      ToLowerOfHex(padded);
      ToLower(padded)
  }

  lemma {:induction false} ParseHexLeadingZeros(n: nat, s: string)
    requires AllLowerHex(s)
    ensures AllLowerHex(Zeros(n) + s)
    ensures ParseHex(Zeros(n) + s) == ParseHex(s)
    decreases |s|
  {
    if |s| == 0 {
      assert Zeros(n) + s == Zeros(n);
      ParseHexZeros(n);
    } else {
      var t := Zeros(n) + s;
      assert t[..|t| - 1] == Zeros(n) + s[..|s| - 1];
      ParseHexLeadingZeros(n, s[..|s| - 1]);
    }
  }

  lemma {:induction false} ParseHexZeros(n: nat)
    ensures ParseHex(Zeros(n)) == 0
  {
    if n > 0 {
      assert Zeros(n)[..n - 1] == Zeros(n - 1);
      ParseHexZeros(n - 1);
    }
  }

  /** Strings of hex digits of the same length denote the same number only
      when they are equal. */
  lemma {:induction false} ParseHexInjective(s: string, t: string)
    requires AllLowerHex(s) && AllLowerHex(t) && |s| == |t|
    requires ParseHex(s) == ParseHex(t)
    ensures s == t
  {
    if |s| > 0 {
      var n := |s|;
      var s0, t0 := s[..n - 1], t[..n - 1];
      ParseHexLast(s);
      ParseHexLast(t);
      DigitSplitUnique(ParseHex(s0), HexValue(s[n - 1]), ParseHex(t0), HexValue(t[n - 1]));
      assert s[n - 1] == t[n - 1] by {
        assert HexChar(HexValue(s[n - 1])) == s[n - 1] && HexChar(HexValue(t[n - 1])) == t[n - 1];
      }
      ParseHexInjective(s0, t0);
      assert s == s0 + [s[n - 1]] && t == t0 + [t[n - 1]];
    }
  }

  /** The last digit and the digits before it. */
  lemma ParseHexLast(s: string)
    requires AllLowerHex(s) && |s| > 0
    ensures AllLowerHex(s[..|s| - 1])
    ensures ParseHex(s) == 16 * ParseHex(s[..|s| - 1]) + HexValue(s[|s| - 1])
  {
  }

  /** A number has one last hex digit and one prefix. */
  lemma DigitSplitUnique(a: nat, x: nat, b: nat, y: nat)
    requires x < 16 && y < 16 && 16 * a + x == 16 * b + y
    ensures a == b && x == y
  {
  }

  lemma HexRoundTrip(d: nat)
    requires d < 16
    ensures HexValue(HexChar(d)) == d
  {
  }

  /** The reference rendering: two hex digits per byte, in order. */
  function ByteHex(bytes: seq<byte>): (r: string)
    ensures |r| == 2 * |bytes| && AllLowerHex(r)
  {
    if |bytes| == 0 then []
    else
      var b := bytes[|bytes| - 1] as nat;
      ByteHex(bytes[..|bytes| - 1]) + [HexChar(b / 16), HexChar(b % 16)]
  }

  lemma {:induction false} ByteHexValue(bytes: seq<byte>)
    ensures ParseHex(ByteHex(bytes)) == BigEndian(bytes)
  {
    if |bytes| > 0 {
      var init := bytes[..|bytes| - 1];
      var b := bytes[|bytes| - 1] as nat;
      var hi, lo := b / 16, b % 16;
      ByteHexValue(init);
      HexRoundTrip(hi);
      HexRoundTrip(lo);
      var pre := ByteHex(init);
      var mid := pre + [HexChar(hi)];
      var r := mid + [HexChar(lo)];
      assert r == ByteHex(bytes);
      assert mid[..|mid| - 1] == pre;
      assert ParseHex(mid) == 16 * BigEndian(init) + hi;
      assert r[..|r| - 1] == mid;
      assert ParseHex(r) == 16 * (16 * BigEndian(init) + hi) + lo;
    }
  }

  /** The padded rendering is exactly two hex digits per digest byte: the
      padding restores the leading zeros `BigInteger` leaves out. */
  lemma RenderIsByteHex(d: Digest)
    ensures Render(d) == ByteHex(d)
  {
    ByteHexValue(d);
    ParseHexInjective(Render(d), ByteHex(d));
  }

  // ---------------------------------------------------------------------------
  // digest and getMD5

  /** `digest(value)`: null when MD5 or the UTF-8 encoding is unavailable,
      otherwise the rendering of the digest of the encoded bytes. */
  function DigestOf(value: string, engine: Engine): (r: Option<string>)
    ensures r.None? <==> !engine.available || engine.encode(value).None?
    ensures r.Some? ==> r.value == ByteHex(engine.hash(engine.encode(value).value))
  {
    if !engine.available then None
    else
      match engine.encode(value)
      case None => None
      case Some(bytes) =>
        RenderIsByteHex(engine.hash(bytes));
        Some(Render(engine.hash(bytes)))
  }

  /** `getMD5(str)`: null for null or "" and for text that trims to "";
      otherwise the digest of the trimmed text. */
  function GetMD5(str: Option<string>, engine: Engine): (r: Option<string>)
    ensures str.None? ==> r.None?
    ensures str.Some? && |Text.Trim(str.value)| == 0 ==> r.None?
    ensures str.Some? && |Text.Trim(str.value)| > 0 ==> r == DigestOf(Text.Trim(str.value), engine)
    ensures r.Some? ==> |r.value| == HashLength && AllLowerHex(r.value)
  {
    match str
    case None => None
    case Some(s) =>
      if |s| == 0 then None
      else
        var t := Text.Trim(s);
        if |t| > 0 then DigestOf(t, engine) else None
  }

  /** Only the trimmed text matters: strings that differ only in surrounding
      characters up to U+0020 have the same MD5, including a string and its
      own trimming. */
  lemma GetMD5TrimInvariant(a: string, b: string, engine: Engine)
    requires Text.Trim(a) == Text.Trim(b)
    ensures GetMD5(Some(a), engine) == GetMD5(Some(b), engine)
    ensures GetMD5(Some(Text.Trim(a)), engine) == GetMD5(Some(a), engine)
  {
    Text.TrimIdempotent(a);
  }
}

=== FILE: net_type.dfy ===
/** `NetType`: the four kinds of connection the network helpers report, each
    carrying a one-bit flag value. */
module NetTypes {

  datatype NetType = NetNone | NetMobile | NetWifi | NetOther

  /** The position of each constant's bit: NONE, MOBILE, WIFI, OTHER in
      declaration order. */
  function Bit(t: NetType): (k: nat)
    ensures k < 4
  {
    match t
    case NetNone => 0
    case NetMobile => 1
    case NetWifi => 2
    case NetOther => 3
  }

  function Pow2(k: nat): (p: nat)
    ensures p >= 1
  {
    if k == 0 then 1 else 2 * Pow2(k - 1)
  }

  /** The `value` field, as passed to the enum constructor: 1, 2, 4, 8. */
  function Value(t: NetType): (v: int)
    ensures v == Pow2(Bit(t))
  {
    match t
    case NetNone => 1
    case NetMobile => 2
    case NetWifi => 4
    case NetOther => 8
  }

  /** The constant a value names, if any. */
  function FromValue(v: int): (r: NetTypeOrNone)
  {
    if v == 1 then Known(NetNone)
    else if v == 2 then Known(NetMobile)
    else if v == 4 then Known(NetWifi)
    else if v == 8 then Known(NetOther)
    else Unknown
  }

  datatype NetTypeOrNone = Known(t: NetType) | Unknown

  /** `value` identifies the constant: reading it back gives the constant, and
      only the four flag values name one. */
  lemma ValueRoundTrip(t: NetType, v: int)
    ensures FromValue(Value(t)) == Known(t)
    ensures FromValue(v).Known? <==> v in {1, 2, 4, 8}
    ensures FromValue(v).Known? ==> Value(FromValue(v).t) == v
  {
  }

  /** The flag of a set of kinds: the sum of their values. */
  function Mask(s: set<NetType>): (m: nat)
    ensures m < 16
  {
    (if NetNone in s then 1 else 0) + (if NetMobile in s then 2 else 0)
    + (if NetWifi in s then 4 else 0) + (if NetOther in s then 8 else 0)
  }

  /** Whether the bit of `t` is set in `m`. */
  predicate HasBit(m: nat, t: NetType)
  {
    (m / Value(t)) % 2 == 1
  }

  /** The values occupy disjoint bits, so a sum of them can be taken apart
      again: the kinds whose bit is set in the mask are exactly the kinds in
      the set. */
  lemma MaskDecodes(s: set<NetType>, t: NetType)
    ensures HasBit(Mask(s), t) <==> t in s
  {
    var a := if NetNone in s then 1 else 0;
    var b := if NetMobile in s then 1 else 0;
    var c := if NetWifi in s then 1 else 0;
    var d := if NetOther in s then 1 else 0;
    var m := Mask(s);
    assert m == a + 2 * b + 4 * c + 8 * d;
    match t
    case NetNone =>
      assert m / 1 == m;
      assert m % 2 == a;
    case NetMobile =>
      assert m / 2 == b + 2 * c + 4 * d;
    case NetWifi =>
      assert m / 4 == c + 2 * d;
    case NetOther =>
      assert m / 8 == d;
  }

  /** Consequently different sets of kinds never share a mask. */
  lemma MaskInjective(s: set<NetType>, u: set<NetType>)
    requires Mask(s) == Mask(u)
    ensures s == u
  {
    forall t: NetType
      ensures t in s <==> t in u
    {
      MaskDecodes(s, t);
      MaskDecodes(u, t);
    }
  }
}

=== FILE: network_utils.dfy ===
/** `NetworkUtils`: the decisions the library takes on top of the
    connectivity reports of the platform, and the rendering of the Wi-Fi
    address as a dotted quad. Every platform query is an input. */
module NetworkUtils {
  import opened Lang
  import opened Android
  import opened NetTypes
  import Text

  // ---------------------------------------------------------------------------
  // The active network

  /** `getConnectedType`: no active network is NONE; Wi-Fi and mobile map to
      their kinds, any other type to OTHER, and so does an exception. */
  function GetConnectedType(probe: ActiveProbe): (t: NetType)
    ensures t == NetNone <==> probe == Active(None)
    ensures t == NetWifi <==> probe.Active? && probe.net.Some? && probe.net.value.netType == TYPE_WIFI
    ensures t == NetMobile <==> probe.Active? && probe.net.Some? && probe.net.value.netType == TYPE_MOBILE
  {
    match probe
    case ProbeFailed => NetOther
    case Active(None) => NetNone
    case Active(Some(net)) =>
      if net.netType == TYPE_WIFI then NetWifi
      else if net.netType == TYPE_MOBILE then NetMobile
      else NetOther
  }

  /** `isConnected`: the active network's connected flag; false when there
      is none or the query throws. */
  function IsConnected(probe: ActiveProbe): (r: bool)
    ensures r <==> exists net :: probe == Active(Some(net)) && net.connected
  {
    match probe
    case Active(Some(net)) => net.connected
    case _ => false
  }

  /** Being connected implies a known connection kind other than NONE. */
  lemma ConnectedHasType(probe: ActiveProbe)
    requires IsConnected(probe)
    ensures GetConnectedType(probe) != NetNone
  {
  }

  // ---------------------------------------------------------------------------
  // The list of all networks

  /** `isConnectedOrConnecting`: the loop over `getAllNetworkInfo()` that
      returns true at the first network connected or connecting; a null list
      gives false. */
  function IsConnectedOrConnecting(nets: Option<seq<NetworkInfo>>): (r: bool)
    ensures r <==> nets.Some? && exists i :: 0 <= i < |nets.value| && nets.value[i].connectedOrConnecting
  {
    match nets
    case None => false
    case Some(list) => AnyConnecting(list)
  }

  function AnyConnecting(list: seq<NetworkInfo>): (r: bool)
    ensures r <==> exists i :: 0 <= i < |list| && list[i].connectedOrConnecting
  {
    if |list| == 0 then false
    else if list[0].connectedOrConnecting then true
    else
      var r := AnyConnecting(list[1..]);
      assert forall i :: 1 <= i < |list| ==> list[i] == list[1..][i - 1];
      r
  }

  /** The position of the first network of type `netType`, or -1: the loops
      of `isWifiAvailable` and `isMobileAvailable` stop there. */
  function FirstOfType(list: seq<NetworkInfo>, netType: int): (r: int)
    ensures -1 <= r < |list|
    ensures r == -1 <==> forall i :: 0 <= i < |list| ==> list[i].netType != netType
    ensures r >= 0 ==> list[r].netType == netType && forall i :: 0 <= i < r ==> list[i].netType != netType
  {
    if |list| == 0 then -1
    else if list[0].netType == netType then 0
    else
      var r := FirstOfType(list[1..], netType);
      assert forall i :: 1 <= i < |list| ==> list[i] == list[1..][i - 1];
      if r == -1 then -1 else r + 1
  }

  /** Position `i` holds the first network of type `netType`. */
  predicate FirstAt(list: seq<NetworkInfo>, netType: int, i: int)
    requires 0 <= i < |list|
  {
    list[i].netType == netType && forall j :: 0 <= j < i ==> list[j].netType != netType
  }

  /** The availability flag of the FIRST listed network of the given type;
      false when the list is null or has none of that type. */
  function TypeAvailable(nets: Option<seq<NetworkInfo>>, netType: int): (r: bool)
    ensures r <==> nets.Some? && exists i :: 0 <= i < |nets.value| && FirstAt(nets.value, netType, i) && nets.value[i].available
  {
    match nets
    case None => false
    case Some(list) =>
      var i := FirstOfType(list, netType);
      i >= 0 && list[i].available
  }

  /** `isWifiAvailable`. */
  function IsWifiAvailable(nets: Option<seq<NetworkInfo>>): bool
  {
    TypeAvailable(nets, TYPE_WIFI)
  }

  /** `isMobileAvailable`. */
  function IsMobileAvailable(nets: Option<seq<NetworkInfo>>): bool
  {
    TypeAvailable(nets, TYPE_MOBILE)
  }

  /** Only the first entry of a type counts: a later available entry of the
      same type is ignored once an unavailable one came first. */
  lemma FirstEntryDecides(first: NetworkInfo, later: NetworkInfo)
    requires first.netType == TYPE_WIFI && !first.available
    requires later.netType == TYPE_WIFI && later.available
    ensures !IsWifiAvailable(Some([first, later]))
  {
  }

  /** `isMobileEnabled`: what the reflective probe reports, and true when the
      probe fails (None). */
  function IsMobileEnabled(probe: Option<bool>): (r: bool)
    ensures probe.None? ==> r
    ensures probe.Some? ==> r == probe.value
  {
    match probe
    case None => true
    case Some(b) => b
  }

  /** `isAvailable`: Wi-Fi available, or mobile available and switched on. */
  function IsAvailable(nets: Option<seq<NetworkInfo>>, mobileProbe: Option<bool>): (r: bool)
    ensures IsWifiAvailable(nets) ==> r
    ensures mobileProbe == Some(false) ==> (r <==> IsWifiAvailable(nets))
    ensures r ==> nets.Some? && |nets.value| > 0
  {
    IsWifiAvailable(nets) || (IsMobileAvailable(nets) && IsMobileEnabled(mobileProbe))
  }

  /** The network counts as available exactly when the first Wi-Fi entry is
      available, or the first mobile entry is and mobile data is not reported
      off; an empty or null list is never available. */
  lemma AvailableSpec(nets: Option<seq<NetworkInfo>>, mobileProbe: Option<bool>)
    ensures IsAvailable(nets, mobileProbe) ==> nets.Some? && |nets.value| > 0
    ensures IsAvailable(nets, mobileProbe) <==>
      || (nets.Some? && FirstOfType(nets.value, TYPE_WIFI) >= 0 && nets.value[FirstOfType(nets.value, TYPE_WIFI)].available)
      || (nets.Some? && FirstOfType(nets.value, TYPE_MOBILE) >= 0 && nets.value[FirstOfType(nets.value, TYPE_MOBILE)].available
          && mobileProbe != Some(false))
  {
  }

  // ---------------------------------------------------------------------------
  // getWifiIPAddress

  /** Java's 32-bit `int`. */
  newtype int32 = x: int | -0x8000_0000 <= x < 0x8000_0000

  /** `ip >> (8 * k)`: an arithmetic shift, which rounds toward minus infinity
      like Dafny's division by a positive number. */
  function Shift(ip: int, k: nat): int
  {
    if k == 0 then ip else Shift(ip, k - 1) / 256
  }

  /** `ip >> (8 * k) & 0xff`: the k-th byte from the least significant one. */
  function Octet(ip: int, k: nat): (o: nat)
    ensures o < 256
  {
    Shift(ip, k) % 256
  }

  function Pow256(k: nat): (p: nat)
    ensures p >= 1
  {
    if k == 0 then 1 else 256 * Pow256(k - 1)
  }

  /** The first k bytes, each weighted by its position. */
  function LowBytes(ip: int, k: nat): int
  {
    if k == 0 then 0 else LowBytes(ip, k - 1) + Octet(ip, k - 1) * Pow256(k - 1)
  }

  /** The k low bytes and the shifted rest add up to the number again. */
  lemma {:induction false} ShiftSplits(ip: int, k: nat)
    ensures ip == LowBytes(ip, k) + Shift(ip, k) * Pow256(k)
  {
    if k > 0 {
      ShiftSplits(ip, k - 1);
      var s := Shift(ip, k - 1);
      var p := Pow256(k - 1);
      SplitByte(s, p);
      assert Shift(ip, k) == s / 256 && Pow256(k) == 256 * p && Octet(ip, k - 1) == s % 256;
    }
  }

  /** Peeling the low byte off a multiple of p. */
  lemma SplitByte(s: int, p: int)
    ensures s * p == (s / 256) * (256 * p) + (s % 256) * p
  {
    var q, r := s / 256, s % 256;
    assert s == q * 256 + r;
    MulDistributes(q * 256, r, p);
    assert q * 256 * p == q * (256 * p);
  }

  lemma MulDistributes(a: int, b: int, c: int)
    ensures (a + b) * c == a * c + b * c
  {
  }

  /** A 32-bit value shifted right by 32 is its sign: 0 or -1. */
  lemma {:induction false} ShiftSign(ip: int32)
    ensures Shift(ip as int, 4) == (if ip < 0 then -1 else 0)
  {
    assert Shift(ip as int, 1) == (ip as int) / 256;
    assert Shift(ip as int, 2) == (ip as int) / 256 / 256;
    assert Shift(ip as int, 3) == (ip as int) / 256 / 256 / 256;
  }

  /** `getWifiIPAddress`: the four bytes of the address, least significant
      first, as decimals joined by '.'; any exception from the Wi-Fi service
      (None) gives the loopback fallback. */
  function GetWifiIPAddress(ip: Option<int32>): (r: string)
    ensures ip.None? ==> r == Loopback
    ensures ip.Some? ==> var parts := Text.SplitAll(r, '.');
      |parts| == 4 && forall k :: 0 <= k < 4 ==> parts[k] == Text.DecimalString(Octet(ip.value as int, k))
  {
    match ip
    case None => Loopback
    case Some(a) =>
      Text.SplitJoin(Quad(a), '.');
      Text.Join(Quad(a), '.')
  }

  /** The four `%d` fields, least significant byte first. */
  function Quad(ip: int32): (parts: seq<string>)
    ensures |parts| == 4
    ensures forall k :: 0 <= k < 4 ==> '.' !in parts[k]
  {
    seq(4, k requires 0 <= k < 4 => Text.DecimalString(Octet(ip as int, k)))
  }

  /** All characters of a field are decimal digits. */
  predicate AllDigits(s: string)
  {
    forall i :: 0 <= i < |s| ==> '0' <= s[i] <= '9'
  }

  /** Splitting the rendered address at '.' gives four decimal fields, each a
      byte, that weighted by 1, 256, 65536 and 16777216 add up to the
      address read as an unsigned 32-bit number. */
  lemma WifiAddressRoundTrip(ip: int32)
    ensures var parts := Text.SplitAll(GetWifiIPAddress(Some(ip)), '.');
      && |parts| == 4
      && (forall k :: 0 <= k < 4 ==> AllDigits(parts[k]) && Text.ParseDecimal(parts[k]) < 256)
      && Text.ParseDecimal(parts[0]) + 256 * Text.ParseDecimal(parts[1])
         + 65536 * Text.ParseDecimal(parts[2]) + 16777216 * Text.ParseDecimal(parts[3])
         == (ip as int) % 0x1_0000_0000
  {
    var q := Quad(ip);
    Text.SplitJoin(q, '.');
    var x := ip as int;
    forall k | 0 <= k < 4
      ensures AllDigits(q[k]) && Text.ParseDecimal(q[k]) == Octet(x, k)
    {
      Text.DecimalRoundTrip(Octet(x, k));
    }
    OctetsUnsigned(ip);
  }

  /** The four octets, weighted by position, are the unsigned reading of the
      32-bit value. */
  lemma OctetsUnsigned(ip: int32)
    ensures var x := ip as int;
      Octet(x, 0) + 256 * Octet(x, 1) + 65536 * Octet(x, 2) + 16777216 * Octet(x, 3) == x % 0x1_0000_0000
  {
    var x := ip as int;
    ShiftSplits(x, 4);
    ShiftSign(ip);
    assert Pow256(4) == 0x1_0000_0000;
    var low := LowBytes(x, 4);
    assert low == Octet(x, 0) + 256 * Octet(x, 1) + 65536 * Octet(x, 2) + 16777216 * Octet(x, 3);
    assert 0 <= low < 0x1_0000_0000;
    if ip < 0 {
      assert x == low - 0x1_0000_0000;
    } else {
      assert x == low;
    }
  }

  // ---------------------------------------------------------------------------
  // getIpAddress

  /** The fallback address. */
  const Loopback: string := "127.0.0.1"

  /** `getIpAddress`: the mobile address on a mobile connection, the Wi-Fi
      address on Wi-Fi, and the loopback fallback otherwise. The mobile
      address comes from enumerating the network interfaces, which is an
      input here. */
  function GetIpAddress(probe: ActiveProbe, mobileAddress: string, wifiAddress: Option<int32>): (r: string)
    ensures GetConnectedType(probe) == NetMobile ==> r == mobileAddress
    ensures GetConnectedType(probe) == NetWifi ==> r == GetWifiIPAddress(wifiAddress)
    ensures GetConnectedType(probe) !in {NetMobile, NetWifi} ==> r == Loopback
  {
    var t := GetConnectedType(probe);
    if t == NetMobile then mobileAddress
    else if t == NetWifi then GetWifiIPAddress(wifiAddress)
    else Loopback
  }

  /** Without an active connection, or when the query fails, the address is
      the loopback fallback. */
  lemma NoConnectionLoopback(probe: ActiveProbe, mobileAddress: string, wifiAddress: Option<int32>)
    requires probe == ProbeFailed || probe == Active(None)
    ensures GetIpAddress(probe, mobileAddress, wifiAddress) == Loopback
  {
  }
}

=== FILE: streams.dfy ===
/** Input streams as the library reads them: `read(buffer)` in a loop until it
    returns -1. A stream is the data it will deliver plus the platform's choice
    of how much each `read` call returns, so every chunking the platform may
    produce is covered. */
module Streams {
  import opened Lang

  /** The data a stream delivers, and a read-size oracle: the k-th `read` that
      returns data returns `1 + grant(k) % min(remaining, buffer)` items. */
  datatype Stream<T> = Stream(content: seq<T>, grant: nat -> nat)

  function Min(a: nat, b: nat): nat
  {
    if a <= b then a else b
  }

  /** The count the k-th `read` into a buffer of `bufSize` returns when
      `remaining` items are left; 0 stands for Java's -1 at end of stream. */
  function ReadCount<T>(s: Stream<T>, k: nat, remaining: nat, bufSize: nat): (n: nat)
    requires bufSize > 0
    ensures remaining == 0 <==> n == 0
    ensures n <= remaining && n <= bufSize
  {
    if remaining == 0 then 0 else 1 + s.grant(k) % Min(remaining, bufSize)
  }

  /** The chunks that the reads from position `pos` on deliver, where `k` reads
      have already returned data. */
  function ReadsFrom<T>(s: Stream<T>, bufSize: nat, pos: nat, k: nat): (r: seq<seq<T>>)
    requires bufSize > 0 && pos <= |s.content|
    decreases |s.content| - pos
  {
    if pos == |s.content| then []
    else
      var n := ReadCount(s, k, |s.content| - pos, bufSize);
      [s.content[pos..pos + n]] + ReadsFrom(s, bufSize, pos + n, k + 1)
  }

  /** Every chunk a `read(buffer)` loop over `s` receives, in order. */
  function Reads<T>(s: Stream<T>, bufSize: nat): seq<seq<T>>
    requires bufSize > 0
  {
    ReadsFrom(s, bufSize, 0, 0)
  }

  /** Each chunk is non-empty and fits the buffer. */
  predicate Bounded<T>(chunks: seq<seq<T>>, bufSize: nat)
  {
    forall k :: 0 <= k < |chunks| ==> 1 <= |chunks[k]| <= bufSize
  }

  lemma {:induction false} FlattenPrepend<T>(c: seq<T>, chunks: seq<seq<T>>)
    ensures Flatten([c] + chunks) == c + Flatten(chunks)
    decreases |chunks|
  {
    if |chunks| > 0 {
      var init := chunks[..|chunks| - 1];
      FlattenPrepend(c, init);
      assert ([c] + chunks)[..|chunks|] == [c] + init;
      assert chunks[..|chunks| - 1] == init;
    } else {
      assert [c] + chunks == [c];
      assert Flatten([c]) == Flatten([c][..0]) + c;
    }
  }

  /** The first read from `pos` on, and the reads after it. */
  lemma ReadsFromStep<T>(s: Stream<T>, bufSize: nat, pos: nat, k: nat)
    requires bufSize > 0 && pos < |s.content|
    ensures var n := ReadCount(s, k, |s.content| - pos, bufSize);
      ReadsFrom(s, bufSize, pos, k) == [s.content[pos..pos + n]] + ReadsFrom(s, bufSize, pos + n, k + 1)
  {
  }

  /** The chunks delivered from `pos` on are exactly the rest of the content,
      cut into non-empty pieces that fit the buffer. */
  lemma {:induction false} ReadsFromCover<T>(s: Stream<T>, bufSize: nat, pos: nat, k: nat)
    requires bufSize > 0 && pos <= |s.content|
    ensures Flatten(ReadsFrom(s, bufSize, pos, k)) == s.content[pos..]
    ensures Bounded(ReadsFrom(s, bufSize, pos, k), bufSize)
    decreases |s.content| - pos
  {
    if pos < |s.content| {
      var n := ReadCount(s, k, |s.content| - pos, bufSize);
      var chunk := s.content[pos..pos + n];
      var rest := ReadsFrom(s, bufSize, pos + n, k + 1);
      ReadsFromStep(s, bufSize, pos, k);
      ReadsFromCover(s, bufSize, pos + n, k + 1);
      FlattenPrepend(chunk, rest);
      assert s.content[pos..] == chunk + s.content[pos + n..];
      BoundedPrepend(chunk, rest, bufSize);
    }
  }

  lemma BoundedPrepend<T>(c: seq<T>, chunks: seq<seq<T>>, bufSize: nat)
    requires 1 <= |c| <= bufSize && Bounded(chunks, bufSize)
    ensures Bounded([c] + chunks, bufSize)
  {
    assert forall k :: 1 <= k < |chunks| + 1 ==> ([c] + chunks)[k] == chunks[k - 1];
  }

  lemma ReadsCover<T>(s: Stream<T>, bufSize: nat)
    requires bufSize > 0
    ensures Flatten(Reads(s, bufSize)) == s.content
    ensures Bounded(Reads(s, bufSize), bufSize)
  {
    ReadsFromCover(s, bufSize, 0, 0);
  }

  /** A `read(buffer)` loop that keeps every chunk: the result is the whole
      stream, delivered in chunks that fit the buffer. */
  method Drain<T>(s: Stream<T>, bufSize: nat) returns (out: seq<T>)
    requires bufSize > 0
    ensures out == s.content
    ensures out == Flatten(Reads(s, bufSize))
  {
    out := [];
    var pos := 0;
    var k := 0;
    while true
      invariant pos <= |s.content|
      invariant out == s.content[..pos]
      decreases |s.content| - pos
    {
      var n := ReadCount(s, k, |s.content| - pos, bufSize);
      if n == 0 {
        break;
      }
      var chunk := s.content[pos..pos + n];
      assert s.content[..pos + n] == s.content[..pos] + chunk;
      out := out + chunk;
      pos := pos + n;
      k := k + 1;
    }
    assert s.content[..pos] == s.content;
    ReadsCover(s, bufSize);
  }
}

=== FILE: string_utils.dfy ===
/** `StringUtils.generateRandom`: a string of the requested length drawn from
    a fixed 62-character alphabet. `SecureRandom.nextInt(62)` is an oracle:
    `draw(i)` is the index the i-th call returns. */
module StringUtils {
  import opened Lang

  /** The characters `initDefaultChars` prepares, in order: the literal
      "abc...xyzABC...XYZ1234567890", written here in its four runs. */
  const Alphabet: string := Lower + Upper + Digits + "0"

  predicate IsAlphanumeric(c: char)
  {
    'a' <= c <= 'z' || 'A' <= c <= 'Z' || '0' <= c <= '9'
  }

  /** The character at position i, by ranges: 26 lower-case letters, 26
      upper-case letters, the digits 1 to 9, and 0 last. */
  function CharAt(i: nat): char
    requires i < 62
  {
    if i < 26 then ('a' as int + i) as char
    else if i < 52 then ('A' as int + i - 26) as char
    else if i < 61 then ('1' as int + i - 52) as char
    else '0'
  }

  /** `n` consecutive characters from `first` on. */
  function Run(first: char, n: nat): (r: string)
    requires first as int + n <= 0x80
    ensures |r| == n && forall i :: 0 <= i < n ==> r[i] == (first as int + i) as char
  {
    seq(n, i requires 0 <= i < n => (first as int + i) as char)
  }

  const Lower: string := "abcdefghijklmnopqrstuvwxyz"
  const Upper: string := "ABCDEFGHIJKLMNOPQRSTUVWXYZ"
  const Digits: string := "123456789"

  lemma Runs()
    ensures Lower == Run('a', 26) && Upper == Run('A', 26) && Digits == Run('1', 9)
  {
  }

  lemma AlphabetFormula()
    ensures |Alphabet| == 62
    ensures forall i :: 0 <= i < 62 ==> Alphabet[i] == CharAt(i)
  {
    Runs();
    forall i | 0 <= i < 62
      ensures Alphabet[i] == CharAt(i)
    {
      if i < 26 {
        assert Alphabet[i] == Lower[i];
      } else if i < 52 {
        assert Alphabet[i] == Upper[i - 26];
      } else if i < 61 {
        assert Alphabet[i] == Digits[i - 52];
      }
    }
  }

  /** The alphabet has 62 characters, all different. */
  lemma AlphabetDistinct()
    ensures |Alphabet| == 62
    ensures forall i, j :: 0 <= i < j < |Alphabet| ==> Alphabet[i] != Alphabet[j]
  {
    AlphabetFormula();
    forall i, j | 0 <= i < j < 62
      ensures CharAt(i) != CharAt(j)
    {
    }
  }

  /** The alphabet is exactly the ASCII letters and digits. */
  lemma AlphabetSpec(c: char)
    ensures c in Alphabet <==> IsAlphanumeric(c)
  {
    AlphabetFormula();
    if c in Alphabet {
      var i :| 0 <= i < 62 && Alphabet[i] == c;
      assert CharAt(i) == c;
    }
    if IsAlphanumeric(c) {
      var k := IndexIn(c);
      assert Alphabet[k] == c;
    }
  }

  /** The oracle keeps `nextInt`'s promise for the first `n` calls. */
  predicate DrawsInRange(draw: nat -> nat, n: nat)
  {
    forall i :: 0 <= i < n ==> draw(i) < |Alphabet|
  }

  /** `generateRandom(length)`: null for a negative length, "" for zero, and
      otherwise the characters at the drawn indices, one per position. */
  method GenerateRandom(length: int, draw: nat -> nat) returns (r: Option<string>)
    requires length > 0 ==> DrawsInRange(draw, length)
    ensures r.None? <==> length < 0
    ensures r.Some? ==> |r.value| == length
    ensures r.Some? ==> forall i :: 0 <= i < length ==> r.value[i] == Alphabet[draw(i)]
    ensures r.Some? ==> forall i :: 0 <= i < length ==> IsAlphanumeric(r.value[i])
  {
    if length < 0 {
      return None;
    }
    if length == 0 {
      return Some("");
    }
    var generated: string := [];
    var i := 0;
    while i < length
      invariant 0 <= i <= length
      invariant |generated| == i
      invariant forall j :: 0 <= j < i ==> generated[j] == Alphabet[draw(j)]
    {
      var index := draw(i);
      generated := generated + [Alphabet[index]];
      i := i + 1;
    }
    forall j | 0 <= j < length
      ensures IsAlphanumeric(generated[j])
    {
      AlphabetSpec(generated[j]);
    }
    return Some(generated);
  }

  /** The position of an alphabet character. */
  function IndexIn(c: char): (k: nat)
    requires IsAlphanumeric(c)
    ensures k < |Alphabet| && Alphabet[k] == c
  {
    AlphabetFormula();
    if 'a' <= c <= 'z' then (c as int - 'a' as int)
    else if 'A' <= c <= 'Z' then 26 + (c as int - 'A' as int)
    else if c == '0' then 61
    else 52 + (c as int - '1' as int)
  }

  /** Every alphanumeric string of a positive length is an outcome: the draws
      that pick its characters' positions are in range and spell it. */
  lemma EveryWordReachable(w: string)
    requires |w| > 0 && forall i :: 0 <= i < |w| ==> IsAlphanumeric(w[i])
    ensures var draw := (i: nat) => if i < |w| then IndexIn(w[i]) else 0;
      && DrawsInRange(draw, |w|)
      && forall i :: 0 <= i < |w| ==> Alphabet[draw(i)] == w[i]
  {
  }
}

=== FILE: text.dfy ===
/** The parts of `java.lang.String` the library relies on, over `seq<char>`:
    searching, prefix tests, `trim`, `replace(char, char)`, splitting on one
    character, and decimal rendering of integers. */
module Text {
  import opened Lang

  /** `String.valueOf(Object)` as used by `+`: a null reference prints as "null". */
  function ValueOf(s: Option<string>): string
  {
    match s
    case None => "null"
    case Some(v) => v
  }

  /** `s.indexOf(c)`: the first position of `c`, or -1. */
  function IndexOf(s: string, c: char): (r: int)
    ensures -1 <= r < |s|
    ensures r == -1 <==> c !in s
    ensures 0 <= r ==> s[r] == c && c !in s[..r]
  {
    if |s| == 0 then -1
    else if s[0] == c then 0
    else
      var k := IndexOf(s[1..], c);
      if k == -1 then -1
      else
        assert s[..k + 1] == [s[0]] + s[1..][..k];
        k + 1
  }

  /** A position holding `c` with no `c` before it is what `indexOf` finds. */
  lemma IndexOfAt(s: string, c: char, i: nat)
    requires i < |s| && s[i] == c && c !in s[..i]
    ensures IndexOf(s, c) == i
  {
  }

  /** `s.lastIndexOf(c)`: the last position of `c`, or -1. */
  function LastIndexOf(s: string, c: char): (r: int)
    ensures -1 <= r < |s|
    ensures r == -1 <==> c !in s
    ensures 0 <= r ==> s[r] == c && forall j :: r < j < |s| ==> s[j] != c
  {
    if |s| == 0 then -1
    else if s[|s| - 1] == c then |s| - 1
    else
      var k := LastIndexOf(s[..|s| - 1], c);
      assert s == s[..|s| - 1] + [s[|s| - 1]];
      k
  }

  /** `s.startsWith(p)`. */
  predicate StartsWith(s: string, p: string)
  {
    |p| <= |s| && s[..|p|] == p
  }

  /** `s.contains(t)`: `t` occurs somewhere in `s` as a contiguous run. */
  predicate Contains(s: string, t: string)
  {
    exists i | 0 <= i <= |s| - |t| :: OccursAt(s, t, i)
  }

  /** `t` occurs in `s` starting at position `i`. */
  predicate OccursAt(s: string, t: string, i: int)
  {
    0 <= i <= |s| - |t| && s[i..i + |t|] == t
  }

  lemma ContainsChar(s: string, c: char)
    ensures Contains(s, [c]) <==> c in s
  {
    if c in s {
      var i :| 0 <= i < |s| && s[i] == c;
      assert OccursAt(s, [c], i);
    }
    if Contains(s, [c]) {
      var i :| 0 <= i <= |s| - 1 && OccursAt(s, [c], i);
      assert s[i] == s[i..i + 1][0];
    }
  }

  /** `s.indexOf(t) > -1` computed as the library's runtime does it: try
      each starting position in turn. */
  predicate ContainsScan(s: string, t: string)
    decreases |s|
  {
    |t| <= |s| && (s[..|t|] == t || ContainsScan(s[1..], t))
  }

  /** The scan finds `t` exactly when it occurs somewhere in `s`. */
  lemma {:induction false} ContainsScanSpec(s: string, t: string)
    ensures ContainsScan(s, t) <==> Contains(s, t)
    decreases |s|
  {
    if |t| <= |s| {
      if |s| > 0 {
        ContainsScanSpec(s[1..], t);
      }
      if s[..|t|] == t {
        assert OccursAt(s, t, 0);
      } else if ContainsScan(s[1..], t) {
        var i :| 0 <= i <= |s| - 1 - |t| && OccursAt(s[1..], t, i);
        assert s[i + 1..i + 1 + |t|] == s[1..][i..i + |t|];
        assert OccursAt(s, t, i + 1);
      }
      if Contains(s, t) {
        var i :| 0 <= i <= |s| - |t| && OccursAt(s, t, i);
        if i > 0 {
          assert s[1..][i - 1..i - 1 + |t|] == s[i..i + |t|];
          assert OccursAt(s[1..], t, i - 1);
        }
      }
    }
  }

  /** The characters `String.trim` removes: every code point up to U+0020. */
  predicate IsTrimmed(c: char)
  {
    c <= ' '
  }

  /** The first index from `i` on that `trim` keeps, or |s|: the forward
      scan `while (st < len && value[st] <= ' ') st++`. */
  function TrimFrom(s: string, i: nat): (a: nat)
    requires i <= |s|
    ensures i <= a <= |s|
    ensures forall k :: i <= k < a ==> IsTrimmed(s[k])
    ensures a == |s| || !IsTrimmed(s[a])
    decreases |s| - i
  {
    if i < |s| && IsTrimmed(s[i]) then TrimFrom(s, i + 1) else i
  }

  /** The end of the kept run: the backward scan
      `while (st < len && value[len - 1] <= ' ') len--`, which stops at `lo`. */
  function TrimTo(s: string, lo: nat, j: nat): (b: nat)
    requires lo <= j <= |s|
    ensures lo <= b <= j
    ensures forall k :: b <= k < j ==> IsTrimmed(s[k])
    ensures b == lo || !IsTrimmed(s[b - 1])
    decreases j
  {
    if j > lo && IsTrimmed(s[j - 1]) then TrimTo(s, lo, j - 1) else j
  }

  /** `s.trim()`: the longest run of `s` that neither starts nor ends with a
      character up to U+0020. */
  function Trim(s: string): (r: string)
  {
    var a := TrimFrom(s, 0);
    s[a..TrimTo(s, a, |s|)]
  }

  /** `Trim` removes only removable characters, from the two ends, and leaves
      none at either end. */
  lemma TrimSpec(s: string)
    ensures var a := TrimFrom(s, 0);
      && a + |Trim(s)| <= |s|
      && Trim(s) == s[a..a + |Trim(s)|]
      && (forall i :: 0 <= i < a ==> IsTrimmed(s[i]))
      && (forall i :: a + |Trim(s)| <= i < |s| ==> IsTrimmed(s[i]))
    ensures |Trim(s)| == 0 || (!IsTrimmed(Trim(s)[0]) && !IsTrimmed(Trim(s)[|Trim(s)| - 1]))
  {
  }

  /** A string with nothing to trim at either end is its own trimming. */
  lemma TrimOfTrimmed(s: string)
    requires |s| == 0 || (!IsTrimmed(s[0]) && !IsTrimmed(s[|s| - 1]))
    ensures Trim(s) == s
  {
  }

  lemma TrimIdempotent(s: string)
    ensures Trim(Trim(s)) == Trim(s)
  {
    TrimSpec(s);
    TrimOfTrimmed(Trim(s));
  }

  /** `Trim` yields the empty string exactly when every character is removable. */
  lemma TrimEmpty(s: string)
    ensures |Trim(s)| == 0 <==> forall i :: 0 <= i < |s| ==> IsTrimmed(s[i])
  {
  }

  /** `s.replace(a, b)`: every `a` becomes `b`, all else is kept in place. */
  function Replace(s: string, a: char, b: char): (r: string)
    ensures |r| == |s|
    ensures forall i :: 0 <= i < |s| ==> r[i] == (if s[i] == a then b else s[i])
  {
    seq(|s|, i requires 0 <= i < |s| => if s[i] == a then b else s[i])
  }

  lemma ReplaceRemoves(s: string, a: char, b: char)
    requires a != b
    ensures a !in Replace(s, a, b)
  {
  }

  /** Every piece of `s` between occurrences of `sep`, including empty ones,
      in order. There is always one more piece than there are separators. */
  function SplitAll(s: string, sep: char): (r: seq<string>)
    ensures |r| >= 1
    ensures forall k :: 0 <= k < |r| ==> sep !in r[k]
  {
    if |s| == 0 then [""]
    else
      var rest := SplitAll(s[1..], sep);
      if s[0] == sep then [""] + rest
      else [[s[0]] + rest[0]] + rest[1..]
  }

  /** The inverse of `SplitAll`: the pieces glued back with `sep` between them. */
  function Join(parts: seq<string>, sep: char): string
  {
    if |parts| == 0 then ""
    else if |parts| == 1 then parts[0]
    else parts[0] + [sep] + Join(parts[1..], sep)
  }

  lemma {:induction false} JoinSplit(s: string, sep: char)
    ensures Join(SplitAll(s, sep), sep) == s
  {
    if |s| > 0 {
      var rest := SplitAll(s[1..], sep);
      JoinSplit(s[1..], sep);
      if s[0] == sep {
        assert ([""] + rest)[1..] == rest;
      } else {
        var r := [[s[0]] + rest[0]] + rest[1..];
        assert r[1..] == rest[1..];
        if |rest| == 1 {
          assert Join(rest, sep) == rest[0];
        } else {
          assert Join(rest, sep) == rest[0] + [sep] + Join(rest[1..], sep);
        }
      }
    }
  }

  /** A separator glues two splittings end to end. */
  lemma {:induction false} SplitAllConcat(a: string, b: string, sep: char)
    ensures SplitAll(a + [sep] + b, sep) == SplitAll(a, sep) + SplitAll(b, sep)
  {
    if |a| == 0 {
      assert a + [sep] + b == [sep] + b;
      assert ([sep] + b)[1..] == b;
    } else {
      var s := a + [sep] + b;
      assert s[0] == a[0] && s[1..] == a[1..] + [sep] + b;
      SplitAllConcat(a[1..], b, sep);
      var ra, rb := SplitAll(a[1..], sep), SplitAll(b, sep);
      if a[0] == sep {
        AppendAssoc([""], ra, rb);
      } else {
        ExtendFirstAppend(a[0], ra, rb);
      }
    }
  }

  /** Prepending a character to the first piece commutes with appending
      further pieces. */
  lemma ExtendFirstAppend(x: char, ra: seq<string>, rb: seq<string>)
    requires |ra| >= 1
    ensures var rest := ra + rb;
      [[x] + rest[0]] + rest[1..] == ([[x] + ra[0]] + ra[1..]) + rb
  {
    var rest := ra + rb;
    assert rest[0] == ra[0] && rest[1..] == ra[1..] + rb;
    AppendAssoc([[x] + ra[0]], ra[1..], rb);
  }

  /** Without a separator the whole string is the one piece. */
  lemma {:induction false} SplitAllNoSep(a: string, sep: char)
    requires sep !in a
    ensures SplitAll(a, sep) == [a]
  {
    if |a| > 0 {
      SplitAllNoSep(a[1..], sep);
      assert [a[0]] + a[1..] == a;
    }
  }

  lemma {:induction false} SplitJoin(parts: seq<string>, sep: char)
    requires |parts| >= 1
    requires forall k :: 0 <= k < |parts| ==> sep !in parts[k]
    ensures SplitAll(Join(parts, sep), sep) == parts
  {
    if |parts| == 1 {
      SplitAllNoSep(parts[0], sep);
    } else {
      var more := parts[1..];
      assert forall k :: 0 <= k < |more| ==> more[k] == parts[k + 1];
      var tail := Join(more, sep);
      assert Join(parts, sep) == parts[0] + [sep] + tail;
      SplitJoin(more, sep);
      SplitAllConcat(parts[0], tail, sep);
      SplitAllNoSep(parts[0], sep);
      assert [parts[0]] + more == parts;
    }
  }

  /** Appending text without a separator extends the last piece. */
  lemma {:induction false} SplitAllAppend(a: string, b: string, sep: char)
    requires sep !in b
    ensures var pa := SplitAll(a, sep);
      SplitAll(a + b, sep) == pa[..|pa| - 1] + [pa[|pa| - 1] + b]
  {
    if |a| == 0 {
      SplitAllNoSep(b, sep);
      assert a + b == b;
    } else {
      var ab := a + b;
      assert ab[0] == a[0] && ab[1..] == a[1..] + b;
      SplitAllAppend(a[1..], b, sep);
      var rest := SplitAll(a[1..], sep);
      if a[0] == sep {
        ExtendLastAfterEmpty(rest, SplitAll(ab[1..], sep), b);
      } else {
        ExtendLastAfterChar(a[0], rest, SplitAll(ab[1..], sep), b);
      }
    }
  }

  /** Extending the last piece commutes with a new empty first piece. */
  lemma ExtendLastAfterEmpty(rest: seq<string>, restB: seq<string>, b: string)
    requires |rest| >= 1 && restB == rest[..|rest| - 1] + [rest[|rest| - 1] + b]
    ensures var pa := [""] + rest;
      [""] + restB == pa[..|pa| - 1] + [pa[|pa| - 1] + b]
  {
    var pa := [""] + rest;
    assert pa[..|pa| - 1] == [""] + rest[..|rest| - 1];
  }

  /** Extending the last piece commutes with a character prepended to the
      first piece. */
  lemma ExtendLastAfterChar(x: char, rest: seq<string>, restB: seq<string>, b: string)
    requires |rest| >= 1 && restB == rest[..|rest| - 1] + [rest[|rest| - 1] + b]
    ensures var pa := [[x] + rest[0]] + rest[1..];
      [[x] + restB[0]] + restB[1..] == pa[..|pa| - 1] + [pa[|pa| - 1] + b]
  {
    var n := |rest|;
    var pa := [[x] + rest[0]] + rest[1..];
    if n == 1 {
      AppendAssoc([x], rest[0], b);
    } else {
      assert restB[0] == rest[0] && restB[1..] == rest[1..n - 1] + [rest[n - 1] + b];
      assert pa[..|pa| - 1] == [[x] + rest[0]] + rest[1..n - 1];
    }
  }

  /** A non-empty string that does not end with the separator has a
      non-empty last piece. */
  lemma {:induction false} SplitAllLastNonEmpty(s: string, sep: char)
    requires |s| > 0 && s[|s| - 1] != sep
    ensures var ps := SplitAll(s, sep); ps[|ps| - 1] != ""
  {
    if |s| > 1 {
      SplitAllLastNonEmpty(s[1..], sep);
    }
  }


  function DropTrailingEmpty(parts: seq<string>): (r: seq<string>)
    ensures |r| <= |parts| && r == parts[..|r|]
    ensures |r| == 0 || r[|r| - 1] != ""
    ensures forall k :: |r| <= k < |parts| ==> parts[k] == ""
  {
    if |parts| > 0 && parts[|parts| - 1] == "" then DropTrailingEmpty(parts[..|parts| - 1])
    else parts
  }

  /** `s.split(String.valueOf(sep))` with Java's default limit of zero: a string
      without the separator is returned whole (even ""); otherwise the pieces
      with trailing empty pieces dropped. */
  function JavaSplit(s: string, sep: char): (r: seq<string>)
    ensures forall k :: 0 <= k < |r| ==> sep !in r[k]
  {
    if sep !in s then [s] else DropTrailingEmpty(SplitAll(s, sep))
  }

  /** The pieces `JavaSplit` returns are exactly the leading pieces of the full
      split, and it loses only empty ones. */
  lemma JavaSplitIsPrefix(s: string, sep: char)
    ensures var r := JavaSplit(s, sep);
      var all := SplitAll(s, sep);
      |r| <= |all| && r == all[..|r|] && forall k :: |r| <= k < |all| ==> all[k] == ""
  {
    if sep !in s {
      SplitAllNoSep(s, sep);
    }
  }

  /** The decimal digits of `n`, most significant first, without leading zeros. */
  function DecimalString(n: nat): (r: string)
    ensures |r| >= 1
    ensures forall i :: 0 <= i < |r| ==> '0' <= r[i] <= '9'
  {
    if n < 10 then [DigitChar(n)] else DecimalString(n / 10) + [DigitChar(n % 10)]
  }

  function DigitChar(d: nat): (c: char)
    requires d < 10
    ensures '0' <= c <= '9'
  {
    ('0' as int + d) as char
  }

  function DigitValue(c: char): (d: nat)
    requires '0' <= c <= '9'
    ensures d < 10 && DigitChar(d) == c
  {
    c as int - '0' as int
  }

  /** The value of a string of decimal digits. */
  function ParseDecimal(s: string): nat
    requires forall i :: 0 <= i < |s| ==> '0' <= s[i] <= '9'
  {
    if |s| == 0 then 0 else ParseDecimal(s[..|s| - 1]) * 10 + DigitValue(s[|s| - 1])
  }

  lemma {:induction false} DecimalRoundTrip(n: nat)
    ensures ParseDecimal(DecimalString(n)) == n
  {
    if n >= 10 {
      DecimalRoundTrip(n / 10);
      var s := DecimalString(n);
      assert s[..|s| - 1] == DecimalString(n / 10);
    }
  }
}

=== FILE: view_utils.dfy ===
/** `ViewUtils.setGone` and `setInvisible`: switching a view between shown
    and one of the two hidden states. A view is its visibility (null is
    None); each call also reports whether it invoked `setVisibility`. */
module ViewUtils {
  import opened Lang
  import opened Android

  /** Move a non-null view to `target`, calling `setVisibility` only when the
      view is not already there. */
  function MoveTo(view: Option<Visibility>, target: Visibility): (r: (Option<Visibility>, bool))
    ensures view.None? ==> r == (None, false)
    ensures view.Some? ==> r.0 == Some(target)
    ensures r.1 <==> view.Some? && view.value != target
  {
    match view
    case None => (None, false)
    case Some(v) => (Some(target), v != target)
  }

  /** `setGone(view, gone)`: GONE when `gone`, otherwise VISIBLE, from any
      state. A null view is returned as it is. */
  function SetGone(view: Option<Visibility>, gone: bool): (r: (Option<Visibility>, bool))
    ensures view.Some? && gone ==> r.0 == Some(Gone)
    ensures view.Some? && !gone ==> r.0 == Some(Visible)
    ensures view.None? ==> r == (None, false)
    ensures r.1 <==> view.Some? && view != r.0
  {
    MoveTo(view, if gone then Gone else Visible)
  }

  /** `setInvisible(view, invisible)`: INVISIBLE when `invisible`, otherwise
      VISIBLE, from any state. A null view is returned as it is. */
  function SetInvisible(view: Option<Visibility>, invisible: bool): (r: (Option<Visibility>, bool))
    ensures view.Some? && invisible ==> r.0 == Some(Invisible)
    ensures view.Some? && !invisible ==> r.0 == Some(Visible)
    ensures view.None? ==> r == (None, false)
    ensures r.1 <==> view.Some? && view != r.0
  {
    MoveTo(view, if invisible then Invisible else Visible)
  }

  /** Both operations are idempotent: a second identical call leaves the
      view as it is and calls nothing. */
  lemma Idempotent(view: Option<Visibility>, flag: bool)
    ensures SetGone(SetGone(view, flag).0, flag) == (SetGone(view, flag).0, false)
    ensures SetInvisible(SetInvisible(view, flag).0, flag) == (SetInvisible(view, flag).0, false)
  {
  }

  /** The resulting state does not depend on the state before: showing with
      either operation gives VISIBLE, even out of the other hidden state. */
  lemma ShowingForgetsState(a: Visibility, b: Visibility)
    ensures SetGone(Some(a), false).0 == SetInvisible(Some(b), false).0 == Some(Visible)
    ensures SetGone(Some(a), true).0 == SetGone(Some(b), true).0
    ensures SetInvisible(Some(a), true).0 == SetInvisible(Some(b), true).0
  {
  }

  /** The documentation of `setGone` says it has no effect on an INVISIBLE
      view, and that of `setInvisible` says the same of a GONE view; the code
      makes both VISIBLE and calls `setVisibility`. */
  lemma HiddenViewIsShown()
    ensures SetGone(Some(Invisible), false) == (Some(Visible), true)
    ensures SetInvisible(Some(Gone), false) == (Some(Visible), true)
  {
  }
}

=== FILE: web_view_utils.dfy ===
/** `WebViewUtils`: recognising and completing URLs, and turning the cookie
    string the platform's cookie manager reports for a URL into a map. */
module WebViewUtils {
  import opened Lang
  import Text

  // ---------------------------------------------------------------------------
  // isUrl

  /** `isUrl(url)`: whether the text contains a '.'; a null argument makes
      `url.contains` throw. */
  function IsUrl(url: Option<string>): (r: Result<bool>)
    ensures url.None? <==> r == Throws(NullPointer)
    ensures url.Some? ==> r.Ok? && (r.value <==> exists i :: 0 <= i < |url.value| && url.value[i] == '.')
  {
    match url
    case None => Throws(NullPointer)
    case Some(u) =>
      Text.ContainsChar(u, '.');
      Ok(Text.Contains(u, "."))
  }

  // ---------------------------------------------------------------------------
  // checkUrl

  const Http: string := "http://"
  const Https: string := "https://"
  const FileScheme: string := "file://"

  /** The three prefixes that `checkUrl` accepts as they are. */
  predicate HasScheme(url: string)
  {
    Text.StartsWith(url, Http) || Text.StartsWith(url, Https) || Text.StartsWith(url, FileScheme)
  }

  /** `checkUrl(url)`: null and the empty string come back unchanged; any
      other text gets "http://" in front unless it already starts with one of
      the three accepted prefixes. */
  function CheckUrl(url: Option<string>): (r: Option<string>)
    ensures url.None? <==> r.None?
    ensures url.Some? ==> |url.value| <= |r.value| && r.value[|r.value| - |url.value|..] == url.value
    ensures url.Some? && url.value != [] ==> HasScheme(r.value)
    ensures r == url <==> (url.None? || url.value == [] || HasScheme(url.value))
  {
    match url
    case None => None
    case Some(u) =>
      if |u| > 0 && !HasScheme(u) then
        var w := Http + u;
        assert w[..|Http|] == Http;
        assert w[|w| - |u|..] == u;
        Some(w)
      else url
  }

  /** Checking a checked URL changes nothing more. */
  lemma CheckUrlIdempotent(url: Option<string>)
    ensures CheckUrl(CheckUrl(url)) == CheckUrl(url)
  {
  }

  // ---------------------------------------------------------------------------
  // The cookie parser of synCookies

  /** The entry one ';'-separated segment contributes: with an '=' it is the
      trimmed text before the first '=' mapped to the trimmed rest (which may
      hold further '='s); without one it is the trimmed segment mapped to "". */
  function CookieEntry(segment: string): (string, string)
  {
    var i := Text.IndexOf(segment, '=');
    if i < 0 then (Text.Trim(segment), "")
    else (Text.Trim(segment[..i]), Text.Trim(segment[i + 1..]))
  }

  /** The segment splits at its first '=' when it has one, and is a key alone
      otherwise. */
  lemma CookieEntrySpec(segment: string)
    ensures '=' !in segment ==> CookieEntry(segment) == (Text.Trim(segment), "")
    ensures forall i :: 0 <= i < |segment| && segment[i] == '=' && '=' !in segment[..i] ==>
      CookieEntry(segment) == (Text.Trim(segment[..i]), Text.Trim(segment[i + 1..]))
  {
    forall i | 0 <= i < |segment| && segment[i] == '=' && '=' !in segment[..i]
      ensures Text.IndexOf(segment, '=') == i
    {
      Text.IndexOfAt(segment, '=', i);
    }
  }

  /** The entries of the segments, in order. */
  function Entries(segments: seq<string>): (r: seq<(string, string)>)
    ensures |r| == |segments|
    ensures forall j :: 0 <= j < |r| ==> r[j] == CookieEntry(segments[j])
  {
    seq(|segments|, j requires 0 <= j < |segments| => CookieEntry(segments[j]))
  }

  /** `HashMap.put` for each entry in order, so a later key overwrites. */
  function PutAll(m: map<string, string>, entries: seq<(string, string)>): map<string, string>
    decreases |entries|
  {
    if |entries| == 0 then m
    else PutAll(m[entries[0].0 := entries[0].1], entries[1..])
  }

  /** The map `synCookies` builds from the cookie string: nothing for null or
      "", otherwise one entry per segment of `cookie.split(";")`, which drops
      trailing empty segments. */
  function ParseCookies(cookie: Option<string>): (r: map<string, string>)
    ensures cookie.None? || cookie == Some([]) ==> r == map[]
  {
    match cookie
    case None => map[]
    case Some(c) =>
      if |c| == 0 then map[]
      else
        var segments := Text.JavaSplit(c, ';');
        if |segments| > 0 then PutAll(map[], Entries(segments)) else map[]
  }

  /** The keys of the entries, in order. */
  function Keys(entries: seq<(string, string)>): (r: seq<string>)
    ensures |r| == |entries|
    ensures forall j :: 0 <= j < |r| ==> r[j] == entries[j].0
  {
    seq(|entries|, j requires 0 <= j < |entries| => entries[j].0)
  }

  /** The reference reading of an entry list: the position of the LAST
      occurrence of `key` among the keys, found scanning from the back, or -1. */
  function LastIndex(keys: seq<string>, key: string): (r: int)
    ensures -1 <= r < |keys|
    ensures r == -1 <==> key !in keys
    ensures r >= 0 ==> keys[r] == key && key !in keys[r + 1..]
  {
    if |keys| == 0 then -1
    else if keys[|keys| - 1] == key then |keys| - 1
    else
      var init := keys[..|keys| - 1];
      assert keys == init + [keys[|keys| - 1]];
      var r := LastIndex(init, key);
      LastIndexSnoc(init, keys[|keys| - 1], key, r);
      r
  }

  /** A last key other than `key` moves no occurrence of it. */
  lemma LastIndexSnoc(init: seq<string>, last: string, key: string, r: int)
    requires last != key && -1 <= r < |init|
    requires r == -1 <==> key !in init
    requires r >= 0 ==> init[r] == key && key !in init[r + 1..]
    ensures r == -1 <==> key !in init + [last]
    ensures r >= 0 ==> (init + [last])[r] == key && key !in (init + [last])[r + 1..]
  {
    if r >= 0 {
      assert (init + [last])[r + 1..] == init[r + 1..] + [last];
    }
  }

  lemma {:induction false} PutAllSnoc(m: map<string, string>, entries: seq<(string, string)>, e: (string, string))
    ensures PutAll(m, entries + [e]) == PutAll(m, entries)[e.0 := e.1]
    decreases |entries|
  {
    if |entries| == 0 {
      assert entries + [e] == [e];
    } else {
      assert (entries + [e])[1..] == entries[1..] + [e];
      PutAllSnoc(m[entries[0].0 := entries[0].1], entries[1..], e);
    }
  }

  /** Putting the entries one after another gives every key the value of the
      last entry that names it, and no other keys. */
  lemma {:induction false} PutAllLastWins(entries: seq<(string, string)>, key: string)
    ensures key in PutAll(map[], entries) <==> key in Keys(entries)
    ensures key in PutAll(map[], entries) ==>
      PutAll(map[], entries)[key] == entries[LastIndex(Keys(entries), key)].1
    decreases |entries|
  {
    if |entries| > 0 {
      var init := entries[..|entries| - 1];
      var e := entries[|entries| - 1];
      PutAllLastWins(init, key);
      assert init + [e] == entries;
      PutAllSnoc(map[], init, e);
      assert Keys(entries) == Keys(init) + [e.0];
    }
  }

  /** The map holds exactly the keys of the kept segments, each with the value
      of the last segment naming it. */
  lemma ParseCookiesLastWins(c: string, key: string)
    requires |c| > 0
    ensures var r := ParseCookies(Some(c));
      var entries := Entries(Text.JavaSplit(c, ';'));
      && (key in r <==> key in Keys(entries))
      && (key in r ==> r[key] == entries[LastIndex(Keys(entries), key)].1)
  {
    PutAllLastWins(Entries(Text.JavaSplit(c, ';')), key);
  }

  /** A segment "k=v" with no '=' in k splits into the trimmed k and the
      trimmed v, so the value keeps every '=' after the first. */
  lemma CookieEntryOfPair(k: string, v: string)
    requires '=' !in k
    ensures CookieEntry(k + "=" + v) == (Text.Trim(k), Text.Trim(v))
  {
    var s := k + "=" + v;
    assert s[..|k|] == k && s[|k| + 1..] == v;
    Text.IndexOfAt(s, '=', |k|);
  }

  /** A segment "k=v" followed by "k=w" is overridden: the map keeps w. */
  lemma CookieOverride(k: string, v: string, w: string)
    requires '=' !in k
    ensures PutAll(map[], Entries([k + "=" + v, k + "=" + w])) == map[Text.Trim(k) := Text.Trim(w)]
  {
    CookieEntryOfPair(k, v);
    CookieEntryOfPair(k, w);
    SameKeyPair(k + "=" + v, k + "=" + w);
  }

  /** Two segments with the same key leave one entry, the second's. */
  lemma SameKeyPair(first: string, second: string)
    requires CookieEntry(first).0 == CookieEntry(second).0
    ensures PutAll(map[], Entries([first, second])) == map[CookieEntry(second).0 := CookieEntry(second).1]
  {
    var entries := Entries([first, second]);
    var (key, a) := CookieEntry(first);
    var b := CookieEntry(second).1;
    assert entries == [(key, a), (key, b)];
    PutTwiceSameKey(key, a, b);
  }

  lemma PutTwiceSameKey(key: string, a: string, b: string)
    ensures PutAll(map[], [(key, a), (key, b)]) == map[key := b]
  {
    var es := [(key, a), (key, b)];
    assert es[1..] == [(key, b)];
    assert PutAll(map[], es) == PutAll(map[key := a], [(key, b)]);
    assert [(key, b)][1..] == [];
    assert PutAll(map[key := a], [(key, b)]) == map[key := a][key := b];
    assert map[key := a][key := b] == map[key := b];
  }

  /** A trailing ';' adds no entry: `split` drops the empty last segment, and
      ";" alone splits into nothing. */
  lemma TrailingSemicolonIgnored(c: string)
    ensures ParseCookies(Some(c + ";")) == ParseCookies(Some(c))
  {
    Text.SplitAllConcat(c, "", ';');
    assert c + [';'] + "" == c + ";";
    Text.SplitAllNoSep("", ';');
    var all := Text.SplitAll(c, ';');
    assert Text.DropTrailingEmpty(all + [""]) == Text.DropTrailingEmpty(all) by {
      assert (all + [""])[..|all|] == all;
    }
    if ';' !in c {
      Text.SplitAllNoSep(c, ';');
    }
  }
}
